=== FILE: README.md ===
# Agricultural sample indexes, modelled in Dafny

This project models the six in-memory indexes of the agricultural-sample program. Every
index stores the same record: an integer `id`, a year, a state, a crop and five
floating-point measures. Every index is keyed by `id`.

- **AVL tree** (`arvore_avl.c`): modelled on values in `avl_tree.dfy` and `avl_order.dfy`.
  - A `Tree` datatype keeps the cached `altura` of every node.
  - Insertion, removal, search, the in-order and pre-order walks and the id helpers are
    functions over that datatype.
  - `min_valor_no` is a loop.
  - The proofs show that every insertion and removal keeps the cached heights right, keeps
    the tree balanced and keeps the in-order walk strictly increasing. Insertion adds
    exactly the new sample, or changes nothing when the id is already present. Removal
    takes out exactly the samples carrying the id.
- **Skip list** (`skiplist.c`): a class over an arena in `skiplist.dfy`, with the
  position-based link lemmas in `skiplist_links.dfy`.
  - Node 0 is the header. Each node has sixteen forward links, and `nivel` is the highest
    level in use.
  - The descent, splice, unlink and level-lowering loops are methods with loop invariants.
  - Insertion and removal are proved to keep every level linked to the next taller node,
    to keep the level-0 chain sorted and to keep the header's links above `nivel` null.
    Their effect on the level-0 chain is stated exactly: the new sample at its lower
    bound, or the first carrier of the id deleted.
- **Chained hash table** (`hash.c`): a class whose `tabela` is an array of 2011 chains, in
  `hash_table.dfy`.
  - The table's contents are the chains concatenated in bucket order.
  - Insertion prepends the truncated copy of the sample.
  - Search and removal act on the first match in the id's bucket.
- **Unsorted linked list** (`lista_encadeada.c`): a class holding the chain as a sequence,
  in `linked_list.dfy`.
- **Sorted linked list** (`lista_ordenada.c`): the same shape, in `sorted_list.dfy`.
  - Two of its routines misbehave. Each is modelled as written next to a corrected version;
    see Findings.
  - Its filtered search treats only a missing (NULL) filter as a wildcard.
- **Trie** (`trie.c`): a class over an arena of 27-way nodes, in `trie.dfy`.
  - Words are normalised: A–Z is lower-cased, and characters outside a–z and space are
    skipped.
  - Every node has one parent, so the arena is a tree.
  - After an insertion the stored words are exactly the old ones plus the normalised word.
  - The only new nodes are on that word's path.
  - Search returns 1 exactly when the normalised word is stored.
  - The collection routine appends exactly the stored words, each once, in child-index
    order.

`records.dfy` holds what all indexes share:

- The sample record and the filter predicate.
- The case-insensitive comparison.
- The running-maximum id helpers.
- First-match search and removal on sequences.
- Sequence insertion and deletion at a position.

## Model

| member | source | states |
|---|---|---|
| Records.LowerString | hash.c:297 | Same length as the input, each character lower-cased. |
| Records.EqualsIgnoreCase | hash.c:297 | `strcasecmp(a, b) == 0` holds exactly when both strings lower-case to the same string. So equal strings match and strings of different lengths never do. |
| Records.TextFilterMatches | hash.c:297-299 | A NULL filter accepts every field, and a filter equal to the field accepts it. Any other accepted field lower-cases to the filter, except an empty filter under the NULL-or-empty wildcard rule. |
| Records.Matches | hash.c:295-301 | A reported sample lies in the inclusive year range. With both text filters NULL, or both equal to the sample's fields, being reported is exactly lying in that range. |
| Records.ToLower | hash.c:297 | Upper-case ASCII letters map to their lower-case letter and every other character is left alone, as `strcasecmp` folds them. |
| Records.EmptyFilterDifference | lista_ordenada.c:126-128 | With no empty-string filter the two wildcard rules agree. Under the sorted list's rule (only NULL is a wildcard), an empty filter matches only samples whose field is empty. |
| Records.Truncate | hash.c:53-58 | The copy has length min(length, n) and is a prefix of the original. |
| Records.MaxIdFrom0 | lista_encadeada.c:35-45 | The running maximum starting at 0 bounds every id and is 0 or some sample's id. |
| Records.NextId | lista_encadeada.c:35-45 | One above the running maximum: at least 1, above every id, and 1 or one above an existing id. |
| Records.IndexOfId | lista_encadeada.c:105-114 | The index is at most the length. Below it no sample carries the id. When it is inside the sequence, the sample there carries the id. |
| Records.RemoveFirst | lista_encadeada.c:160-182 | With no carrier the sequence is unchanged. Otherwise it is one shorter, and its multiset plus the first carrier is the old multiset. |
| Records.LowerBound | skiplist.c:66-72 | The index of the first sample whose id is not below the given id. Every sample before it has a smaller id. |
| Records.FirstWithId | lista_encadeada.c:105-114 | None exactly when no sample carries the id. Otherwise the first sample carrying it. |
| Records.RemoveFirstUndo | lista_encadeada.c:160-182 | Removing the first carrier loses exactly that sample (length and multiset). Putting it back at its position restores the sequence. |
| Records.RemoveFirstAbsent | lista_encadeada.c:180-181 | Removing an absent id leaves the sequence unchanged. |
| Records.Selected | hash.c:286-319 | A filtered walk reports exactly the walked samples that match, in walk order. |
| Records.SelectedAppend | arvore_avl.c:436-453 | Filtering a concatenation filters each part. |
| Records.InsertAtLowerBound | skiplist.c:62-100 | Inserting at the lower bound of the id keeps a non-decreasing sequence non-decreasing. |
| Records.DeleteKeepsOrder | skiplist.c:134-163 | Deleting any position keeps a non-decreasing sequence non-decreasing. |
| Records.LowerBoundIsFirstOccurrence | skiplist.c:109-125 | In a sorted sequence the id's first occurrence, if any, is at its lower bound. |
| Records.MultisetIns | skiplist.c:95-99 | Inserting at a position adds exactly one element to the multiset. |
| Records.InsDel | skiplist.c:151-155 | Re-inserting a deleted element at its position restores the sequence. |
| Records.Max | arvore_avl.c:34-39 | The result is one of the arguments and at least both. |
| AvlTree.HeightsCached | arvore_avl.c:22-25 | Defines right cached heights. Its contract states that then `Altura`, the cached height with 0 for an absent child, is the true height. |
| AvlTree.BalanceFactor | arvore_avl.c:82-90 | With right cached heights it is the left child's true height minus the right child's. On an AVL tree it lies in [-1, 1]. |
| AvlTree.InOrder | arvore_avl.c:266-276 | The left-node-right order of `imprimir_avl` and `salvar_aux_avl`. The walk is empty exactly for the empty tree. |
| AvlTree.RotateRight | arvore_avl.c:46-57 | The rotation keeps the in-order walk. The moved nodes get correct cached heights from children that had them. |
| AvlTree.RotateLeft | arvore_avl.c:64-75 | The mirror image of the right rotation. |
| AvlTree.RotateRightRepairs | arvore_avl.c:140-142 | A left-left imbalance of 2 is repaired by one right rotation, with the resulting height given. |
| AvlTree.RotateLeftRepairs | arvore_avl.c:143-144 | The right-right mirror case. |
| AvlTree.RotateLeftRightRepairs | arvore_avl.c:145-146 | A left-right imbalance is repaired by the double rotation, and the height drops back to that of the left child. |
| AvlTree.RotateRightLeftRepairs | arvore_avl.c:147-148 | The right-left mirror case. |
| AvlTree.RebalanceInsert | arvore_avl.c:130-148 | After one child has grown, refreshing the height and choosing the rotation by the balance factor and the inserted id gives a valid AVL tree with the same in-order walk. It leaves a balanced node as it was, apart from its height. |
| AvlTree.Rejoin | arvore_avl.c:211-228 | A node whose children each lost at most one level, rebalanced, is an AVL tree whose height dropped by at most one. |
| AvlTree.Insert | arvore_avl.c:119-149 | Insertion keeps the tree AVL (cached heights right, balance factors in [-1, 1]). The height grows by at most one, and when it grows the root leans towards the new id. An empty tree becomes a single leaf. |
| AvlTree.Leftmost | arvore_avl.c:156-164 | The node reached by following left children holds the first sample of the in-order walk. |
| AvlTree.MinValueNode | arvore_avl.c:156-164 | The loop over the cursor returns that node. |
| AvlTree.RebalanceDelete | arvore_avl.c:211-228 | After a removal below, the node is refreshed and rotated into a valid AVL tree with the same walk. A balanced node keeps its shape. |
| AvlTree.LeftHeavyAfterDelete | arvore_avl.c:214-219 | Left-heavy by 2: a single right rotation when the left child's balance factor is >= 0, else the double rotation. The result is AVL, keeps the walk, and its height is within one of the left child's. |
| AvlTree.RightHeavyAfterDelete | arvore_avl.c:221-226 | The mirror case, choosing the single rotation when the factor is <= 0. |
| AvlTree.Delete | arvore_avl.c:173-229 | Removal keeps the tree AVL, and the height drops by at most one. |
| AvlTree.Search | arvore_avl.c:238-247 | A node found carries the id and is a sample of the tree. |
| AvlTree.RaiseMaxId | arvore_avl.c:354-364 | The result is at least the running value, bounds every id, and is the running value or some sample's id. |
| AvlTree.NextFreeId | arvore_avl.c:371-375 | One above the largest id, or 1 for an empty tree. |
| AvlTree.CountNodes | arvore_avl.c:651-659 | Adds the number of samples of the tree to the counter. |
| AvlTree.PreOrder | arvore_avl.c:354-364 | The pre-order walk holds the same samples as the in-order walk. |
| AvlTree.SearchFiltered | arvore_avl.c:436-453 | Appends the matching samples of the pre-order walk, NULL and empty filters matching all. |
| AvlOrder.SortedJoin | arvore_avl.c:266-276 | A node's walk is strictly increasing exactly when both subtrees' walks are and the node's id lies between them. |
| AvlOrder.SearchFinds | arvore_avl.c:238-247 | On a search tree, the search finds a node exactly when the tree holds the id. |
| AvlOrder.InsertNew | arvore_avl.c:119-149 | Inserting an absent id keeps the walk strictly increasing and adds exactly the new sample. |
| AvlOrder.InsertPresent | arvore_avl.c:122-128 | Inserting an id already present returns the tree unchanged. |
| AvlOrder.DeleteOrdered | arvore_avl.c:173-229 | Removal keeps the walk strictly increasing and removes exactly the samples carrying the id. The size drops by one when the id was present, and an absent id changes nothing. |
| AvlOrder.DeleteTwoChildren | arvore_avl.c:190-203 | A two-child node takes the first sample of its right walk, which is then removed from the right subtree. |
| AvlOrder.LoadAll | arvore_avl.c:284-306 | Loading records into an AVL search tree keeps it one. Every earlier sample stays, nothing else enters, and every loaded id is present. |
| SkipLinks.Succ | skiplist.c:66-72 | The next position after p whose height exceeds level l: every position in between is not above l. |
| SkipLinks.SuccUnique | skiplist.c:66-72 | Those properties determine the successor. |
| SkipLinks.InsertLinks | skiplist.c:95-99 | Splicing a node of height h in at position k, below every level under h, leaves every link in successor form. |
| SkipLinks.RemoveLinks | skiplist.c:151-155 | Unlinking the node at position k from every level below its height leaves every link in successor form. |
| SkipList.RandomLevel | skiplist.c:48-54 | The drawn level lies in 1..16. It is one above the number of leading draws below 50, stopping at 16. |
| SkipList.HeadLink | skiplist.c:159-161 | The header's level-l link is null exactly when no node is taller than l. |
| SkipList.InsertKeeps | skiplist.c:62-100 | Splicing the new node at the lower bound keeps the structure linked and sorted, and the chain gains the sample there. |
| SkipList.RemoveKeeps | skiplist.c:134-163 | Unlinking the node at position k keeps the structure linked and sorted, and the chain loses that position. |
| SkipList.SkipList.constructor | skiplist.c:21-42 | `nivel` is 0, the chain is empty and all sixteen header links are null. |
| SkipList.SkipList.HeadLinksAboveNivelAreNull | skiplist.c:159-161 | Every header link above `nivel` is null. |
| SkipList.SkipList.LevelLink | skiplist.c:66-72 | A level link of a node goes to the next taller node, whose id is not below its own. |
| SkipList.SkipList.Descend | skiplist.c:66-72 | The descent fills the update vector with, at every level, the last node before the id's lower bound. |
| SkipList.SkipList.Search | skiplist.c:109-125 | Returns the first sample of the level-0 chain carrying the id, or none. |
| SkipList.SkipList.Insert | skiplist.c:62-100 | The chain becomes the old chain with the new sample at its lower bound, duplicates accepted. The multiset gains it, `nivel` becomes max(`nivel`, level - 1), the node's drawn height enters the height sequence at the same position, and the invariant is kept. |
| SkipList.SkipList.InsertAt | skiplist.c:87-99 | Raises `nivel` and splices the node in at position k of the chain, with its height h at position k of the height sequence. |
| SkipList.SkipList.Splice | skiplist.c:95-99 | The new node takes over, at every level below its height, the link of the recorded predecessor, which now links to it. |
| SkipList.SkipList.Remove | skiplist.c:134-163 | Absent id: returns 0 and changes nothing. Otherwise it returns 1 and deletes the first carrier from the chain and its height from the height sequence. `nivel` never rises. |
| SkipList.SkipList.RemoveAt | skiplist.c:146-162 | Unlinks the node at position k, deletes position k from the chain and from the height sequence, and lowers `nivel`, keeping the invariant. |
| SkipList.SkipList.Unlink | skiplist.c:151-155 | Every predecessor that links to the node at a level takes over its link there. Nothing else changes. |
| SkipList.SkipList.DropEmptyLevels | skiplist.c:159-161 | Lowers `nivel` while the header's top link is null, restoring the top-level invariant. |
| SkipList.SkipList.Samples | skiplist.c:243-250 | The level-0 walk yields the chain and its length. |
| SkipList.SkipList.CreateId | skiplist.c:260-271 | One above the largest id, starting at 0. |
| SkipList.SkipList.SearchFiltered | skiplist.c:329-354 | The matching samples of the chain in order, NULL and empty filters matching all, and their count. |
| SkipList.SkipList.InsertAll | skiplist.c:206-226 | The chain's multiset gains every record loaded. |
| HashTable.FuncaoHash | hash.c:32-34 | C's truncated remainder: strictly between -2011 and 2011, congruent to the id, never negative for ids >= 0 and never positive for ids < 0. |
| HashTable.FuncaoHashInBounds | hash.c:32-34 | The bucket index is in [0, 2011) exactly when the id is non-negative or a multiple of 2011. |
| HashTable.Stored | hash.c:53-58 | The stored state and crop are the inputs truncated to 9 and 49 characters. Every other field is kept. |
| HashTable.InConcat | hash.c:138-153 | A sample is in the table exactly when it is in some bucket. |
| HashTable.ConcatUpdate | hash.c:65-66 | Replacing one bucket's chain replaces it inside the concatenation. |
| HashTable.PrependToBucket | hash.c:65-66 | Prepending to a bucket adds exactly that sample to the table's multiset. |
| HashTable.RemoveFromBucket | hash.c:101-113 | Removing a bucket's first carrier takes exactly that sample out of the table's multiset. |
| HashTable.HashTable.constructor | hash.c:21-26 | All 2011 buckets are empty. |
| HashTable.HashTable.Clear | hash.c:121-132 | Every bucket is emptied and the table holds nothing. |
| HashTable.HashTable.Insert | hash.c:42-68 | The stored copy becomes the head of its bucket, other buckets are unchanged, duplicates are accepted, and the multiset gains it. |
| HashTable.HashTable.SetBucket | hash.c:65-66 | Only the given bucket changes. |
| HashTable.HashTable.Search | hash.c:77-87 | The first sample carrying the id in its bucket, which is the most recently inserted one. |
| HashTable.HashTable.SearchBucketIsEnough | hash.c:77-87 | The id's bucket holds every sample with that id, so the search is None exactly when the table has no such sample. |
| HashTable.HashTable.Remove | hash.c:96-115 | Returns 1 exactly when the bucket holds the id. The bucket loses its first carrier and other buckets are unchanged. On 0 the contents are unchanged, on 1 the multiset loses that sample. |
| HashTable.HashTable.UnlinkAt | hash.c:103-107 | Bypassing the first carrier from the bucket head or from the previous sample removes it from the bucket. |
| HashTable.HashTable.Samples | hash.c:191-213 | The walk over all buckets yields the table's contents in bucket order. |
| HashTable.HashTable.NextFreeId | hash.c:262-276 | One above the largest id of the table, starting at 0. |
| HashTable.HashTable.SearchFiltered | hash.c:286-319 | The matching samples in bucket order, NULL and empty filters matching all, and their count. |
| HashTable.HashTable.InsertAll | hash.c:161-183 | The table's multiset gains the stored copy of every record loaded. |
| HashTable.StoredAll | hash.c:53-58 | The stored copy of each record, position by position. |
| LinkedList.Reversed | lista_encadeada.c:229-235 | The element at i is the element at n-1-i of the input. |
| LinkedList.LinkedList.constructor | lista_encadeada.c:22-28 | The list starts empty. |
| LinkedList.LinkedList.Insert | lista_encadeada.c:22-28 | The new sample becomes the head and the old list its tail. |
| LinkedList.LinkedList.InsertAll | lista_encadeada.c:229-235 | Inserting r1..rn one by one gives rn..r1 followed by the old list. |
| LinkedList.LinkedList.NextFreeId | lista_encadeada.c:35-45 | One above the largest id, starting at 0. |
| LinkedList.LinkedList.Search | lista_encadeada.c:105-114 | The first sample carrying the id, or none. |
| LinkedList.LinkedList.Remove | lista_encadeada.c:160-182 | 1 when the id is present: the first carrier is removed and the rest keeps its order. 0 with the list unchanged otherwise, the empty list included. |
| LinkedList.LinkedList.Samples | lista_encadeada.c:246-263 | The walk yields the list from the head. |
| LinkedList.LinkedList.SearchFiltered | lista_encadeada.c:124-151 | The matching samples in list order, NULL and empty filters matching all, and their count. |
| LinkedList.SearchAfterInsert | lista_encadeada.c:22-28 | After a prepend, a search for the new id finds the new sample, and searches for other ids are unaffected. |
| LinkedList.RemoveAfterInsert | lista_encadeada.c:160-182 | Removing the id just prepended gives the old list back. |
| SortedList.InsertPos | lista_ordenada.c:34-42 | The walk links the new sample after the head, before the first later sample whose id is not below it. |
| SortedList.WalkInsert | lista_ordenada.c:23-43 | `insereOrdenadoID_LO` as written: the result holds the new sample, nothing that was not in the old list, and at most one more sample than the old list. |
| SortedList.SortedInsert | lista_ordenada.c:23-43 | The corrected insertion: one sample longer, holding exactly the new sample and the old ones. |
| SortedList.WalkInsertEmpty | lista_ordenada.c:29-32 | Inserting into the empty list gives the one-element list. |
| SortedList.WalkInsertAfterHead | lista_ordenada.c:34-42 | With a head id not above the new id, the result is sorted, has exactly one more sample, and places it before the first later sample with id >= its own. |
| SortedList.NewMinimumDropsList | lista_ordenada.c:29-32 | As written, a new minimum replaces the whole list: the old head is lost and the multiset is not the old one plus the sample. |
| SortedList.SortedInsertAddsOne | lista_ordenada.c:23-43 | The corrected insertion adds exactly the new sample. |
| SortedList.SortedInsertKeepsOrder | lista_ordenada.c:23-43 | The corrected insertion keeps the list sorted. |
| SortedList.WalkInsertAgrees | lista_ordenada.c:29-42 | The as-written and corrected insertions agree exactly when the list is empty or its head id is not above the new id. |
| SortedList.LargestIdIsTaken | lista_ordenada.c:231-241 | As written, on a list holding a positive id the value `criar_id_LO` returns is already some sample's id. |
| SortedList.LargestIdExample | lista_ordenada.c:158 | On the list holding only id 5 the value given to the new sample is 5, already taken. |
| SortedList.SortedList.constructor | lista_ordenada.c:23-43 | The list starts empty. |
| SortedList.SortedList.WalkPosition | lista_ordenada.c:36-39 | The cursor loop stops just before the insertion position. |
| SortedList.SortedList.InsertAsWritten | lista_ordenada.c:23-43 | The list becomes the as-written insertion of the sample. It stays sorted. |
| SortedList.SortedList.Insert | lista_ordenada.c:23-43 | The corrected insertion: the list gains exactly the sample and stays sorted. |
| SortedList.SortedList.LargestId | lista_ordenada.c:231-241 | `criar_id_LO` as written: the running maximum from 0. |
| SortedList.SortedList.NextFreeId | lista_ordenada.c:231-241 | The corrected helper: one above the running maximum, the id of no sample. |
| SortedList.SortedList.Search | lista_ordenada.c:250-259 | The first sample carrying the id, or none. |
| SortedList.SortedList.Remove | lista_ordenada.c:267-293 | On a non-empty list, the first carrier is removed and the others keep their order. The list stays sorted and the multiset loses exactly that sample. |
| SortedList.SortedList.WalkTo | lista_ordenada.c:280-283 | The walk stops at the first carrier of the id, or past the end. |
| SortedList.SortedList.Samples | lista_ordenada.c:205-224 | The walk yields the list and its length. |
| SortedList.SortedList.SearchFiltered | lista_ordenada.c:117-146 | The matching samples in list order, only NULL filters matching all, and their count. |
| SortedList.RemoveFirstFacts | lista_ordenada.c:267-293 | Removing the first carrier keeps order and loses exactly that sample. |
| SortedList.InsertPosUnique | lista_ordenada.c:36-39 | The stopping conditions of the walk determine the insertion position. |
| SortedList.SearchInSortedList | lista_ordenada.c:250-259 | In a sorted list, the search finds the id exactly when it sits at its lower bound. |
| Trie.IndiceTrie | trie.c:24-32 | 'a'..'z' map to 0..25 and space to 26, and every other character to -1. |
| Trie.CharOf | trie.c:24-32 | The inverse of the index on 0..26. |
| Trie.Normalize | trie.c:99-108 | Only letters and spaces remain, upper-case letters lowered. |
| Trie.NormalizeIdempotent | trie.c:133-140 | Normalising twice is normalising once, so words with the same normal form are indistinguishable. |
| Trie.NormalizeAppend | trie.c:99-108 | Normalisation reads the word character by character. |
| Trie.ReachAppend | trie.c:110-115 | Following u then v is following u + v. |
| Trie.ReachExtends | trie.c:110-112 | A path that exists keeps its end node when links are only added. |
| Trie.ReachBack | trie.c:110-112 | After links towards new nodes are added, a path that ends on an old node is a path of the old trie. |
| Trie.ReachInjective | trie.c:110-112 | In the trie two words whose paths end on the same node are the same word. |
| Trie.NormalizePrefix | trie.c:97-108 | The normal form of a prefix of the word is a prefix of the word's normal form. |
| Trie.StoredMonotone | trie.c:110-117 | A stored word stays stored when links are added and word ends set. |
| Trie.AddChild | trie.c:110-112 | Linking a fresh node with the character of its link keeps the arena well linked, labelled and a tree, and only adds a link towards the new node. |
| Trie.MarkWordEnd | trie.c:117 | Setting the word end stores the word, keeps old words and marks no other node. |
| Trie.NothingElseStored | trie.c:110-117 | After the path of a word is grown and its end marked, every stored word is that word or was stored before. |
| Trie.OnPathGrow | trie.c:110-112 | When a step adds at most one node, at the end of the path of a longer prefix of the word, every added node stays on the word's path. |
| Trie.WordsExact | trie.c:265-283 | The words collected below a node are exactly the prefix followed by a word stored below it. |
| Trie.ChildWordsExact | trie.c:276-282 | The words of children i.. start with the prefix, then a character of index at least i. |
| Trie.WordsDistinct | trie.c:265-283 | The words collected below any node are pairwise different, because child i contributes only words whose next character has index i. |
| Trie.ChildWordsDistinct | trie.c:276-282 | The same for the words of children i.. of a node. |
| Trie.NullChildren | trie.c:44-47 | Twenty-seven null links. |
| Trie.Trie.constructor | trie.c:56-60 | The root has character NUL, no children and no word. No non-empty word is found. |
| Trie.Trie.NewNode | trie.c:39-50 | A new node with the character, 27 null links and no word end. Earlier nodes are unchanged. |
| Trie.Trie.Child | trie.c:110-115 | Moves to the end of the path of the extended word. An existing child leaves the trie unchanged. Otherwise the only change is one new node with 27 null links, labelled with the character and linked from the current node. |
| Trie.Trie.Insert | trie.c:93-118 | The stored words afterwards are exactly those stored before plus the normalised word. The only new word end is the word's node. Links are only added, every new link leads to a new node, and every new node lies on the word's path. |
| Trie.Trie.InsertPath | trie.c:97-115 | The loop reaches the end of the path of the normalised word. It adds only unmarked nodes, each the end of the path of a prefix of the word. Existing links are kept, and the links it adds lead to new nodes. |
| Trie.Trie.Advance | trie.c:99-115 | One turn of that loop: a character without an index is skipped, otherwise the current node moves one step along the word's path. |
| Trie.Trie.Search | trie.c:127-149 | Returns 1 exactly when the normalised word is found, else 0. |
| Trie.Trie.DeadEnd | trie.c:141-143 | Once a prefix's path is missing, the word is not found. |
| Trie.Trie.Collect | trie.c:265-283 | Appends, in child-index order, the words below the node written after the prefix, a word before its extensions, and counts them. A null node appends nothing. |
| Trie.Trie.CollectChildren | trie.c:276-282 | The loop appends the words of the 27 children in index order. |
| Trie.Trie.CollectRootExact | trie.c:158-176 | From the root with an empty prefix, the collected words are exactly the stored words, and none occurs twice, so the count is the number of stored words. |

## Left out

- Input and output are not modelled: CSV reading and writing, `scanf`/`fgets` prompts, `printf` listings, float formatting and the menus of `menu.c`. Walks that print or write are modelled as the sequence of samples they visit.
- Every `bench_*` routine is left out, because it measures clocks, sleeps and memory use.
- The five float measures are carried as opaque `real` values and never computed on.
- `malloc` failure is not modelled, and neither are the `free`/`liberar*`/`libera*` routines. Allocation is assumed to succeed.
- In the skip-list and trie arenas a removed node stays in the arena unreferenced, which stands for `free`.
- `nivel_aleatorio_skiplist` calls `rand()`. The draws are a parameter function `draw` of `SkipList.RandomLevel`. `SkipList.SkipList.Insert` takes the drawn level as a parameter in 1..16.
- Integer ids are unbounded. 32-bit overflow of `maior + 1` in the id helpers is not modelled.
- The AVL tree is modelled on values. The C rewrites the `esq`/`dir`/`altura` fields of nodes it exclusively owns and returns the new subtree root, so the model does not capture node identity or aliasing. The record copy into a two-child node becomes a new node with the successor's sample.
- AvlTree.Insert, AvlTree.Delete: require `Avl(t)`. The double rotations dereference the grandchild that only a balanced tree guarantees.
- HashTable.HashTable.Insert, HashTable.HashTable.Search, HashTable.HashTable.Remove: require `0 <= FuncaoHash(id)`. For a negative id that is not a multiple of 2011, the C indexes `tabela` out of bounds (`HashTable.FuncaoHashInBounds` states exactly when that happens).
- SortedList.SortedList.Remove: requires a non-empty list, because `remover_LO` reads the head's id before any NULL check (lista_ordenada.c:275).
- Trie.Trie.Collect: the output buffer `lista[][50]` and the prefix buffer are unbounded sequences here. Words of 50 or more characters overflow them in C.
- `buscar_prefixo_trie` and `listar_palavras_trie`'s printing are not modelled. The order they rely on is the contract of `Trie.Trie.Collect`, through `Words` and `ChildWords`. The content, each word once, is given by `Trie.Trie.CollectRootExact`.
- `carregar_dados_trie` is not modelled, since it is file parsing.
- `criar_amostra_*` (stdin prompts) is not modelled. The id helpers they call are.
- Records.Truncate: strings are sequences of characters, and truncation counts characters. `strncpy` counts bytes, so the two agree only on ASCII text. For a multibyte UTF-8 character the C keeps fewer characters and may cut one in half: "São Paulo" is 9 characters but 10 bytes, so C stores "São Paul" while the model keeps the whole name.
- HashTable.Stored: truncates to 9 and 49 characters through `Records.Truncate`, so it shares that byte/character difference.
- Case-insensitive comparison folds only ASCII letters, as `strcasecmp` does in the C locale. Locale-dependent folding is not modelled.
- `inserir_skiplist` keeps the chain ordered by id (skiplist.c:56) but never checks for an id already present (skiplist.c:62-100). A duplicate goes before the samples already carrying its id, so the model's chain is non-decreasing rather than strictly increasing.

## Findings

| source | as written | input that shows it | evidently intended | confidence | as-written member | corrected member |
|---|---|---|---|---|---|---|
| lista_ordenada.c:29-32 | a sample whose id is below the head's id replaces the whole list | list [id 5], insert id 3: result is [id 3], sample 5 is lost | link the new sample before the old head | not executed | SortedList.NewMinimumDropsList | SortedList.SortedInsertAddsOne |
| lista_ordenada.c:231-241 | `criar_id_LO` returns the largest id, and `criar_amostra_LO` gives it to the new sample (line 158) | list [id 5]: the new sample gets id 5, already taken | return the largest id plus one, as the other indexes do | not executed | SortedList.LargestIdIsTaken | SortedList.SortedList.NextFreeId |

=== FILE: avl_order.dfy ===
/**
 * The search-tree side of the AVL index: ids strictly increase along the in-order walk,
 * and insertion, removal, search and the bulk load keep or use that order.
 */
module AvlOrder {
  import opened Records
  import opened AvlTree

  /** The binary-search-tree property: ids strictly increase along the in-order walk. */
  ghost predicate Bst(t: Tree)
  {
    StrictlyIncreasing(InOrder(t))
  }

  /** Some sample of the tree carries `id`. */
  ghost predicate Contains(t: Tree, id: int)
  {
    exists e :: e in InOrder(t) && e.id == id
  }

  /** A node's walk is sorted exactly when both subtrees' walks are and the node's id
      separates them. */
  lemma SortedJoin(a: seq<Sample>, x: Sample, b: seq<Sample>)
    ensures StrictlyIncreasing(a + [x] + b) <==>
              && StrictlyIncreasing(a) && StrictlyIncreasing(b)
              && (forall e :: e in a ==> e.id < x.id)
              && (forall e :: e in b ==> x.id < e.id)
  {
    if StrictlyIncreasing(a + [x] + b) {
      SortedSplit(a, x, b);
    }
    if && StrictlyIncreasing(a) && StrictlyIncreasing(b)
       && (forall e :: e in a ==> e.id < x.id)
       && (forall e :: e in b ==> x.id < e.id)
    {
      SortedMerge(a, x, b);
    }
  }

  lemma SortedSplit(a: seq<Sample>, x: Sample, b: seq<Sample>)
    requires StrictlyIncreasing(a + [x] + b)
    ensures StrictlyIncreasing(a) && StrictlyIncreasing(b)
    ensures forall e :: e in a ==> e.id < x.id
    ensures forall e :: e in b ==> x.id < e.id
  {
    var s := a + [x] + b;
    assert forall i :: 0 <= i < |a| ==> s[i] == a[i];
    assert forall i :: 0 <= i < |b| ==> s[|a| + 1 + i] == b[i];
    assert s[|a|] == x;
  }

  lemma SortedMerge(a: seq<Sample>, x: Sample, b: seq<Sample>)
    requires StrictlyIncreasing(a) && StrictlyIncreasing(b)
    requires forall e :: e in a ==> e.id < x.id
    requires forall e :: e in b ==> x.id < e.id
    ensures StrictlyIncreasing(a + [x] + b)
  {
    var s := a + [x] + b;
    forall i, j | 0 <= i < j < |s|
      ensures s[i].id < s[j].id
    {
      var si := if i < |a| then a[i] else if i == |a| then x else b[i - |a| - 1];
      var sj := if j < |a| then a[j] else if j == |a| then x else b[j - |a| - 1];
      assert s[i] == si && s[j] == sj;
      if i < |a| { assert si in a; }
      if j > |a| { assert sj in b; }
    }
  }

  /** `buscar_avl` finds a node exactly when the tree holds the id. */
  lemma {:induction false} SearchFinds(t: Tree, id: int)
    requires Bst(t)
    ensures Search(t, id).Node? <==> Contains(t, id)
  {
    if t.Node? && t.item.id != id {
      SortedJoin(InOrder(t.esq), t.item, InOrder(t.dir));
      if id < t.item.id {
        SearchFinds(t.esq, id);
      } else {
        SearchFinds(t.dir, id);
      }
    }
  }

  /** Inserting an id the tree does not hold keeps the order and adds exactly the new
      sample. */
  lemma {:induction false} InsertNew(t: Tree, s: Sample)
    requires Avl(t) && Bst(t) && !Contains(t, s.id)
    ensures Bst(Insert(t, s))
    ensures forall e :: e in InOrder(Insert(t, s)) <==> e in InOrder(t) || e == s
    ensures |InOrder(Insert(t, s))| == |InOrder(t)| + 1
  {
    if t.Node? {
      SortedJoin(InOrder(t.esq), t.item, InOrder(t.dir));
      assert s.id != t.item.id;
      if s.id < t.item.id {
        InsertNew(t.esq, s);
        SortedJoin(InOrder(Insert(t.esq, s)), t.item, InOrder(t.dir));
      } else {
        InsertNew(t.dir, s);
        SortedJoin(InOrder(t.esq), t.item, InOrder(Insert(t.dir, s)));
      }
    }
  }

  /** Inserting an id the tree already holds returns the tree unchanged: the new sample is
      dropped and the stored one kept. */
  lemma {:induction false} InsertPresent(t: Tree, s: Sample)
    requires Avl(t) && Bst(t) && Contains(t, s.id)
    ensures Insert(t, s) == t
  {
    SortedJoin(InOrder(t.esq), t.item, InOrder(t.dir));
    if s.id < t.item.id {
      InsertPresent(t.esq, s);
      assert t.(esq := t.esq) == t;
    } else if s.id > t.item.id {
      InsertPresent(t.dir, s);
      assert t.(dir := t.dir) == t;
    }
  }

  /** What removing `id` from `t` must produce: a sorted walk holding exactly the samples
      of `t` that do not carry `id`, one sample shorter when `t` held the id, and `t` itself
      when it did not. */
  ghost predicate RemovedFrom(r: Tree, t: Tree, id: int)
  {
    && Bst(r)
    && (forall e :: e in InOrder(r) <==> e in InOrder(t) && e.id != id)
    && |InOrder(r)| == (if Contains(t, id) then |InOrder(t)| - 1 else |InOrder(t)|)
    && (!Contains(t, id) ==> r == t)
  }

  /** Removal keeps the order and removes exactly the samples carrying `id` (at most one);
      removing an absent id returns the tree unchanged. */
  lemma {:induction false} DeleteOrdered(t: Tree, id: int)
    requires Avl(t) && Bst(t)
    ensures Bst(Delete(t, id))
    ensures forall e :: e in InOrder(Delete(t, id)) <==> e in InOrder(t) && e.id != id
    ensures |InOrder(Delete(t, id))| == if Contains(t, id) then |InOrder(t)| - 1 else |InOrder(t)|
    ensures !Contains(t, id) ==> Delete(t, id) == t
  {
    if t.Nil? {
    } else if id < t.item.id {
      SortedJoin(InOrder(t.esq), t.item, InOrder(t.dir));
      DeleteOrdered(t.esq, id);
      DeleteLeftStep(t, id);
    } else if id > t.item.id {
      SortedJoin(InOrder(t.esq), t.item, InOrder(t.dir));
      DeleteOrdered(t.dir, id);
      DeleteRightStep(t, id);
    } else if t.esq.Node? && t.dir.Node? {
      SortedJoin(InOrder(t.esq), t.item, InOrder(t.dir));
      DeleteOrdered(t.dir, Leftmost(t.dir).item.id);
      DeleteSuccessorStep(t);
    } else {
      SortedJoin(InOrder(t.esq), t.item, InOrder(t.dir));
      assert Contains(t, id);
    }
  }

  lemma DeleteLeftStep(t: Tree, id: int)
    requires Avl(t) && Bst(t) && t.Node? && id < t.item.id
    requires RemovedFrom(Delete(t.esq, id), t.esq, id)
    ensures RemovedFrom(Delete(t, id), t, id)
  {
    var x, r := t.item, InOrder(t.dir);
    SortedJoin(InOrder(t.esq), x, r);
    SortedJoin(InOrder(Delete(t.esq, id)), x, r);
    assert Contains(t, id) <==> Contains(t.esq, id);
    if !Contains(t, id) {
      assert t.(esq := t.esq) == t;
    }
  }

  lemma DeleteRightStep(t: Tree, id: int)
    requires Avl(t) && Bst(t) && t.Node? && id > t.item.id
    requires RemovedFrom(Delete(t.dir, id), t.dir, id)
    ensures RemovedFrom(Delete(t, id), t, id)
  {
    var l, x := InOrder(t.esq), t.item;
    SortedJoin(l, x, InOrder(t.dir));
    SortedJoin(l, x, InOrder(Delete(t.dir, id)));
    assert Contains(t, id) <==> Contains(t.dir, id);
    if !Contains(t, id) {
      assert t.(dir := t.dir) == t;
    }
  }

  lemma DeleteSuccessorStep(t: Tree)
    requires Avl(t) && Bst(t) && t.Node? && t.esq.Node? && t.dir.Node?
    requires RemovedFrom(Delete(t.dir, Leftmost(t.dir).item.id), t.dir, Leftmost(t.dir).item.id)
    ensures RemovedFrom(Delete(t, t.item.id), t, t.item.id)
  {
    var l, x, r := InOrder(t.esq), t.item, InOrder(t.dir);
    var m := Leftmost(t.dir).item;
    var r' := InOrder(Delete(t.dir, m.id));
    DeleteTwoChildren(t);
    assert Contains(t.dir, m.id) by { assert m == r[0]; }
    SuccessorSplice(l, x, r, r');
    assert Contains(t, x.id) by { assert x in InOrder(t); }
  }

  lemma DeleteTwoChildren(t: Tree)
    requires Avl(t) && t.Node? && t.esq.Node? && t.dir.Node?
    ensures Leftmost(t.dir).item == InOrder(t.dir)[0]
    ensures InOrder(Delete(t, t.item.id)) ==
              InOrder(t.esq) + [Leftmost(t.dir).item] + InOrder(Delete(t.dir, Leftmost(t.dir).item.id))
  {
  }

  /** On walks: replacing the node's sample by the first sample of the right walk and
      removing that sample from the right walk removes exactly the node's sample. */
  lemma SuccessorSplice(l: seq<Sample>, x: Sample, r: seq<Sample>, r': seq<Sample>)
    requires StrictlyIncreasing(l + [x] + r) && |r| > 0
    requires StrictlyIncreasing(r') && |r'| == |r| - 1
    requires forall e :: e in r' <==> e in r && e.id != r[0].id
    ensures StrictlyIncreasing(l + [r[0]] + r')
    ensures forall e :: e in l + [r[0]] + r' <==> e in l + [x] + r && e.id != x.id
  {
    SortedJoin(l, x, r);
    var m := r[0];
    assert forall e :: e in r' ==> m.id < e.id by {
      forall e | e in r'
        ensures m.id < e.id
      {
        var i :| 0 <= i < |r| && r[i] == e;
        assert i != 0;
      }
    }
    assert m in r;
    SortedJoin(l, m, r');
    forall e
      ensures e in l + [m] + r' <==> e in l + [x] + r && e.id != x.id
    {
      if e in r {
        var i :| 0 <= i < |r| && r[i] == e;
        if i == 0 { assert e == m; }
      }
    }
  }

  /** The insertion loop of `carregar_dados_avl`: every record read from the file is
      inserted in turn. The result is an AVL search tree that keeps every sample it held,
      holds an id for every record read, and holds nothing else. */
  method LoadAll(t0: Tree, rs: seq<Sample>) returns (t: Tree)
    requires Avl(t0) && Bst(t0)
    ensures Avl(t) && Bst(t)
    ensures forall e :: e in InOrder(t0) ==> e in InOrder(t)
    ensures forall e :: e in InOrder(t) ==> e in InOrder(t0) || e in rs
    ensures forall i :: 0 <= i < |rs| ==> Contains(t, rs[i].id)
  {
    t := t0;
    for i := 0 to |rs|
      invariant Avl(t) && Bst(t)
      invariant forall e :: e in InOrder(t0) ==> e in InOrder(t)
      invariant forall e :: e in InOrder(t) ==> e in InOrder(t0) || e in rs[..i]
      invariant forall j :: 0 <= j < i ==> Contains(t, rs[j].id)
    {
      if Contains(t, rs[i].id) {
        InsertPresent(t, rs[i]);
      } else {
        InsertNew(t, rs[i]);
        assert rs[i] in InOrder(Insert(t, rs[i]));
      }
      forall j | 0 <= j < i
        ensures Contains(Insert(t, rs[i]), rs[j].id)
      {
        assert Contains(t, rs[j].id);
      }
      t := Insert(t, rs[i]);
    }
    assert rs[..|rs|] == rs;
  }
}

=== FILE: avl_tree.dfy ===
/**
 * The AVL tree index (arvore_avl.c): a binary search tree keyed by sample id whose
 * nodes cache their height (`altura`) and are rebalanced by rotations after every
 * insertion and removal.
 *
 * Every C routine here takes a subtree root, rewrites the `esq`, `dir` and `altura`
 * fields of nodes it exclusively owns and returns the new subtree root, so each one is
 * modelled as a function from the old subtree to the new one.
 */
module AvlTree {
  import opened Records

  /** A node of `ItemAVL`: the sample, the two children and the cached height. */
  datatype Tree = Nil | Node(item: Sample, esq: Tree, dir: Tree, altura: int)

  /** `altura`: the cached height of a node, 0 for an absent child. */
  function Altura(t: Tree): int
  {
    if t.Nil? then 0 else t.altura
  }

  /** `fator_balanceamento`: cached height of the left child minus that of the right one;
      with correct cached heights it is the true height difference of the children, which
      the AVL invariant keeps between -1 and 1. */
  function BalanceFactor(t: Tree): (b: int)
    ensures HeightsCached(t) && t.Node? ==> b == Height(t.esq) - Height(t.dir)
    ensures Avl(t) ==> -1 <= b <= 1
  {
    if t.Nil? then 0 else Altura(t.esq) - Altura(t.dir)
  }

  /** The order in which `imprimir_avl` prints and `salvar_aux_avl` writes the samples:
      left subtree, node, right subtree. A node's sample is in its walk, and only the
      empty tree has an empty walk. */
  function InOrder(t: Tree): (r: seq<Sample>)
    ensures r == [] <==> t.Nil?
  {
    if t.Nil? then [] else InOrder(t.esq) + [t.item] + InOrder(t.dir)
  }

  // ---------------------------------------------------------------------------
  // The invariant: true heights, cached heights and balance
  // ---------------------------------------------------------------------------

  /** The true height of a tree; an absent child has height 0. */
  ghost function Height(t: Tree): nat
  {
    if t.Nil? then 0
    else if Height(t.esq) >= Height(t.dir) then 1 + Height(t.esq) else 1 + Height(t.dir)
  }

  /** Every node's cached `altura` is its true height; then `Altura` reads off the true
      height of the tree. */
  ghost predicate HeightsCached(t: Tree)
    ensures HeightsCached(t) ==> Altura(t) == Height(t)
  {
    t.Nil? || (t.altura == Height(t) && HeightsCached(t.esq) && HeightsCached(t.dir))
  }

  /** Every node's children differ in height by at most one. */
  ghost predicate Balanced(t: Tree)
  {
    t.Nil? || (-1 <= Height(t.esq) - Height(t.dir) <= 1 && Balanced(t.esq) && Balanced(t.dir))
  }

  /** The structural invariant every insertion and removal keeps. */
  ghost predicate Avl(t: Tree)
  {
    HeightsCached(t) && Balanced(t)
  }

  // ---------------------------------------------------------------------------
  // Rotations
  // ---------------------------------------------------------------------------

  /** `rotacao_direita`: the left child `x` becomes the root, `x`'s right subtree moves under
      `y`, and both moved nodes get their height recomputed from their new children. */
  function RotateRight(y: Tree): (r: Tree)
    requires y.Node? && y.esq.Node?
    ensures r.Node? && r.dir.Node?
    ensures InOrder(r) == InOrder(y)
    ensures HeightsCached(y.esq.esq) && HeightsCached(y.esq.dir) && HeightsCached(y.dir)
            ==> HeightsCached(r)
  {
    var x := y.esq;
    var t2 := x.dir;
    var y' := y.(esq := t2, altura := Max(Altura(t2), Altura(y.dir)) + 1);
    x.(dir := y', altura := Max(Altura(x.esq), Altura(y')) + 1)
  }

  /** `rotacao_esquerda`: the mirror image of `RotateRight`. */
  function RotateLeft(x: Tree): (r: Tree)
    requires x.Node? && x.dir.Node?
    ensures r.Node? && r.esq.Node?
    ensures InOrder(r) == InOrder(x)
    ensures HeightsCached(x.esq) && HeightsCached(x.dir.esq) && HeightsCached(x.dir.dir)
            ==> HeightsCached(r)
  {
    var y := x.dir;
    var t2 := y.esq;
    var x' := x.(dir := t2, altura := Max(Altura(x.esq), Altura(t2)) + 1);
    y.(esq := x', altura := Max(Altura(x'), Altura(y.dir)) + 1)
  }

  /** A single right rotation repairs a node whose left side is two levels taller, when the
      left child does not lean right. */
  lemma RotateRightRepairs(n: Tree)
    requires n.Node? && n.esq.Node? && Avl(n.esq) && Avl(n.dir)
    requires Height(n.esq) == Height(n.dir) + 2
    requires Height(n.esq.esq) >= Height(n.esq.dir)
    ensures Avl(RotateRight(n))
    ensures Height(RotateRight(n)) ==
              if Height(n.esq.esq) == Height(n.esq.dir) then Height(n.esq) + 1 else Height(n.esq)
  {
    var r := RotateRight(n);
    assert HeightsCached(r);
    assert Balanced(r.dir);
  }

  /** The mirror image of `RotateRightRepairs`. */
  lemma RotateLeftRepairs(n: Tree)
    requires n.Node? && n.dir.Node? && Avl(n.esq) && Avl(n.dir)
    requires Height(n.dir) == Height(n.esq) + 2
    requires Height(n.dir.dir) >= Height(n.dir.esq)
    ensures Avl(RotateLeft(n))
    ensures Height(RotateLeft(n)) ==
              if Height(n.dir.dir) == Height(n.dir.esq) then Height(n.dir) + 1 else Height(n.dir)
  {
    var r := RotateLeft(n);
    assert HeightsCached(r);
    assert Balanced(r.esq);
  }

  /** A left rotation of the left child followed by a right rotation repairs a node whose
      left side is two levels taller and whose left child leans right. */
  lemma RotateLeftRightRepairs(n: Tree)
    requires n.Node? && n.esq.Node? && Avl(n.esq) && Avl(n.dir)
    requires Height(n.esq) == Height(n.dir) + 2
    requires Height(n.esq.dir) == Height(n.esq.esq) + 1
    ensures n.esq.dir.Node?
    ensures Avl(RotateRight(n.(esq := RotateLeft(n.esq))))
    ensures Height(RotateRight(n.(esq := RotateLeft(n.esq)))) == Height(n.esq)
  {
    var m := n.esq.dir;
    var a, b, c, d := n.esq.esq, m.esq, m.dir, n.dir;
    assert Avl(m) && Avl(a) && Avl(b) && Avl(c);
    var x' := Node(n.esq.item, a, b, Max(Altura(a), Altura(b)) + 1);
    var z' := Node(n.item, c, d, Max(Altura(c), Altura(d)) + 1);
    var r := RotateRight(n.(esq := RotateLeft(n.esq)));
    assert r == Node(m.item, x', z', Max(Altura(x'), Altura(z')) + 1);
    assert Avl(x') && Avl(z');
  }

  /** The mirror image of `RotateLeftRightRepairs`. */
  lemma RotateRightLeftRepairs(n: Tree)
    requires n.Node? && n.dir.Node? && Avl(n.esq) && Avl(n.dir)
    requires Height(n.dir) == Height(n.esq) + 2
    requires Height(n.dir.esq) == Height(n.dir.dir) + 1
    ensures n.dir.esq.Node?
    ensures Avl(RotateLeft(n.(dir := RotateRight(n.dir))))
    ensures Height(RotateLeft(n.(dir := RotateRight(n.dir)))) == Height(n.dir)
  {
    var m := n.dir.esq;
    var a, b, c, d := n.esq, m.esq, m.dir, n.dir.dir;
    assert Avl(m) && Avl(b) && Avl(c) && Avl(d);
    var x' := Node(n.item, a, b, Max(Altura(a), Altura(b)) + 1);
    var z' := Node(n.dir.item, c, d, Max(Altura(c), Altura(d)) + 1);
    var r := RotateLeft(n.(dir := RotateRight(n.dir)));
    assert r == Node(m.item, x', z', Max(Altura(x'), Altura(z')) + 1);
    assert Avl(x') && Avl(z');
  }

  // ---------------------------------------------------------------------------
  // Insertion
  // ---------------------------------------------------------------------------

  /** What the recursive insertion guarantees about a node whose child has just been
      replaced: the children are AVL trees, and when one side is two levels taller, that
      side's root is unchanged and leans towards the side the inserted id went to. */
  ghost predicate GrownOnOneSide(n: Tree, id: int)
    requires n.Node?
  {
    && Avl(n.esq) && Avl(n.dir)
    && -2 <= Height(n.esq) - Height(n.dir) <= 2
    && (Height(n.esq) == Height(n.dir) + 2 ==>
          n.esq.Node? && id != n.esq.item.id
          && (id < n.esq.item.id ==> Height(n.esq.esq) == Height(n.esq.dir) + 1)
          && (id > n.esq.item.id ==> Height(n.esq.dir) == Height(n.esq.esq) + 1))
    && (Height(n.dir) == Height(n.esq) + 2 ==>
          n.dir.Node? && id != n.dir.item.id
          && (id > n.dir.item.id ==> Height(n.dir.dir) == Height(n.dir.esq) + 1)
          && (id < n.dir.item.id ==> Height(n.dir.esq) == Height(n.dir.dir) + 1))
  }

  /** Lines 130-148 of `inserir_avl`: refresh the cached height, then pick one of the four
      rotation cases from the balance factor and the inserted id. */
  function RebalanceInsert(n: Tree, id: int): (r: Tree)
    requires n.Node? && GrownOnOneSide(n, id)
    ensures Avl(r) && InOrder(r) == InOrder(n)
    ensures -1 <= Height(n.esq) - Height(n.dir) <= 1 ==>
              r == n.(altura := 1 + Max(Height(n.esq), Height(n.dir)))
    ensures Height(r) == if -1 <= Height(n.esq) - Height(n.dir) <= 1
                         then 1 + Max(Height(n.esq), Height(n.dir))
                         else Max(Height(n.esq), Height(n.dir))
  {
    var n := n.(altura := 1 + Max(Altura(n.esq), Altura(n.dir)));
    var b := BalanceFactor(n);
    if b > 1 && id < n.esq.item.id then
      RotateRightRepairs(n);
      RotateRight(n)
    else if b < -1 && id > n.dir.item.id then
      RotateLeftRepairs(n);
      RotateLeft(n)
    else if b > 1 && id > n.esq.item.id then
      RotateLeftRightRepairs(n);
      RotateRight(n.(esq := RotateLeft(n.esq)))
    else if b < -1 && id < n.dir.item.id then
      RotateRightLeftRepairs(n);
      RotateLeft(n.(dir := RotateRight(n.dir)))
    else
      n
  }

  /** `inserir_avl`: descend by id, attach a new leaf, and rebalance on the way back up.
      An id already in the tree leaves the subtree as it was. The height grows by at most
      one, and when it grows the root is unchanged and leans towards the new sample. */
  function Insert(t: Tree, s: Sample): (r: Tree)
    requires Avl(t)
    ensures Avl(r)
    ensures Height(t) <= Height(r) <= Height(t) + 1
    ensures t.Node? && Height(r) == Height(t) + 1 ==>
              && r.Node? && r.item == t.item
              && (s.id < t.item.id ==> Height(r.esq) == Height(r.dir) + 1)
              && (s.id > t.item.id ==> Height(r.dir) == Height(r.esq) + 1)
    ensures t.Nil? ==> r == Node(s, Nil, Nil, 1)
  {
    if t.Nil? then Node(s, Nil, Nil, 1)
    else if s.id < t.item.id then RebalanceInsert(t.(esq := Insert(t.esq, s)), s.id)
    else if s.id > t.item.id then RebalanceInsert(t.(dir := Insert(t.dir, s)), s.id)
    else t
  }

  // ---------------------------------------------------------------------------
  // Removal
  // ---------------------------------------------------------------------------

  /** The walk of `min_valor_no`: follow left children to the node holding the smallest
      sample of the subtree. */
  function Leftmost(t: Tree): (m: Tree)
    requires t.Node?
    ensures m.Node? && m.esq.Nil?
    ensures m.item == InOrder(t)[0]
  {
    if t.esq.Nil? then t else Leftmost(t.esq)
  }

  /** `min_valor_no`: the same walk as a loop over a cursor. */
  method MinValueNode(t: Tree) returns (m: Tree)
    requires t.Node?
    ensures m == Leftmost(t)
  {
    m := t;
    while m.esq.Node?
      invariant m.Node? && Leftmost(m) == Leftmost(t)
      decreases m
    {
      m := m.esq;
    }
  }

  /** Lines 211-228 of `remover_avl`: refresh the cached height and, when one side is two
      levels taller, rotate; a heavy child with balance factor 0 gets the single rotation. */
  function RebalanceDelete(n: Tree): (r: Tree)
    requires n.Node? && Avl(n.esq) && Avl(n.dir) && -2 <= Height(n.esq) - Height(n.dir) <= 2
    ensures Avl(r) && InOrder(r) == InOrder(n)
    ensures -1 <= Height(n.esq) - Height(n.dir) <= 1 ==>
              r == n.(altura := 1 + Max(Height(n.esq), Height(n.dir)))
    ensures Max(Height(n.esq), Height(n.dir)) <= Height(r)
              <= 1 + Max(Height(n.esq), Height(n.dir))
  {
    var n := n.(altura := 1 + Max(Altura(n.esq), Altura(n.dir)));
    var b := BalanceFactor(n);
    if b > 1 then LeftHeavyAfterDelete(n)
    else if b < -1 then RightHeavyAfterDelete(n)
    else n
  }

  /** The two left-heavy cases of the removal: a single right rotation when the left
      child leans left or is level (`>= 0`), a left-right double rotation otherwise. */
  function LeftHeavyAfterDelete(n: Tree): (r: Tree)
    requires n.Node? && n.esq.Node? && Avl(n.esq) && Avl(n.dir)
    requires Height(n.esq) == Height(n.dir) + 2
    ensures Avl(r) && InOrder(r) == InOrder(n)
    ensures Height(n.esq) <= Height(r) <= Height(n.esq) + 1
  {
    if BalanceFactor(n.esq) >= 0 then
      RotateRightRepairs(n);
      RotateRight(n)
    else
      RotateLeftRightRepairs(n);
      RotateRight(n.(esq := RotateLeft(n.esq)))
  }

  /** The mirror image: a single left rotation when the right child leans right or is
      level (`<= 0`), a right-left double rotation otherwise. */
  function RightHeavyAfterDelete(n: Tree): (r: Tree)
    requires n.Node? && n.dir.Node? && Avl(n.esq) && Avl(n.dir)
    requires Height(n.dir) == Height(n.esq) + 2
    ensures Avl(r) && InOrder(r) == InOrder(n)
    ensures Height(n.dir) <= Height(r) <= Height(n.dir) + 1
  {
    if BalanceFactor(n.dir) <= 0 then
      RotateLeftRepairs(n);
      RotateLeft(n)
    else
      RotateRightLeftRepairs(n);
      RotateLeft(n.(dir := RotateRight(n.dir)))
  }

  /** `remover_avl`: descend by id; a node with at most one child is replaced by that
      child, a node with two children takes the sample of the leftmost node of its right
      subtree, which is then removed from that subtree; every node on the way back is
      rebalanced. The height drops by at most one. */
  function Delete(t: Tree, id: int): (r: Tree)
    requires Avl(t)
    ensures Avl(r)
    ensures Height(t) - 1 <= Height(r) <= Height(t)
  {
    if t.Nil? then t
    else if id < t.item.id then Rejoin(t, Delete(t.esq, id), t.dir)
    else if id > t.item.id then Rejoin(t, t.esq, Delete(t.dir, id))
    else if t.esq.Nil? || t.dir.Nil? then
      var temp := if t.esq.Node? then t.esq else t.dir;
      if temp.Nil? then Nil else RebalanceDelete(temp)
    else
      var successor := Leftmost(t.dir).item;
      Rejoin(t.(item := successor), t.esq, Delete(t.dir, successor.id))
  }

  /** The way back of `remover_avl`: the node takes its new children, at most one of which
      lost one level of height, and is rebalanced. */
  function Rejoin(t: Tree, esq: Tree, dir: Tree): (r: Tree)
    requires t.Node? && Avl(t) && Avl(esq) && Avl(dir)
    requires Height(t.esq) - 1 <= Height(esq) <= Height(t.esq)
    requires Height(t.dir) - 1 <= Height(dir) <= Height(t.dir)
    ensures r == RebalanceDelete(t.(esq := esq, dir := dir))
    ensures Avl(r) && Height(t) - 1 <= Height(r) <= Height(t)
  {
    RebalanceDelete(t.(esq := esq, dir := dir))
  }

  // ---------------------------------------------------------------------------
  // Queries
  // ---------------------------------------------------------------------------

  /** `buscar_avl`: binary search by id; returns the node found or `Nil`. */
  function Search(t: Tree, id: int): (r: Tree)
    ensures r.Node? ==> r.item.id == id && r.item in InOrder(t)
  {
    if t.Nil? || t.item.id == id then t
    else if id < t.item.id then Search(t.esq, id)
    else Search(t.dir, id)
  }

  /** `busca_maior_id_avl`: a pre-order walk that raises `maior` to every larger id. */
  function RaiseMaxId(t: Tree, maior: int): (m: int)
    ensures m >= maior
    ensures forall s :: s in InOrder(t) ==> s.id <= m
    ensures m == maior || exists s :: s in InOrder(t) && s.id == m
  {
    if t.Nil? then maior
    else
      var m0 := if t.item.id > maior then t.item.id else maior;
      RaiseMaxId(t.dir, RaiseMaxId(t.esq, m0))
  }

  /** `proximo_id_avl`: one above the largest id, starting from 0. */
  function NextFreeId(t: Tree): (r: int)
    ensures r == NextId(InOrder(t))
  {
    RaiseMaxId(t, 0) + 1
  }

  /** `conta_nos`: a pre-order walk that adds one to `cont` per node. */
  function CountNodes(t: Tree, cont: int): (r: int)
    ensures r == cont + |InOrder(t)|
  {
    if t.Nil? then cont else CountNodes(t.dir, CountNodes(t.esq, cont + 1))
  }

  /** The order in which the pre-order walks (`busca_maior_id_avl`, `conta_nos`,
      `buscar_filtros_aux_avl`) visit the samples: node, left subtree, right subtree.
      It visits the same samples as the in-order walk. */
  function PreOrder(t: Tree): (r: seq<Sample>)
    ensures |r| == |InOrder(t)|
    ensures forall e :: e in r <==> e in InOrder(t)
  {
    if t.Nil? then [] else [t.item] + PreOrder(t.esq) + PreOrder(t.dir)
  }

  lemma ConcatRegroup(a: seq<Sample>, b: seq<Sample>, c: seq<Sample>, d: seq<Sample>)
    ensures a + (b + c + d) == a + b + c + d
  {
  }

  /** `buscar_filtros_aux_avl`: a pre-order walk that prints every sample in the year
      range whose state and crop pass the text filters (NULL or empty is a wildcard) and
      counts it in `encontrados`. The model appends each printed sample to `shown`; the
      count is the number appended. */
  function SearchFiltered(t: Tree, q: Query, shown: seq<Sample>): (r: seq<Sample>)
    ensures r == shown + Selected(PreOrder(t), q, NullOrEmpty)
  {
    if t.Nil? then shown
    else
      var pl, pr := PreOrder(t.esq), PreOrder(t.dir);
      var sx, sl, sr := Selected([t.item], q, NullOrEmpty), Selected(pl, q, NullOrEmpty),
                        Selected(pr, q, NullOrEmpty);
      SelectedAppend([t.item] + pl, pr, q, NullOrEmpty);
      SelectedAppend([t.item], pl, q, NullOrEmpty);
      SelectedSingle(t.item, q, NullOrEmpty);
      assert PreOrder(t) == [t.item] + pl + pr;
      assert Selected(PreOrder(t), q, NullOrEmpty) == sx + sl + sr;
      var here := if Matches(NullOrEmpty, q, t.item) then shown + [t.item] else shown;
      assert here == shown + sx;
      ConcatRegroup(shown, sx, sl, sr);
      SearchFiltered(t.dir, q, SearchFiltered(t.esq, q, here))
  }
}

=== FILE: hash_table.dfy ===
/**
 * The chained hash table index (hash.c): an array of `TAM` = 2011 buckets, each a chain
 * of samples kept here as the sequence of its samples from the bucket head onwards.
 */
module HashTable {
  import opened Records

  /** Number of buckets. */
  const TAM: int := 2011

  /** `funcao_hash`: `id % TAM` with C's remainder, which takes the sign of the dividend,
      so that a negative id gives a negative index unless it is a multiple of `TAM`. */
  function FuncaoHash(id: int): (r: int)
    ensures -TAM < r < TAM
    ensures (id - r) % TAM == 0
    ensures id >= 0 ==> r >= 0
    ensures id < 0 ==> r <= 0
  {
    if id >= 0 then id % TAM else -((-id) % TAM)
  }

  /** The bucket index is usable exactly for non-negative ids and for the multiples of `TAM`. */
  lemma FuncaoHashInBounds(id: int)
    ensures 0 <= FuncaoHash(id) < TAM <==> id >= 0 || id % TAM == 0
  {
    if id < 0 && FuncaoHash(id) >= 0 {
      assert FuncaoHash(id) == 0;
    }
  }

  /** The sample as stored: `estado` and `cultura` copied with `strncpy` into arrays of
      10 and 50 characters whose last character is then set to the terminator. */
  function Stored(s: Sample): (r: Sample)
    ensures r.id == s.id && r.year == s.year && r.measures == s.measures
    ensures |r.state| == (if |s.state| <= 9 then |s.state| else 9) && r.state == s.state[..|r.state|]
    ensures |r.crop| == (if |s.crop| <= 49 then |s.crop| else 49) && r.crop == s.crop[..|r.crop|]
  {
    s.(state := Truncate(s.state, 9), crop := Truncate(s.crop, 49))
  }

  /** The buckets' chains one after the other, in bucket order: the order in which
      `salvar_dados_hash` and `imprimir_tabela_hash` visit the samples. */
  function Concat(bs: seq<seq<Sample>>): seq<Sample>
  {
    if bs == [] then [] else Concat(bs[..|bs| - 1]) + bs[|bs| - 1]
  }

  lemma ConcatStep(bs: seq<seq<Sample>>, i: int)
    requires 0 <= i < |bs|
    ensures Concat(bs[..i + 1]) == Concat(bs[..i]) + bs[i]
  {
    assert bs[..i + 1][..i] == bs[..i];
  }

  /** A sample is in the table exactly when it is in one of the buckets. */
  lemma {:induction false} InConcat(bs: seq<seq<Sample>>, e: Sample)
    ensures e in Concat(bs) <==> exists i :: 0 <= i < |bs| && e in bs[i]
  {
    if bs != [] {
      var init := bs[..|bs| - 1];
      InConcat(init, e);
      if e in Concat(bs) && e !in bs[|bs| - 1] {
        var i :| 0 <= i < |init| && e in init[i];
        assert bs[i] == init[i];
      }
      if exists i :: 0 <= i < |bs| && e in bs[i] {
        var i :| 0 <= i < |bs| && e in bs[i];
        if i < |bs| - 1 {
          assert init[i] == bs[i];
        }
      }
    }
  }

  lemma {:induction false} ConcatAppend(a: seq<seq<Sample>>, b: seq<seq<Sample>>)
    ensures Concat(a + b) == Concat(a) + Concat(b)
    decreases |b|
  {
    if b == [] {
      assert a + b == a;
    } else {
      var b', x := b[..|b| - 1], b[|b| - 1];
      assert b == b' + [x] && a + b == (a + b') + [x];
      ConcatAppend(a, b');
      ConcatSnoc(a + b', x);
      ConcatSnoc(b', x);
      Assoc(Concat(a), Concat(b'), x);
    }
  }

  lemma ConcatSnoc(bs: seq<seq<Sample>>, x: seq<Sample>)
    ensures Concat(bs + [x]) == Concat(bs) + x
  {
    assert (bs + [x])[..|bs|] == bs;
  }

  /** The table is the buckets before `i`, bucket `i`, and the buckets after it. */
  lemma {:induction false} ConcatAround(bs: seq<seq<Sample>>, i: int)
    requires 0 <= i < |bs|
    ensures Concat(bs) == Concat(bs[..i]) + bs[i] + Concat(bs[i + 1..])
  {
    var before, here, after := bs[..i], [bs[i]], bs[i + 1..];
    assert bs == (before + here) + after;
    ConcatAppend(before + here, after);
    ConcatAppend(before, here);
    assert here[..0] == [];
    assert Concat(here) == bs[i];
  }

  /** Replacing bucket `i` by `b` replaces its chain inside the table. */
  lemma ConcatUpdate(bs: seq<seq<Sample>>, i: int, b: seq<Sample>)
    requires 0 <= i < |bs|
    ensures Concat(bs[i := b]) == Concat(bs[..i]) + b + Concat(bs[i + 1..])
  {
    var bs' := bs[i := b];
    ConcatAround(bs', i);
    assert bs'[..i] == bs[..i] && bs'[i + 1..] == bs[i + 1..];
  }

  /** Prepending a sample to one bucket adds it to the table. */
  lemma PrependToBucket(bs: seq<seq<Sample>>, i: int, x: Sample)
    requires 0 <= i < |bs|
    ensures multiset(Concat(bs[i := [x] + bs[i]])) == multiset(Concat(bs)) + multiset{x}
  {
    ConcatUpdate(bs, i, [x] + bs[i]);
    ConcatAround(bs, i);
  }

  /** Removing the first sample carrying `id` from one bucket takes it out of the table. */
  lemma RemoveFromBucket(bs: seq<seq<Sample>>, i: int, id: int)
    requires 0 <= i < |bs| && IndexOfId(bs[i], id) < |bs[i]|
    ensures multiset(Concat(bs[i := RemoveFirst(bs[i], id)])) + multiset{bs[i][IndexOfId(bs[i], id)]}
            == multiset(Concat(bs))
  {
    ConcatUpdate(bs, i, RemoveFirst(bs[i], id));
    ConcatAround(bs, i);
    RemoveFirstUndo(bs[i], id);
  }

  class HashTable {
    var tabela: array<seq<Sample>>

    /** `TAM` buckets, and every sample sits in the bucket its id hashes to. */
    ghost predicate Valid()
      reads this, tabela
    {
      && tabela.Length == TAM
      && forall i, e :: 0 <= i < TAM && e in tabela[i] ==> FuncaoHash(e.id) == i
    }

    /** Every sample of the table, bucket by bucket. */
    ghost function Contents(): seq<Sample>
      reads this, tabela
    {
      Concat(tabela[..])
    }

    /** `iniciar_hash`: every bucket empty. */
    constructor ()
      ensures Valid() && fresh(tabela)
      ensures forall i :: 0 <= i < TAM ==> tabela[i] == []
    {
      var t := new seq<Sample>[TAM];
      for i := 0 to TAM
        invariant forall j :: 0 <= j < i ==> t[j] == []
      {
        t[i] := [];
      }
      tabela := t;
    }

    /** `liberar_tabela_hash`: every chain released and every bucket emptied. */
    method Clear()
      requires Valid()
      modifies tabela
      ensures Valid()
      ensures forall i :: 0 <= i < TAM ==> tabela[i] == []
      ensures Contents() == []
    {
      for i := 0 to TAM
        invariant forall j :: 0 <= j < i ==> tabela[j] == []
        invariant forall j, e :: 0 <= j < TAM && e in tabela[j] ==> FuncaoHash(e.id) == j
      {
        tabela[i] := [];
      }
      EmptyConcat(tabela[..]);
    }

    /** `inserir_tabela_hash`: the stored copy of the sample becomes the head of the chain
        of its bucket; duplicate ids are accepted and no other bucket changes. */
    method Insert(novo: Sample)
      requires Valid() && 0 <= FuncaoHash(novo.id)
      modifies tabela
      ensures Valid()
      ensures tabela[FuncaoHash(novo.id)] == [Stored(novo)] + old(tabela[FuncaoHash(novo.id)])
      ensures forall i :: 0 <= i < TAM && i != FuncaoHash(novo.id) ==> tabela[i] == old(tabela[i])
      ensures multiset(Contents()) == multiset(old(Contents())) + multiset{Stored(novo)}
    {
      var indice := FuncaoHash(novo.id);
      var elemento := Stored(novo);
      PrependToBucket(tabela[..], indice, elemento);
      SetBucket(indice, [elemento] + tabela[indice]);
    }

    /** Makes `b` the chain of bucket `indice`, leaving every other bucket alone. */
    method SetBucket(indice: int, b: seq<Sample>)
      requires Valid() && 0 <= indice < TAM
      requires forall e :: e in b ==> FuncaoHash(e.id) == indice
      modifies tabela
      ensures Valid()
      ensures tabela[..] == old(tabela[..])[indice := b]
    {
      tabela[indice] := b;
    }

    /** `buscar_tabela_hash`: the first sample of the id's bucket carrying the id (the
        most recently inserted one), or none. */
    method Search(id: int) returns (r: Option<Sample>)
      requires Valid() && 0 <= FuncaoHash(id)
      ensures r == FirstWithId(tabela[FuncaoHash(id)], id)
    {
      var atual := tabela[FuncaoHash(id)];
      var j := 0;
      while j < |atual|
        invariant 0 <= j <= |atual| && forall i :: 0 <= i < j ==> atual[i].id != id
      {
        if atual[j].id == id {
          IndexOfIdAt(atual, id, j);
          return Some(atual[j]);
        }
        j := j + 1;
      }
      IndexOfIdAt(atual, id, j);
      return None;
    }

    /** The id's bucket holds every sample of the table with that id, so the search
        finds nothing exactly when no sample carries the id. */
    lemma SearchBucketIsEnough(id: int)
      requires Valid() && 0 <= FuncaoHash(id)
      ensures forall e :: e in Contents() && e.id == id ==> e in tabela[FuncaoHash(id)]
      ensures FirstWithId(tabela[FuncaoHash(id)], id).None? <==> forall e :: e in Contents() ==> e.id != id
    {
      var b := tabela[FuncaoHash(id)];
      forall e | e in Contents() && e.id == id
        ensures e in b
      {
        InConcat(tabela[..], e);
        var i :| 0 <= i < TAM && e in tabela[..][i];
      }
      if IndexOfId(b, id) < |b| {
        InConcat(tabela[..], b[IndexOfId(b, id)]);
        assert b == tabela[..][FuncaoHash(id)];
      }
    }

    /** `remover_tabela_hash`: unlink the first sample of the id's bucket carrying the id
        (from the bucket head, or from the previous sample) and return 1; return 0 and
        change nothing when the bucket has no such sample. */
    method Remove(id: int) returns (removido: int)
      requires Valid() && 0 <= FuncaoHash(id)
      modifies tabela
      ensures Valid()
      ensures var b := old(tabela[FuncaoHash(id)]);
              removido == (if IndexOfId(b, id) < |b| then 1 else 0)
      ensures tabela[FuncaoHash(id)] == RemoveFirst(old(tabela[FuncaoHash(id)]), id)
      ensures forall i :: 0 <= i < TAM && i != FuncaoHash(id) ==> tabela[i] == old(tabela[i])
      ensures removido == 0 ==> Contents() == old(Contents())
      ensures removido == 1 ==>
                var b := old(tabela[FuncaoHash(id)]);
                multiset(Contents()) + multiset{b[IndexOfId(b, id)]} == multiset(old(Contents()))
    {
      var indice := FuncaoHash(id);
      var atual := tabela[indice];
      var j := 0;
      while j < |atual|
        invariant 0 <= j <= |atual| && forall i :: 0 <= i < j ==> atual[i].id != id
      {
        if atual[j].id == id {
          break;
        }
        j := j + 1;
      }
      IndexOfIdAt(atual, id, j);
      if j == |atual| {
        return 0;
      }
      RemoveFromBucket(tabela[..], indice, id);
      UnlinkAt(indice, id, j);
      return 1;
    }

    /** The unlinking step of `remover_tabela_hash`: the sample at position j, the first of
        bucket `indice` carrying the id, is bypassed from the bucket head or from the
        previous sample. */
    method UnlinkAt(indice: int, id: int, j: int)
      requires Valid() && 0 <= indice < TAM && j == IndexOfId(tabela[indice], id) < |tabela[indice]|
      modifies tabela
      ensures Valid()
      ensures tabela[..] == old(tabela[..])[indice := RemoveFirst(old(tabela[indice]), id)]
    {
      var atual := tabela[indice];
      if j == 0 {
        assert RemoveFirst(atual, id) == atual[..0] + atual[1..] == atual[1..];
        SetBucket(indice, atual[1..]);
      } else {
        assert RemoveFirst(atual, id) == atual[..j] + atual[j + 1..];
        SetBucket(indice, atual[..j] + atual[j + 1..]);
      }
    }

    /** The traversal of `salvar_dados_hash` and `imprimir_tabela_hash`: every chain in
        bucket order. */
    method Samples() returns (out: seq<Sample>)
      requires Valid()
      ensures out == Contents()
    {
      ghost var bs := tabela[..];
      out := [];
      for i := 0 to TAM
        invariant out == Concat(bs[..i])
      {
        var atual := tabela[i];
        ghost var base := out;
        var j := 0;
        while j < |atual|
          invariant 0 <= j <= |atual| && out == base + atual[..j]
        {
          assert atual[..j + 1] == atual[..j] + [atual[j]];
          out := out + [atual[j]];
          j := j + 1;
        }
        assert atual[..j] == atual;
        ConcatStep(bs, i);
      }
      assert bs[..TAM] == bs;
    }

    /** `proximo_id_hash`: one above the largest id over all buckets, starting the running
        maximum at 0. */
    method NextFreeId() returns (r: int)
      requires Valid()
      ensures r == NextId(Contents())
    {
      ghost var bs := tabela[..];
      var maior := 0;
      for i := 0 to TAM
        invariant maior == MaxIdFrom0(Concat(bs[..i]))
      {
        var atual := tabela[i];
        ghost var base := Concat(bs[..i]);
        var j := 0;
        assert base + atual[..0] == base;
        while j < |atual|
          invariant 0 <= j <= |atual| && maior == MaxIdFrom0(base + atual[..j])
        {
          PrefixSnoc(base, atual, j);
          MaxIdSnoc(base + atual[..j], atual[j]);
          if atual[j].id > maior {
            maior := atual[j].id;
          }
          j := j + 1;
        }
        assert atual[..j] == atual;
        ConcatStep(bs, i);
      }
      assert bs[..TAM] == bs;
      r := maior + 1;
    }

    /** `buscar_filtros_hash`: the samples the filters accept (NULL and empty filters match
        everything), in traversal order, and their number. */
    method SearchFiltered(q: Query) returns (shown: seq<Sample>, encontrados: int)
      requires Valid()
      ensures shown == Selected(Contents(), q, NullOrEmpty) && encontrados == |shown|
    {
      ghost var bs := tabela[..];
      shown, encontrados := [], 0;
      for i := 0 to TAM
        invariant shown == Selected(Concat(bs[..i]), q, NullOrEmpty) && encontrados == |shown|
      {
        var atual := tabela[i];
        ghost var base := Concat(bs[..i]);
        var j := 0;
        assert base + atual[..0] == base;
        while j < |atual|
          invariant 0 <= j <= |atual| && encontrados == |shown|
          invariant shown == Selected(base + atual[..j], q, NullOrEmpty)
        {
          PrefixSnoc(base, atual, j);
          SelectedSnoc(base + atual[..j], atual[j], q, NullOrEmpty);
          if Matches(NullOrEmpty, q, atual[j]) {
            shown := shown + [atual[j]];
            encontrados := encontrados + 1;
          }
          j := j + 1;
        }
        assert atual[..j] == atual;
        ConcatStep(bs, i);
      }
      assert bs[..TAM] == bs;
    }

    /** The insertion loop of `carregar_dados_hash`: every record read is stored, and the
        table holds what it held plus the stored copies of the records. */
    method InsertAll(rs: seq<Sample>)
      requires Valid() && forall i :: 0 <= i < |rs| ==> 0 <= FuncaoHash(rs[i].id)
      modifies tabela
      ensures Valid()
      ensures multiset(Contents()) == multiset(old(Contents())) + multiset(StoredAll(rs))
    {
      ghost var c0 := multiset(Contents());
      for i := 0 to |rs|
        invariant Valid()
        invariant multiset(Contents()) == c0 + multiset(StoredAll(rs[..i]))
      {
        StoredAllSnoc(rs, i);
        ghost var before := multiset(Contents());
        Insert(rs[i]);
        AddOne(before, c0, multiset(StoredAll(rs[..i])), Stored(rs[i]));
      }
      assert rs[..|rs|] == rs;
    }
  }

  /** The stored copies of a sequence of records. */
  function StoredAll(rs: seq<Sample>): (r: seq<Sample>)
    ensures |r| == |rs| && forall i :: 0 <= i < |rs| ==> r[i] == Stored(rs[i])
  {
    if rs == [] then [] else StoredAll(rs[..|rs| - 1]) + [Stored(rs[|rs| - 1])]
  }

  lemma StoredAllSnoc(rs: seq<Sample>, i: int)
    requires 0 <= i < |rs|
    ensures multiset(StoredAll(rs[..i + 1])) == multiset(StoredAll(rs[..i])) + multiset{Stored(rs[i])}
  {
    assert rs[..i + 1][..i] == rs[..i];
  }

  lemma PrefixSnoc(base: seq<Sample>, b: seq<Sample>, j: int)
    requires 0 <= j < |b|
    ensures base + b[..j + 1] == (base + b[..j]) + [b[j]]
  {
    assert b[..j + 1] == b[..j] + [b[j]];
  }

  lemma {:induction false} EmptyConcat(bs: seq<seq<Sample>>)
    requires forall i :: 0 <= i < |bs| ==> bs[i] == []
    ensures Concat(bs) == []
  {
    if bs != [] {
      EmptyConcat(bs[..|bs| - 1]);
    }
  }

  /** The first index carrying `id`, read off a scan that found it at j or ran off the end. */
  lemma IndexOfIdAt(s: seq<Sample>, id: int, j: int)
    requires 0 <= j <= |s| && (forall i :: 0 <= i < j ==> s[i].id != id) && (j < |s| ==> s[j].id == id)
    ensures IndexOfId(s, id) == j
  {
  }
}

=== FILE: linked_list.dfy ===
/**
 * The unsorted singly linked list index (lista_encadeada.c). The list is kept as the
 * sequence of its samples from the head onwards; relinking the head pointer or a `prox`
 * field becomes a reassignment of that sequence.
 */
module LinkedList {
  import opened Records

  /** The samples in reverse order: what prepending them one after another builds. */
  function Reversed(rs: seq<Sample>): (r: seq<Sample>)
    ensures |r| == |rs| && forall i :: 0 <= i < |rs| ==> r[i] == rs[|rs| - 1 - i]
  {
    if rs == [] then [] else [rs[|rs| - 1]] + Reversed(rs[..|rs| - 1])
  }

  class LinkedList {
    /** The chain from `cabeca` to the last node. */
    var itens: seq<Sample>

    /** An empty list: a NULL head. */
    constructor ()
      ensures itens == []
    {
      itens := [];
    }

    /** `inserir_LE`: the new sample becomes the head and the old list its tail; duplicate
        ids are accepted. */
    method Insert(novo: Sample)
      modifies this
      ensures itens == [novo] + old(itens)
      ensures multiset(itens) == multiset(old(itens)) + multiset{novo}
    {
      itens := [novo] + itens;
    }

    /** The insertion loop of `carregar_dados_LE`: after prepending r1, ..., rn the list
        starts with rn, ..., r1, followed by what it held before. */
    method InsertAll(rs: seq<Sample>)
      modifies this
      ensures itens == Reversed(rs) + old(itens)
    {
      for i := 0 to |rs|
        invariant itens == Reversed(rs[..i]) + old(itens)
      {
        assert rs[..i + 1][..i] == rs[..i];
        Insert(rs[i]);
      }
      assert rs[..|rs|] == rs;
    }

    /** `criar_id_LE`: one above the largest id, the running maximum starting at 0. */
    method NextFreeId() returns (r: int)
      ensures r == NextId(itens)
    {
      var maiorId := 0;
      var j := 0;
      while j < |itens|
        invariant 0 <= j <= |itens| && maiorId == MaxIdFrom0(itens[..j])
      {
        TakeSnoc(itens, j);
        MaxIdSnoc(itens[..j], itens[j]);
        if itens[j].id > maiorId {
          maiorId := itens[j].id;
        }
        j := j + 1;
      }
      assert itens[..j] == itens;
      r := maiorId + 1;
    }

    /** `buscar_LE`: the first sample from the head carrying the id, or none. */
    method Search(id: int) returns (r: Option<Sample>)
      ensures r == FirstWithId(itens, id)
    {
      var j := 0;
      while j < |itens|
        invariant 0 <= j <= |itens| && forall i :: 0 <= i < j ==> itens[i].id != id
      {
        if itens[j].id == id {
          return Some(itens[j]);
        }
        j := j + 1;
      }
      return None;
    }

    /** `remover_LE`: unlink the first sample carrying the id, from the head pointer or from
        the previous node, and return 1; return 0 with the list unchanged when no sample
        carries it, the empty list included. */
    method Remove(id: int) returns (removido: int)
      modifies this
      ensures removido == (if FirstWithId(old(itens), id).Some? then 1 else 0)
      ensures itens == RemoveFirst(old(itens), id)
      ensures removido == 0 ==> itens == old(itens)
    {
      var j := 0;
      while j < |itens|
        invariant 0 <= j <= |itens| && forall i :: 0 <= i < j ==> itens[i].id != id
      {
        if itens[j].id == id {
          assert IndexOfId(itens, id) == j;
          if j == 0 {
            itens := itens[1..];
          } else {
            itens := itens[..j] + itens[j + 1..];
          }
          return 1;
        }
        j := j + 1;
      }
      return 0;
    }

    /** The traversal of `imprime_LE` and `salvar_dados_LE`: the samples from the head on. */
    method Samples() returns (out: seq<Sample>)
      ensures out == itens
    {
      out := [];
      var j := 0;
      while j < |itens|
        invariant 0 <= j <= |itens| && out == itens[..j]
      {
        assert itens[..j + 1] == itens[..j] + [itens[j]];
        out := out + [itens[j]];
        j := j + 1;
      }
      assert itens[..j] == itens;
    }

    /** `buscar_filtros_LE`: the samples the filters accept (NULL and empty filters match
        everything), from the head on, and their number. */
    method SearchFiltered(q: Query) returns (shown: seq<Sample>, encontrados: int)
      ensures shown == Selected(itens, q, NullOrEmpty) && encontrados == |shown|
    {
      shown, encontrados := [], 0;
      var j := 0;
      while j < |itens|
        invariant 0 <= j <= |itens| && encontrados == |shown|
        invariant shown == Selected(itens[..j], q, NullOrEmpty)
      {
        assert itens[..j + 1] == itens[..j] + [itens[j]];
        SelectedSnoc(itens[..j], itens[j], q, NullOrEmpty);
        if Matches(NullOrEmpty, q, itens[j]) {
          shown := shown + [itens[j]];
          encontrados := encontrados + 1;
        }
        j := j + 1;
      }
      assert itens[..j] == itens;
    }
  }

  /** After a prepend the search finds the new sample, which shadows older samples with
      the same id; searches for other ids are unaffected. */
  lemma {:induction false} SearchAfterInsert(s: seq<Sample>, x: Sample, id: int)
    ensures FirstWithId([x] + s, id) == if id == x.id then Some(x) else FirstWithId(s, id)
  {
    var t := [x] + s;
    if id != x.id {
      assert t[1..] == s;
      assert IndexOfId(t, id) == 1 + IndexOfId(s, id);
      assert IndexOfId(t, id) < |t| ==> t[IndexOfId(t, id)] == s[IndexOfId(s, id)];
    }
  }

  /** Removing after a prepend of the same id gives the list back. */
  lemma RemoveAfterInsert(s: seq<Sample>, x: Sample)
    ensures RemoveFirst([x] + s, x.id) == s
  {
  }
}

=== FILE: records.dfy ===
/**
 * The agricultural sample record shared by every index, the text and filter
 * helpers the search routines use, and the sequence functions that specify
 * the id helpers and the first-match operations of the chained structures.
 */
module Records {

  datatype Option<T> = None | Some(value: T)

  /** Text held in a C character array: the characters before the terminating NUL. */
  type CString = s: string | '\0' !in s

  /** The five floating-point measures; every index copies them and none computes on them. */
  datatype Measures = Measures(pricePerTon: real, yieldPerHectare: real, production: real,
                               plantedArea: real, totalValue: real)

  /** One agricultural sample: id, year, state, crop and the measures. */
  datatype Sample = Sample(id: int, year: int, state: CString, crop: CString, measures: Measures)

  /** The parameters of the filtered search: an inclusive year range and two text
      filters, each either NULL (`None`) or a string. */
  datatype Query = Query(yearMin: int, yearMax: int, state: Option<CString>, crop: Option<CString>)

  // ---------------------------------------------------------------------------
  // Text
  // ---------------------------------------------------------------------------

  /** ASCII lower-casing, as `tolower` in the C locale. */
  function ToLower(c: char): (r: char)
    ensures 'A' <= c <= 'Z' ==> 'a' <= r <= 'z' && r as int - c as int == 32
    ensures !('A' <= c <= 'Z') ==> r == c
  {
    if 'A' <= c <= 'Z' then (c as int - 'A' as int + 'a' as int) as char else c
  }

  /** The string lower-cased character by character. */
  function LowerString(s: string): (r: string)
    ensures |r| == |s| && forall i :: 0 <= i < |s| ==> r[i] == ToLower(s[i])
  {
    if s == [] then [] else [ToLower(s[0])] + LowerString(s[1..])
  }

  /** `strcasecmp(a, b) == 0`: the two strings agree once both are lower-cased, so in
      particular equal strings match and strings of different lengths do not. */
  function EqualsIgnoreCase(a: string, b: string): (r: bool)
    ensures r <==> LowerString(a) == LowerString(b)
    ensures a == b ==> r
    ensures r ==> |a| == |b|
  {
    |a| == |b| && forall i :: 0 <= i < |a| ==> ToLower(a[i]) == ToLower(b[i])
  }

  /** Which filter values match every record: the AVL tree, skip list, hash table and
      unsorted list treat both NULL and the empty string as wildcards, the sorted list
      only NULL. */
  datatype Wildcard = NullOrEmpty | NullOnly

  /** One text filter of the filtered search: a wildcard, or a case-insensitive match. */
  function TextFilterMatches(w: Wildcard, field: CString, filter: Option<CString>): (r: bool)
    ensures filter.None? ==> r
    ensures filter == Some(field) ==> r
    ensures r && filter.Some? && !(w == NullOrEmpty && filter.value == "") ==>
              LowerString(field) == LowerString(filter.value)
  {
    filter.None? || (w == NullOrEmpty && |filter.value| == 0) || EqualsIgnoreCase(field, filter.value)
  }

  /** A sample is reported when its year lies in the inclusive range and both text filters
      accept its state and crop. */
  function Matches(w: Wildcard, q: Query, s: Sample): (r: bool)
    ensures r ==> q.yearMin <= s.year <= q.yearMax
    ensures q.state.None? && q.crop.None? ==> (r <==> q.yearMin <= s.year <= q.yearMax)
    ensures q.state == Some(s.state) && q.crop == Some(s.crop) ==> (r <==> q.yearMin <= s.year <= q.yearMax)
  {
    q.yearMin <= s.year <= q.yearMax
    && TextFilterMatches(w, s.state, q.state) && TextFilterMatches(w, s.crop, q.crop)
  }

  /** A filter given as the empty string (not NULL). */
  predicate IsEmptyFilter(f: Option<CString>) { f.Some? && |f.value| == 0 }

  /** The two wildcard rules differ exactly on an empty-string filter: the sorted list's
      search then only accepts records whose field is itself empty, while the other
      indexes ignore that filter. */
  lemma EmptyFilterDifference(q: Query, s: Sample)
    ensures !IsEmptyFilter(q.state) && !IsEmptyFilter(q.crop) ==>
              (Matches(NullOnly, q, s) <==> Matches(NullOrEmpty, q, s))
    ensures IsEmptyFilter(q.state) && Matches(NullOnly, q, s) ==> s.state == ""
    ensures IsEmptyFilter(q.crop) && Matches(NullOnly, q, s) ==> s.crop == ""
    ensures IsEmptyFilter(q.state) && IsEmptyFilter(q.crop) ==>
              (Matches(NullOrEmpty, q, s) <==> q.yearMin <= s.year <= q.yearMax)
  {
  }

  /** Keeps at most `n` characters: `strncpy` into an array of `n + 1` bytes followed by
      writing the terminator into its last byte. */
  function Truncate(s: CString, n: nat): (r: CString)
    ensures |r| == if |s| <= n then |s| else n
    ensures r == s[..|r|]
  {
    if |s| <= n then s else s[..n]
  }

  // ---------------------------------------------------------------------------
  // Sequences of samples
  // ---------------------------------------------------------------------------

  /** `maximo` of arvore_avl.c, also the running maximum of the id helpers and the skip
      list's `nivel` update. */
  function Max(a: int, b: int): (m: int)
    ensures m >= a && m >= b && (m == a || m == b)
  {
    if a > b then a else b
  }

  /** The largest id of `s`, or 0 when `s` is empty or every id is negative: the value the
      id helpers obtain by starting their running maximum at 0. */
  function MaxIdFrom0(s: seq<Sample>): (m: int)
    ensures m >= 0
    ensures forall i :: 0 <= i < |s| ==> s[i].id <= m
    ensures m == 0 || exists i :: 0 <= i < |s| && s[i].id == m
  {
    if s == [] then 0 else Max(MaxIdFrom0(s[..|s| - 1]), s[|s| - 1].id)
  }

  /** The id a new sample should receive: one above every stored id and at least 1. */
  function NextId(s: seq<Sample>): (r: int)
    ensures r >= 1
    ensures forall i :: 0 <= i < |s| ==> s[i].id < r
    ensures r == 1 || exists i :: 0 <= i < |s| && s[i].id == r - 1
  {
    MaxIdFrom0(s) + 1
  }

  /** Index of the first sample with the given id, or |s| when there is none. */
  function IndexOfId(s: seq<Sample>, id: int): (k: nat)
    ensures k <= |s|
    ensures k < |s| ==> s[k].id == id
    ensures forall i :: 0 <= i < k ==> s[i].id != id
  {
    if s == [] then 0 else if s[0].id == id then 0 else 1 + IndexOfId(s[1..], id)
  }

  /** What the first-match searches return: the first sample carrying `id`, or none. */
  function FirstWithId(s: seq<Sample>, id: int): (r: Option<Sample>)
    ensures r.None? <==> forall i :: 0 <= i < |s| ==> s[i].id != id
    ensures r.Some? ==> r.value.id == id && r.value in s
    ensures r.Some? ==> exists k :: 0 <= k < |s| && s[k] == r.value && forall i :: 0 <= i < k ==> s[i].id != id
  {
    var k := IndexOfId(s, id);
    if k < |s| then Some(s[k]) else None
  }

  /** The sequence without its first sample carrying `id` (unchanged when there is none). */
  function RemoveFirst(s: seq<Sample>, id: int): (r: seq<Sample>)
    ensures (forall i :: 0 <= i < |s| ==> s[i].id != id) ==> r == s
    ensures FirstWithId(s, id).Some? ==>
              |r| == |s| - 1 && multiset(r) + multiset{FirstWithId(s, id).value} == multiset(s)
  {
    var k := IndexOfId(s, id);
    if k < |s| then
      assert s == s[..k] + [s[k]] + s[k + 1..];
      s[..k] + s[k + 1..]
    else s
  }

  /** Removing the first sample carrying `id` loses exactly that sample, keeps the others in
      their order, and putting it back at its place restores the sequence. */
  lemma {:induction false} RemoveFirstUndo(s: seq<Sample>, id: int)
    requires IndexOfId(s, id) < |s|
    ensures var k := IndexOfId(s, id);
            |RemoveFirst(s, id)| == |s| - 1 &&
            Ins(RemoveFirst(s, id), k, s[k]) == s &&
            multiset(RemoveFirst(s, id)) + multiset{s[k]} == multiset(s)
  {
    var k := IndexOfId(s, id);
    var r := s[..k] + s[k + 1..];
    assert RemoveFirst(s, id) == r;
    assert s == s[..k] + [s[k]] + s[k + 1..];
    assert Ins(r, k, s[k]) == s[..k] + [s[k]] + s[k + 1..] by {
      assert r[..k] == s[..k] && r[k..] == s[k + 1..];
    }
  }

  /** Nothing is removed when no sample carries the id. */
  lemma RemoveFirstAbsent(s: seq<Sample>, id: int)
    requires forall i :: 0 <= i < |s| ==> s[i].id != id
    ensures RemoveFirst(s, id) == s
  {
  }

  /** The samples a filtered search reports, in walk order. */
  function Selected(s: seq<Sample>, q: Query, w: Wildcard): (r: seq<Sample>)
    ensures |r| <= |s|
    ensures forall e :: e in r <==> e in s && Matches(w, q, e)
  {
    if s == [] then []
    else
      var init := s[..|s| - 1];
      assert s == init + [s[|s| - 1]];
      Selected(init, q, w) + (if Matches(w, q, s[|s| - 1]) then [s[|s| - 1]] else [])
  }

  /** Filtering one more sample appends it when it matches. */
  lemma SelectedSnoc(s: seq<Sample>, x: Sample, q: Query, w: Wildcard)
    ensures Selected(s + [x], q, w) == Selected(s, q, w) + (if Matches(w, q, x) then [x] else [])
  {
    assert (s + [x])[..|s|] == s;
  }

  /** The running maximum over one more sample. */
  lemma MaxIdSnoc(s: seq<Sample>, x: Sample)
    ensures MaxIdFrom0(s + [x]) == Max(MaxIdFrom0(s), x.id)
  {
    assert (s + [x])[..|s|] == s;
  }

  lemma SelectedSingle(x: Sample, q: Query, w: Wildcard)
    ensures Selected([x], q, w) == if Matches(w, q, x) then [x] else []
  {
    assert [x][..0] == [];
  }

  /** Filtering a concatenation filters each part. */
  lemma {:induction false} SelectedAppend(a: seq<Sample>, b: seq<Sample>, q: Query, w: Wildcard)
    ensures Selected(a + b, q, w) == Selected(a, q, w) + Selected(b, q, w)
    decreases |b|
  {
    if b == [] {
      assert a + b == a;
    } else {
      var b', x := b[..|b| - 1], b[|b| - 1];
      assert b == b' + [x] && a + b == (a + b') + [x];
      SelectedAppend(a, b', q, w);
      SelectedSnoc(a + b', x, q, w);
      SelectedSnoc(b', x, q, w);
      var tail := if Matches(w, q, x) then [x] else [];
      Assoc(Selected(a, q, w), Selected(b', q, w), tail);
    }
  }

  lemma Assoc<T>(a: seq<T>, b: seq<T>, c: seq<T>)
    ensures a + (b + c) == (a + b) + c
  {
  }

  lemma AddOne<T>(m: multiset<T>, c0: multiset<T>, a: multiset<T>, x: T)
    requires m == c0 + a
    ensures m + multiset{x} == c0 + (a + multiset{x})
  {
  }

  lemma TakeSnoc<T>(s: seq<T>, j: int)
    requires 0 <= j < |s|
    ensures s[..j + 1] == s[..j] + [s[j]]
  {
  }

  /** `s` with `x` inserted at position k. */
  function Ins<T>(s: seq<T>, k: int, x: T): (r: seq<T>)
    requires 0 <= k <= |s|
    ensures |r| == |s| + 1
    ensures forall i :: 0 <= i < |r| ==> r[i] == if i < k then s[i] else if i == k then x else s[i - 1]
  {
    s[..k] + [x] + s[k..]
  }

  lemma MultisetIns<T>(s: seq<T>, k: int, x: T)
    requires 0 <= k <= |s|
    ensures multiset(Ins(s, k, x)) == multiset(s) + multiset{x}
  {
    assert s == s[..k] + s[k..];
  }

  /** `s` without its element at position k. */
  function Del<T>(s: seq<T>, k: int): (r: seq<T>)
    requires 0 <= k < |s|
    ensures |r| == |s| - 1
    ensures forall i :: 0 <= i < |r| ==> r[i] == if i < k then s[i] else s[i + 1]
  {
    s[..k] + s[k + 1..]
  }

  lemma InsDel<T>(s: seq<T>, k: int)
    requires 0 <= k < |s|
    ensures Ins(Del(s, k), k, s[k]) == s
  {
  }

  /** Ids are non-decreasing along the sequence (skip list level 0, sorted list). */
  ghost predicate NonDecreasing(s: seq<Sample>)
  {
    forall i, j :: 0 <= i < j < |s| ==> s[i].id <= s[j].id
  }

  /** Ids are strictly increasing along the sequence (AVL in-order traversal). */
  ghost predicate StrictlyIncreasing(s: seq<Sample>)
  {
    forall i, j :: 0 <= i < j < |s| ==> s[i].id < s[j].id
  }

  /** No two samples share an id. */
  ghost predicate DistinctIds(s: seq<Sample>)
  {
    forall i, j :: 0 <= i < j < |s| ==> s[i].id != s[j].id
  }

  /** Index of the first sample whose id is not below `id` (|s| when there is none). */
  function LowerBound(s: seq<Sample>, id: int): (k: nat)
    ensures k <= |s|
    ensures k < |s| ==> s[k].id >= id
    ensures forall i :: 0 <= i < k ==> s[i].id < id
  {
    if s == [] then 0 else if s[0].id >= id then 0 else 1 + LowerBound(s[1..], id)
  }

  /** Inserting a sample at the lower bound of its id keeps a non-decreasing sequence
      non-decreasing: it lands after every smaller id and before every id not below its own. */
  lemma InsertAtLowerBound(s: seq<Sample>, x: Sample)
    requires NonDecreasing(s)
    ensures NonDecreasing(Ins(s, LowerBound(s, x.id), x))
  {
    var k := LowerBound(s, x.id);
    var r := Ins(s, k, x);
    forall i, j | 0 <= i < j < |r|
      ensures r[i].id <= r[j].id
    {
      if i < k && j == k {
      } else if i == k && j > k {
        assert r[j] == s[j - 1] && s[k].id <= s[j - 1].id;
      }
    }
  }

  /** Removing an element keeps a non-decreasing sequence non-decreasing. */
  lemma DeleteKeepsOrder(s: seq<Sample>, k: int)
    requires NonDecreasing(s) && 0 <= k < |s|
    ensures NonDecreasing(Del(s, k))
  {
    var r := Del(s, k);
    forall i, j | 0 <= i < j < |r|
      ensures r[i].id <= r[j].id
    {
      assert r[i] == s[if i < k then i else i + 1] && r[j] == s[if j < k then j else j + 1];
    }
  }

  /** In a non-decreasing sequence the lower bound of an id is its first occurrence, and
      when the sample found there carries another id, the id is absent. */
  lemma LowerBoundIsFirstOccurrence(s: seq<Sample>, id: int)
    requires NonDecreasing(s)
    ensures var k := LowerBound(s, id);
            if k < |s| && s[k].id == id then IndexOfId(s, id) == k else IndexOfId(s, id) == |s|
  {
  }
}

=== FILE: skiplist.dfy ===
/**
 * The skip list index (skiplist.c).
 *
 * Nodes live in an arena: node 0 is the header `cabeca`, every other index is a node
 * allocated by an insertion, and a link is a node index or NIL. `next[m]` holds the
 * sixteen forward links `proximo` of node m, `recs[m]` its sample, and `nivel` is the
 * 0-based index of the highest level in use. The ghost `order` lists the nodes of the
 * level-0 chain and `hs` their heights, so that the links are described by the
 * position-based predicate `LinksOk` of module SkipLinks.
 */
module SkipList {
  import opened Records
  import opened SkipLinks

  /** The samples of the nodes listed in `order`. */
  function Gather(recs: seq<Sample>, order: seq<int>): (r: seq<Sample>)
    requires forall p :: 0 <= p < |order| ==> 0 <= order[p] < |recs|
    ensures |r| == |order|
    ensures forall p :: 0 <= p < |order| ==> r[p] == recs[order[p]]
  {
    seq(|order|, p requires 0 <= p < |order| => recs[order[p]])
  }

  /** Appending a node to the arena and inserting it at position k of the level-0 chain
      inserts its sample at position k of the contents. */
  lemma GatherIns(recs: seq<Sample>, order: seq<int>, k: int, x: Sample)
    requires forall p :: 0 <= p < |order| ==> 0 <= order[p] < |recs|
    requires 0 <= k <= |order|
    ensures Gather(recs + [x], Ins(order, k, |recs|)) == Ins(Gather(recs, order), k, x)
  {
    var a, b := Gather(recs + [x], Ins(order, k, |recs|)), Ins(Gather(recs, order), k, x);
    forall p | 0 <= p < |a|
      ensures a[p] == b[p]
    {
    }
  }

  lemma GatherDel(recs: seq<Sample>, order: seq<int>, k: int)
    requires forall p :: 0 <= p < |order| ==> 0 <= order[p] < |recs|
    requires 0 <= k < |order|
    ensures Gather(recs, Del(order, k)) == Del(Gather(recs, order), k)
  {
  }

  /** The header's link at level l is NIL exactly when no node is taller than l. */
  lemma HeadLink(next: seq<seq<int>>, order: seq<int>, hs: seq<int>, l: int)
    requires LinksOk(next, order, hs) && 0 <= l < MAX
    ensures next[0][l] == NIL <==> forall q :: 0 <= q < |hs| ==> hs[q] <= l
  {
    assert next[NodeAt(order, -1)][l] == LinkOf(order, Succ(hs, -1, l));
  }

  /** At level 0 every node links to the next position. */
  lemma Level0Link(next: seq<seq<int>>, order: seq<int>, hs: seq<int>, p: int)
    requires LinksOk(next, order, hs) && -1 <= p < |order|
    ensures next[NodeAt(order, p)][0] == LinkOf(order, p + 1)
  {
    assert Succ(hs, p, 0) == p + 1;
  }

  /**
   * `nivel_aleatorio_skiplist`, with the i-th value returned by `rand()` given as
   * `draw(i)`: the level grows by one for each draw below 50 (mod 100), up to
   * `NIVEL_MAX_SKIPLIST`. The result is the length of the run of such draws plus one.
   */
  method RandomLevel(draw: nat -> nat) returns (nvl: int)
    ensures 1 <= nvl <= MAX
    ensures forall i :: 0 <= i < nvl - 1 ==> draw(i) % 100 < 50
    ensures nvl < MAX ==> draw(nvl - 1) % 100 >= 50
  {
    nvl := 1;
    while draw(nvl - 1) % 100 < 50 && nvl < MAX
      invariant 1 <= nvl <= MAX
      invariant forall i :: 0 <= i < nvl - 1 ==> draw(i) % 100 < 50
      decreases MAX - nvl
    {
      nvl := nvl + 1;
    }
  }

  /** One step of the unlinking loop: the predecessor recorded at level j still links
      to the removed node exactly when j is below the node's height. */
  lemma UnlinkStep(next0: seq<seq<int>>, order0: seq<int>, hs0: seq<int>, k: int, upos: seq<int>, j: int)
    requires LinksOk(next0, order0, hs0) && 0 <= k < |order0| && 0 <= j < MAX
    requires |upos| == MAX && IsPred(hs0, upos[j], j, k)
    ensures next0[NodeAt(order0, upos[j])][j] == order0[k] <==> j < hs0[k]
  {
    var q := Succ(hs0, upos[j], j);
    assert next0[NodeAt(order0, upos[j])][j] == LinkOf(order0, q);
  }

  /** Every link in place, one sample per arena node, the level-0 chain sorted by id. */
  ghost predicate Linked(recs: seq<Sample>, next: seq<seq<int>>, order: seq<int>, hs: seq<int>)
  {
    LinksOk(next, order, hs) && |recs| == |next| && NonDecreasing(Gather(recs, order))
  }

  /** No node is taller than `nivel + 1` and, unless `nivel` is 0, the header links at
      level `nivel`. */
  ghost predicate TopLevel(next: seq<seq<int>>, hs: seq<int>, nivel: int)
  {
    && 0 <= nivel < MAX && |next| >= 1 && |next[0]| == MAX
    && (forall p :: 0 <= p < |hs| ==> hs[p] <= nivel + 1)
    && (nivel == 0 || next[0][nivel] != NIL)
  }

  /** The structure after a node of height h carrying `novo` has been appended to the
      arena and spliced in at the lower bound of its id. */
  lemma InsertKeeps(recs: seq<Sample>, next: seq<seq<int>>, order: seq<int>, hs: seq<int>, nivel: int,
                    novo: Sample, h: int, upos: seq<int>, next': seq<seq<int>>)
    requires Linked(recs, next, order, hs) && TopLevel(next, hs, nivel) && 1 <= h <= MAX
    requires |upos| == MAX
    requires forall l :: 0 <= l < h ==> IsPred(hs, upos[l], l, LowerBound(Gather(recs, order), novo.id))
    requires |next'| == |next| + 1 && forall m :: 0 <= m < |next'| ==> |next'[m]| == MAX
    requires forall m, l :: 0 <= m < |next'| && 0 <= l < MAX ==>
               next'[m][l] == Spliced(next, order, upos, h, m, l)
    ensures var k := LowerBound(Gather(recs, order), novo.id);
            && Linked(recs + [novo], next', Ins(order, k, |next|), Ins(hs, k, h))
            && TopLevel(next', Ins(hs, k, h), Max(nivel, h - 1))
            && Gather(recs + [novo], Ins(order, k, |next|)) == Ins(Gather(recs, order), k, novo)
  {
    var k := LowerBound(Gather(recs, order), novo.id);
    var order', hs', nivel' := Ins(order, k, |next|), Ins(hs, k, h), Max(nivel, h - 1);
    InsertLinks(next, order, hs, k, h, upos, next');
    GatherIns(recs, order, k, novo);
    InsertAtLowerBound(Gather(recs, order), novo);
    InsertKeepsTop(next, order, hs, nivel, k, h, next');
  }

  /** After the insertion `nivel` is still the highest level in use. */
  lemma InsertKeepsTop(next: seq<seq<int>>, order: seq<int>, hs: seq<int>, nivel: int, k: int, h: int,
                       next': seq<seq<int>>)
    requires LinksOk(next, order, hs) && TopLevel(next, hs, nivel)
    requires 0 <= k <= |order| && 1 <= h <= MAX
    requires LinksOk(next', Ins(order, k, |next|), Ins(hs, k, h))
    ensures TopLevel(next', Ins(hs, k, h), Max(nivel, h - 1))
  {
    var order', hs', nivel' := Ins(order, k, |next|), Ins(hs, k, h), Max(nivel, h - 1);
    if nivel' > 0 {
      HeadLink(next', order', hs', nivel');
      if nivel' == nivel {
        HeadLink(next, order, hs, nivel);
        var q :| 0 <= q < |hs| && hs[q] > nivel;
        assert hs'[Shift(k, q)] > nivel';
      } else {
        assert hs'[k] > nivel';
      }
    }
  }

  /** The structure after the node at position k has been unlinked from every level it
      occupies: links, order and heights are those of the remaining nodes. */
  lemma RemoveKeeps(recs: seq<Sample>, next: seq<seq<int>>, order: seq<int>, hs: seq<int>, nivel: int,
                    k: int, upos: seq<int>, next': seq<seq<int>>)
    requires Linked(recs, next, order, hs) && TopLevel(next, hs, nivel) && 0 <= k < |order|
    requires |upos| == MAX && forall l :: 0 <= l < hs[k] ==> IsPred(hs, upos[l], l, k)
    requires |next'| == |next| && forall m :: 0 <= m < |next'| ==> |next'[m]| == MAX
    requires forall m, l :: 0 <= m < |next'| && 0 <= l < MAX ==>
               next'[m][l] == Unlinked(next, order, upos, hs[k], k, m, l)
    ensures Linked(recs, next', Del(order, k), Del(hs, k))
    ensures forall p :: 0 <= p < |hs| - 1 ==> Del(hs, k)[p] <= nivel + 1
    ensures Gather(recs, Del(order, k)) == Del(Gather(recs, order), k)
  {
    RemoveLinks(next, order, hs, k, upos, next');
    GatherDel(recs, order, k);
    DeleteKeepsOrder(Gather(recs, order), k);
  }

  class SkipList {
    var recs: seq<Sample>
    var next: seq<seq<int>>
    var nivel: int
    ghost var order: seq<int>
    ghost var hs: seq<int>

    /** The invariant of the structure: every link in place, the level-0 chain sorted by
        id, every node at most `nivel + 1` levels tall and, unless it is 0, `nivel` the
        highest level the header links at. */
    ghost predicate Valid()
      reads this
    {
      Linked(recs, next, order, hs) && TopLevel(next, hs, nivel)
    }

    /** The samples along the level-0 chain. */
    ghost function Contents(): seq<Sample>
      reads this
      requires Valid()
    {
      Gather(recs, order)
    }

    /** `iniciar_skiplist`: an empty list, `nivel` 0, every header link NIL. */
    constructor ()
      ensures Valid() && Contents() == [] && nivel == 0
      ensures |next| == 1 && forall l :: 0 <= l < MAX ==> next[0][l] == NIL
    {
      var cabeca: seq<int> := [];
      for i := 0 to MAX
        invariant |cabeca| == i && forall l :: 0 <= l < i ==> cabeca[l] == NIL
      {
        cabeca := cabeca + [NIL];
      }
      recs := [Sample(0, 0, "", "", Measures(0.0, 0.0, 0.0, 0.0, 0.0))];
      next := [cabeca];
      nivel := 0;
      order := [];
      hs := [];
    }

    /** The header links NIL at every level above `nivel`. */
    lemma HeadLinksAboveNivelAreNull()
      requires Valid()
      ensures forall l :: nivel < l < MAX ==> next[0][l] == NIL
    {
      forall l | nivel < l < MAX
        ensures next[0][l] == NIL
      {
        HeadLink(next, order, hs, l);
      }
    }

    /** Every level is a sorted sub-chain of the levels below it: the level-l link of the
        node at position p leads to position q, every node skipped on the way is shorter
        than l + 1, the node reached is linked at every level up to l and does not carry
        a smaller id. */
    lemma LevelLink(p: int, l: int) returns (q: int)
      requires Valid() && -1 <= p < |order| && 0 <= l < HeightAt(hs, p)
      ensures p < q <= |order| && next[NodeAt(order, p)][l] == LinkOf(order, q)
      ensures forall r :: p < r < q ==> hs[r] <= l
      ensures q < |order| ==> l < hs[q]
      ensures 0 <= p && q < |order| ==> Contents()[p].id <= Contents()[q].id
    {
      q := Succ(hs, p, l);
    }

    /**
     * The descent shared by `inserir_skiplist`, `buscar_skiplist` and
     * `remover_skiplist`: from level `nivel` down to 0, advance while the next node's
     * id is below `id`, and record the node reached at each level in `atualizacao`.
     * The node recorded at level l is the last node at that level before the lower
     * bound of `id` in the level-0 chain (the header for the levels above `nivel`).
     */
    method Descend(id: int) returns (atualizacao: seq<int>, ghost upos: seq<int>)
      requires Valid()
      ensures |atualizacao| == MAX && |upos| == MAX
      ensures forall l :: 0 <= l < MAX ==>
                IsPred(hs, upos[l], l, LowerBound(Contents(), id)) && atualizacao[l] == NodeAt(order, upos[l])
    {
      ghost var k := LowerBound(Contents(), id);
      atualizacao := seq(MAX, _ => 0);
      upos := seq(MAX, _ => -1);
      forall l | nivel < l < MAX
        ensures IsPred(hs, -1, l, k)
      {
      }
      var x := 0;
      ghost var p := -1;
      var i := nivel;
      while i >= 0
        invariant -1 <= i <= nivel
        invariant -1 <= p < k && x == NodeAt(order, p) && i < HeightAt(hs, p)
        invariant |atualizacao| == MAX && |upos| == MAX
        invariant forall l :: 0 <= l < MAX ==> atualizacao[l] == NodeAt(order, upos[l])
        invariant forall l :: i < l < MAX ==> IsPred(hs, upos[l], l, k)
      {
        while next[x][i] != NIL && recs[next[x][i]].id < id
          invariant -1 <= p < k && x == NodeAt(order, p) && i < HeightAt(hs, p)
          decreases |order| - p
        {
          ghost var q := Succ(hs, p, i);
          assert next[x][i] == LinkOf(order, q);
          assert Contents()[q].id < id;
          x := next[x][i];
          p := q;
        }
        ghost var q := Succ(hs, p, i);
        assert next[x][i] == LinkOf(order, q);
        if q < |order| {
          assert Contents()[q] == recs[next[x][i]];
        }
        atualizacao := atualizacao[i := x];
        upos := upos[i := p];
        i := i - 1;
      }
    }

    /** `buscar_skiplist`: the first sample of the level-0 chain carrying `id`, or none. */
    method Search(id: int) returns (r: Option<Sample>)
      requires Valid()
      ensures var i := IndexOfId(Contents(), id);
              r == if i < |Contents()| then Some(Contents()[i]) else None
    {
      ghost var k := LowerBound(Contents(), id);
      LowerBoundIsFirstOccurrence(Contents(), id);
      var atualizacao, upos := Descend(id);
      Level0Link(next, order, hs, upos[0]);
      var atual := next[atualizacao[0]][0];
      assert atual == LinkOf(order, k);
      if atual != NIL && recs[atual].id == id {
        r := Some(recs[atual]);
      } else {
        r := None;
      }
    }

    /**
     * `inserir_skiplist` with the drawn level `novoNivel`: the new sample enters the
     * level-0 chain before the first sample whose id is not below its own (a duplicate
     * id is accepted and goes before the samples already carrying it), it is spliced
     * into its first `novoNivel` levels, its height `novoNivel` is recorded at the same
     * position of `hs`, and `nivel` rises to `novoNivel - 1` when that is higher.
     */
    method Insert(novo: Sample, novoNivel: int)
      requires Valid() && 1 <= novoNivel <= MAX
      modifies this
      ensures Valid()
      ensures Contents() == Ins(old(Contents()), LowerBound(old(Contents()), novo.id), novo)
      ensures multiset(Contents()) == multiset(old(Contents())) + multiset{novo}
      ensures nivel == Max(old(nivel), novoNivel - 1)
      ensures hs == Ins(old(hs), LowerBound(old(Contents()), novo.id), novoNivel)
    {
      MultisetIns(Contents(), LowerBound(Contents(), novo.id), novo);
      ghost var k := LowerBound(Contents(), novo.id);
      ghost var contents0 := Contents();
      var atualizacao, upos := Descend(novo.id);
      if novoNivel > nivel {
        for j := nivel + 1 to novoNivel
          invariant |atualizacao| == MAX && |upos| == MAX
          invariant forall l :: 0 <= l < MAX ==> atualizacao[l] == NodeAt(order, upos[l])
          invariant forall l :: 0 <= l < MAX ==> IsPred(hs, upos[l], l, k)
        {
          atualizacao := atualizacao[j := 0];
          upos := upos[j := -1];
        }
      }
      InsertAt(atualizacao, novo, novoNivel, k, upos);
    }

    /** `inserir_skiplist` once the descent is done: raise `nivel` to h - 1 when that is
        higher, splice the new node in and record it, with its height h, at position k of the level-0
        chain. */
    method InsertAt(atualizacao: seq<int>, novo: Sample, h: int, ghost k: int, ghost upos: seq<int>)
      requires Valid() && 1 <= h <= MAX && k == LowerBound(Contents(), novo.id)
      requires |atualizacao| == MAX && |upos| == MAX
      requires forall l :: 0 <= l < MAX ==> IsPred(hs, upos[l], l, k) && atualizacao[l] == NodeAt(order, upos[l])
      modifies this
      ensures Valid() && nivel == Max(old(nivel), h - 1)
      ensures Contents() == Ins(old(Contents()), k, novo) && hs == Ins(old(hs), k, h)
    {
      ghost var nivel0 := nivel;
      if h - 1 > nivel {
        nivel := h - 1;
      }
      ghost var next0, recs0 := next, recs;
      var n := |next|;
      Splice(atualizacao, novo, h, upos);
      InsertKeeps(recs0, next0, order, hs, nivel0, novo, h, upos, next);
      order := Ins(order, k, n);
      hs := Ins(hs, k, h);
    }

    /** The splice loop of `inserir_skiplist`: the new node is appended to the arena with
        every link NIL, then at each level below h it takes over the link of the node
        recorded at that level, which now links to it. */
    method Splice(atualizacao: seq<int>, novo: Sample, h: int, ghost upos: seq<int>)
      requires Arena(next, order) && |recs| == |next| && 0 <= h <= MAX
      requires |atualizacao| == MAX && |upos| == MAX
      requires forall l :: 0 <= l < MAX ==> atualizacao[l] == NodeAt(order, upos[l])
      modifies this`recs, this`next
      ensures recs == old(recs) + [novo]
      ensures |next| == |old(next)| + 1 && forall m :: 0 <= m < |next| ==> |next[m]| == MAX
      ensures forall m, l :: 0 <= m < |next| && 0 <= l < MAX ==>
                next[m][l] == Spliced(old(next), order, upos, h, m, l)
    {
      var n := |next|;
      recs := recs + [novo];
      next := next + [seq(MAX, _ => NIL)];
      for l := 0 to h
        invariant recs == old(recs) + [novo]
        invariant |next| == n + 1 && forall m :: 0 <= m <= n ==> |next[m]| == MAX
        invariant forall m, l' :: 0 <= m <= n && 0 <= l' < MAX ==>
                    next[m][l'] == Spliced(old(next), order, upos, l, m, l')
      {
        next := next[n := next[n][l := next[atualizacao[l]][l]]];
        next := next[atualizacao[l] := next[atualizacao[l]][l := n]];
      }
    }

    /**
     * `remover_skiplist`: when the level-0 chain holds `id`, the first node carrying it
     * is unlinked from every level it occupies and its height leaves `hs`, `nivel` drops
     * while the header's top link is NIL, and 1 is returned; otherwise nothing changes
     * and 0 is returned.
     */
    method Remove(id: int) returns (removido: int)
      requires Valid()
      modifies this
      ensures Valid()
      ensures var i := IndexOfId(old(Contents()), id);
              if i == |old(Contents())| then removido == 0 && Contents() == old(Contents())
              else removido == 1 && Contents() == Del(old(Contents()), i)
      ensures removido == 0 ==> unchanged(this)
      ensures removido == 1 ==> hs == Del(old(hs), IndexOfId(old(Contents()), id))
      ensures nivel <= old(nivel)
    {
      ghost var k := LowerBound(Contents(), id);
      LowerBoundIsFirstOccurrence(Contents(), id);
      var atualizacao, upos := Descend(id);
      Level0Link(next, order, hs, upos[0]);
      var remover := next[atualizacao[0]][0];
      assert remover == LinkOf(order, k);
      if remover == NIL || recs[remover].id != id {
        return 0;
      }
      assert Contents()[k] == recs[remover];
      RemoveAt(atualizacao, remover, k, upos);
      removido := 1;
    }

    /** `remover_skiplist` once the node at position k has been found: unlink it, drop it
        and its height from the level-0 chain and lower `nivel`. */
    method RemoveAt(atualizacao: seq<int>, remover: int, ghost k: int, ghost upos: seq<int>)
      requires Linked(recs, next, order, hs) && TopLevel(next, hs, nivel)
      requires 0 <= k < |order| && remover == order[k]
      requires |atualizacao| == MAX && |upos| == MAX
      requires forall l :: 0 <= l < MAX ==> IsPred(hs, upos[l], l, k) && atualizacao[l] == NodeAt(order, upos[l])
      modifies this`next, this`order, this`hs, this`nivel
      ensures Valid()
      ensures Gather(recs, order) == Del(old(Gather(recs, order)), k)
      ensures hs == Del(old(hs), k)
      ensures nivel <= old(nivel)
    {
      ghost var next0 := next;
      Unlink(atualizacao, remover, k, upos);
      RemoveKeeps(recs, next0, order, hs, nivel, k, upos, next);
      order := Del(order, k);
      hs := Del(hs, k);
      DropEmptyLevels();
    }

    /** The unlinking loop of `remover_skiplist`: from level 0 up, while the node recorded
        at the level still links to the removed node, it takes over the removed node's
        link; the loop stops at the first level where it does not, which is the removed
        node's height. */
    method Unlink(atualizacao: seq<int>, remover: int, ghost k: int, ghost upos: seq<int>)
      requires LinksOk(next, order, hs) && 0 <= k < |order| && remover == order[k]
      requires 0 <= nivel < MAX && hs[k] <= nivel + 1
      requires |atualizacao| == MAX && |upos| == MAX
      requires forall l :: 0 <= l < MAX ==> IsPred(hs, upos[l], l, k) && atualizacao[l] == NodeAt(order, upos[l])
      modifies this`next
      ensures |next| == |old(next)| && forall m :: 0 <= m < |next| ==> |next[m]| == MAX
      ensures forall m, l :: 0 <= m < |next| && 0 <= l < MAX ==>
                next[m][l] == Unlinked(old(next), order, upos, hs[k], k, m, l)
    {
      var j := 0;
      while j <= nivel
        invariant 0 <= j <= hs[k]
        invariant |next| == |old(next)| && forall m :: 0 <= m < |next| ==> |next[m]| == MAX
        invariant forall m, l :: 0 <= m < |next| && 0 <= l < MAX ==>
                    next[m][l] == Unlinked(old(next), order, upos, j, k, m, l)
        decreases nivel - j
      {
        UnlinkStep(old(next), order, hs, k, upos, j);
        if next[atualizacao[j]][j] != remover {
          break;
        }
        next := next[atualizacao[j] := next[atualizacao[j]][j := next[remover][j]]];
        j := j + 1;
      }
    }

    /** The last loop of `remover_skiplist`: `nivel` drops while it is positive and the
        header links NIL at that level. */
    method DropEmptyLevels()
      requires Linked(recs, next, order, hs) && 0 <= nivel < MAX
      requires forall p :: 0 <= p < |hs| ==> hs[p] <= nivel + 1
      modifies this`nivel
      ensures Valid() && nivel <= old(nivel)
    {
      while nivel > 0 && next[0][nivel] == NIL
        invariant 0 <= nivel < MAX && forall p :: 0 <= p < |hs| ==> hs[p] <= nivel + 1
      {
        HeadLink(next, order, hs, nivel);
        nivel := nivel - 1;
      }
    }

    /** The level-0 walk of `imprime_skiplist` and `salvar_dados_skiplist`: every sample
        in chain order, and their number. */
    method Samples() returns (out: seq<Sample>, contador: int)
      requires Valid()
      ensures out == Contents() && contador == |out|
    {
      out, contador := [], 0;
      Level0Link(next, order, hs, -1);
      var atual := next[0][0];
      ghost var p := 0;
      while atual != NIL
        invariant 0 <= p <= |order| && atual == LinkOf(order, p)
        invariant out == Contents()[..p] && contador == p
        decreases |order| - p
      {
        Level0Link(next, order, hs, p);
        out := out + [recs[atual]];
        contador := contador + 1;
        atual := next[atual][0];
        p := p + 1;
      }
    }

    /** `criar_id_skiplist`: one above the largest id on the level-0 chain, starting the
        running maximum at 0. */
    method CreateId() returns (r: int)
      requires Valid()
      ensures r == NextId(Contents())
    {
      var maiorId := 0;
      Level0Link(next, order, hs, -1);
      var atual := next[0][0];
      ghost var p := 0;
      while atual != NIL
        invariant 0 <= p <= |order| && atual == LinkOf(order, p)
        invariant maiorId == MaxIdFrom0(Contents()[..p])
        decreases |order| - p
      {
        assert Contents()[..p + 1][..p] == Contents()[..p];
        Level0Link(next, order, hs, p);
        if recs[atual].id > maiorId {
          maiorId := recs[atual].id;
        }
        atual := next[atual][0];
        p := p + 1;
      }
      assert Contents()[..p] == Contents();
      r := maiorId + 1;
    }

    /** `buscarFiltros_skiplist`: the samples of the level-0 chain that the filters accept
        (NULL and empty filters match everything), in chain order, and their number. */
    method SearchFiltered(q: Query) returns (shown: seq<Sample>, encontrados: int)
      requires Valid()
      ensures shown == Selected(Contents(), q, NullOrEmpty) && encontrados == |shown|
    {
      shown, encontrados := [], 0;
      Level0Link(next, order, hs, -1);
      var atual := next[0][0];
      ghost var p := 0;
      while atual != NIL
        invariant 0 <= p <= |order| && atual == LinkOf(order, p)
        invariant shown == Selected(Contents()[..p], q, NullOrEmpty) && encontrados == |shown|
        decreases |order| - p
      {
        assert Contents()[..p + 1][..p] == Contents()[..p];
        Level0Link(next, order, hs, p);
        var x := recs[atual];
        if Matches(NullOrEmpty, q, x) {
          shown := shown + [x];
          encontrados := encontrados + 1;
        }
        atual := next[atual][0];
        p := p + 1;
      }
      assert Contents()[..p] == Contents();
    }

    /** The insertion loop of `carregar_dados_skiplist`, with the level drawn for the i-th
        record given as `levels[i]`: the level-0 chain ends up holding the samples it held
        and every record read, duplicates included. */
    method InsertAll(rs: seq<Sample>, levels: seq<int>)
      requires Valid() && |levels| == |rs|
      requires forall i :: 0 <= i < |levels| ==> 1 <= levels[i] <= MAX
      modifies this
      ensures Valid()
      ensures multiset(Contents()) == multiset(old(Contents())) + multiset(rs)
    {
      ghost var c0 := Contents();
      for i := 0 to |rs|
        invariant Valid()
        invariant multiset(Contents()) == multiset(c0) + multiset(rs[..i])
      {
        ghost var before := multiset(Contents());
        Insert(rs[i], levels[i]);
        TakeSnoc(rs, i);
        AddOne(before, multiset(c0), multiset(rs[..i]), rs[i]);
      }
      assert rs[..|rs|] == rs;
    }
  }
}

=== FILE: skiplist_links.dfy ===
/**
 * The forward links of a skip list, described by positions.
 *
 * The nodes of the level-0 chain are numbered by their position p (0 .. |order|-1) and
 * the header by -1. `order[p]` is the node at position p and `hs[p]` its height (the
 * number of levels it is linked at). At level l, the node at position p must link to
 * the next position after p whose height exceeds l, `Succ(hs, p, l)`, or to NIL when
 * there is none. This module proves that inserting a node and splicing it into the
 * levels below its height, and unlinking a node from the levels below its height, both
 * keep every link of the structure in that form.
 */
module SkipLinks {
  import opened Records

  /** `NIVEL_MAX_SKIPLIST`: the number of forward links of every node. */
  const MAX: int := 16

  /** The null link. */
  const NIL: int := -1

  /** The first position after p whose height exceeds l, or |hs| when there is none. */
  function Succ(hs: seq<int>, p: int, l: int): (q: int)
    requires -1 <= p < |hs|
    ensures p < q <= |hs|
    ensures q < |hs| ==> hs[q] > l
    ensures forall r :: p < r < q ==> hs[r] <= l
    decreases |hs| - p
  {
    if p + 1 == |hs| then |hs| else if hs[p + 1] > l then p + 1 else Succ(hs, p + 1, l)
  }

  /** The three properties of `Succ` determine it. */
  lemma SuccUnique(hs: seq<int>, p: int, l: int, q: int)
    requires -1 <= p < q <= |hs|
    requires q < |hs| ==> hs[q] > l
    requires forall r :: p < r < q ==> hs[r] <= l
    ensures q == Succ(hs, p, l)
  {
  }

  /** A chain at a higher level skips at least as far as a chain at a lower level, so the
      chain at level l is a subsequence of the chain at every level below it. */
  lemma SuccMonotone(hs: seq<int>, p: int, lo: int, hi: int)
    requires -1 <= p < |hs| && lo <= hi
    ensures Succ(hs, p, lo) <= Succ(hs, p, hi)
  {
  }

  /** The node at position p; the header (position -1) is node 0. */
  function NodeAt(order: seq<int>, p: int): int
  {
    if 0 <= p < |order| then order[p] else 0
  }

  /** The height of the node at position p; the header is linked at every level. */
  function HeightAt(hs: seq<int>, p: int): int
    requires -1 <= p < |hs|
  {
    if p == -1 then MAX else hs[p]
  }

  /** The link to position q: NIL past the last node. */
  function LinkOf(order: seq<int>, q: int): int
    requires 0 <= q <= |order|
  {
    if q == |order| then NIL else order[q]
  }

  /** The arena holds the header (node 0) and every node of `order`, each with `MAX` links. */
  ghost predicate Arena(next: seq<seq<int>>, order: seq<int>)
  {
    && |next| >= 1
    && (forall m :: 0 <= m < |next| ==> |next[m]| == MAX)
    && (forall p :: 0 <= p < |order| ==> 1 <= order[p] < |next|)
  }

  /** Besides, nodes are distinct and have heights in 1 .. MAX. */
  ghost predicate Shape(next: seq<seq<int>>, order: seq<int>, hs: seq<int>)
  {
    && Arena(next, order)
    && |hs| == |order|
    && (forall p, q :: 0 <= p < q < |order| ==> order[p] != order[q])
    && (forall p :: 0 <= p < |hs| ==> 1 <= hs[p] <= MAX)
  }

  /** Every node of the structure, header included, links at each level below its height
      to its successor at that level, and is NIL at every level from its height up. */
  ghost predicate LinksOk(next: seq<seq<int>>, order: seq<int>, hs: seq<int>)
  {
    && Shape(next, order, hs)
    && forall p, l :: -1 <= p < |order| && 0 <= l < MAX ==>
         next[NodeAt(order, p)][l] == if l < HeightAt(hs, p) then LinkOf(order, Succ(hs, p, l)) else NIL
  }

  /** The node at position p is the last one at level l before position k: the node whose
      level-l link a node inserted at k takes over, or a node removed from k releases. */
  ghost predicate IsPred(hs: seq<int>, p: int, l: int, k: int)
  {
    -1 <= p < k <= |hs| && l < HeightAt(hs, p) && Succ(hs, p, l) >= k
  }

  lemma PredUnique(hs: seq<int>, p1: int, p2: int, l: int, k: int)
    requires IsPred(hs, p1, l, k) && IsPred(hs, p2, l, k)
    ensures p1 == p2
  {
  }

  /** Position q once a node has been inserted at position k. */
  function Shift(k: int, q: int): int
  {
    if q < k then q else q + 1
  }

  /** How successors change when a node of height h is inserted at position k: the
      predecessor of k at a level below h now reaches the new node, and every other
      successor keeps its node. */
  lemma SuccInsert(hs: seq<int>, k: int, h: int, p: int, l: int)
    requires 0 <= k <= |hs| && -1 <= p < |hs|
    ensures Succ(Ins(hs, k, h), Shift(k, p), l) ==
              if p < k && h > l && Succ(hs, p, l) >= k then k else Shift(k, Succ(hs, p, l))
  {
    var q := Succ(hs, p, l);
    if p < k && h > l && q >= k {
      SuccUnique(Ins(hs, k, h), p, l, k);
    } else if q < k {
      SuccUnique(Ins(hs, k, h), Shift(k, p), l, q);
    } else {
      SuccInsertAfter(hs, k, h, p, l);
    }
  }

  /** A successor at or after k moves up by one position. */
  lemma SuccInsertAfter(hs: seq<int>, k: int, h: int, p: int, l: int)
    requires 0 <= k <= |hs| && -1 <= p < |hs| && Succ(hs, p, l) >= k
    requires !(p < k && h > l)
    ensures Succ(Ins(hs, k, h), Shift(k, p), l) == Succ(hs, p, l) + 1
  {
    var hs' := Ins(hs, k, h);
    var q := Succ(hs, p, l);
    var P := Shift(k, p);
    forall r | P < r < q + 1
      ensures hs'[r] <= l
    {
      if r > k {
        assert hs'[r] == hs[r - 1];
      }
    }
    SuccUnique(hs', P, l, q + 1);
  }

  /** The successor of a node inserted at position k is the first node at or after k. */
  lemma SuccOfInserted(hs: seq<int>, k: int, h: int, l: int)
    requires 0 <= k <= |hs|
    ensures Succ(Ins(hs, k, h), k, l) == Succ(hs, k - 1, l) + 1
  {
    var hs' := Ins(hs, k, h);
    var q := Succ(hs, k - 1, l);
    forall r | k < r < q + 1
      ensures hs'[r] <= l
    {
      assert hs'[r] == hs[r - 1];
    }
    SuccUnique(hs', k, l, q + 1);
  }

  /** Positions, heights and links seen through the insertion of node n at position k. */
  lemma ShiftFacts(order: seq<int>, hs: seq<int>, k: int, n: int, h: int, p: int)
    requires |hs| == |order| && 0 <= k <= |order| && -1 <= p <= |order|
    ensures p < |order| ==> NodeAt(Ins(order, k, n), Shift(k, p)) == NodeAt(order, p)
    ensures p < |order| ==> HeightAt(Ins(hs, k, h), Shift(k, p)) == HeightAt(hs, p)
    ensures p >= 0 ==> LinkOf(Ins(order, k, n), Shift(k, p)) == LinkOf(order, p)
  {
  }

  /** The links of the arena after the first `h` levels of a new node (index |next|,
      inserted after the predecessors `upos`) have been spliced in. */
  ghost function Spliced(next: seq<seq<int>>, order: seq<int>, upos: seq<int>, h: int, m: int, l: int): int
    requires Arena(next, order)
    requires 0 <= m <= |next| && 0 <= l < MAX && |upos| == MAX
  {
    if m == |next| then (if l < h then next[NodeAt(order, upos[l])][l] else NIL)
    else if l < h && m == NodeAt(order, upos[l]) then |next|
    else next[m][l]
  }

  /** Splicing a new node of height h in at position k, after its level-l predecessor for
      every l < h, keeps every link in place. */
  lemma InsertLinks(next: seq<seq<int>>, order: seq<int>, hs: seq<int>, k: int, h: int,
                    upos: seq<int>, next': seq<seq<int>>)
    requires LinksOk(next, order, hs)
    requires 0 <= k <= |order| && 1 <= h <= MAX
    requires |upos| == MAX && forall l :: 0 <= l < h ==> IsPred(hs, upos[l], l, k)
    requires |next'| == |next| + 1 && forall m :: 0 <= m < |next'| ==> |next'[m]| == MAX
    requires forall m, l :: 0 <= m < |next'| && 0 <= l < MAX ==>
               next'[m][l] == Spliced(next, order, upos, h, m, l)
    ensures LinksOk(next', Ins(order, k, |next|), Ins(hs, k, h))
  {
    var order', hs' := Ins(order, k, |next|), Ins(hs, k, h);
    InsertShape(next, order, hs, k, h, next');
    forall P, l | -1 <= P < |order'| && 0 <= l < MAX
      ensures next'[NodeAt(order', P)][l] ==
                if l < HeightAt(hs', P) then LinkOf(order', Succ(hs', P, l)) else NIL
    {
      InsertedLink(next, order, hs, k, h, upos, P, l);
    }
  }

  /** The link of one node at one level after the splice. */
  lemma InsertedLink(next: seq<seq<int>>, order: seq<int>, hs: seq<int>, k: int, h: int,
                     upos: seq<int>, P: int, l: int)
    requires LinksOk(next, order, hs)
    requires 0 <= k <= |order| && 1 <= h <= MAX
    requires |upos| == MAX && forall l' :: 0 <= l' < h ==> IsPred(hs, upos[l'], l', k)
    requires -1 <= P <= |order| && 0 <= l < MAX
    ensures var order', hs' := Ins(order, k, |next|), Ins(hs, k, h);
            0 <= NodeAt(order', P) <= |next| &&
            Spliced(next, order, upos, h, NodeAt(order', P), l) ==
              if l < HeightAt(hs', P) then LinkOf(order', Succ(hs', P, l)) else NIL
  {
    if P == k {
      NewNodeLinks(next, order, hs, k, h, upos, l);
    } else {
      ShiftedNodeLinks(next, order, hs, k, h, upos, P, l);
    }
  }

  /** The same for a node other than the new one, named by its new position P. */
  lemma ShiftedNodeLinks(next: seq<seq<int>>, order: seq<int>, hs: seq<int>, k: int, h: int,
                         upos: seq<int>, P: int, l: int)
    requires LinksOk(next, order, hs)
    requires 0 <= k <= |order| && 1 <= h <= MAX
    requires |upos| == MAX && forall l' :: 0 <= l' < h ==> IsPred(hs, upos[l'], l', k)
    requires -1 <= P <= |order| && P != k && 0 <= l < MAX
    ensures var order', hs' := Ins(order, k, |next|), Ins(hs, k, h);
            0 <= NodeAt(order', P) < |next| &&
            Spliced(next, order, upos, h, NodeAt(order', P), l) ==
              if l < HeightAt(hs', P) then LinkOf(order', Succ(hs', P, l)) else NIL
  {
    var p := if P < k then P else P - 1;
    assert P == Shift(k, p);
    ShiftFacts(order, hs, k, |next|, h, p);
    OldNodeLinks(next, order, hs, k, h, upos, p, l);
  }

  lemma InsertShape(next: seq<seq<int>>, order: seq<int>, hs: seq<int>, k: int, h: int,
                    next': seq<seq<int>>)
    requires Shape(next, order, hs)
    requires 0 <= k <= |order| && 1 <= h <= MAX
    requires |next'| == |next| + 1 && forall m :: 0 <= m < |next'| ==> |next'[m]| == MAX
    ensures Shape(next', Ins(order, k, |next|), Ins(hs, k, h))
  {
    var order' := Ins(order, k, |next|);
    forall p, q | 0 <= p < q < |order'|
      ensures order'[p] != order'[q]
    {
    }
  }

  /** The new node's level-l link, copied from its predecessor, reaches its successor. */
  lemma NewNodeLinks(next: seq<seq<int>>, order: seq<int>, hs: seq<int>, k: int, h: int,
                     upos: seq<int>, l: int)
    requires LinksOk(next, order, hs)
    requires 0 <= k <= |order| && 1 <= h <= MAX && 0 <= l < MAX
    requires |upos| == MAX && forall l' :: 0 <= l' < h ==> IsPred(hs, upos[l'], l', k)
    ensures Spliced(next, order, upos, h, |next|, l) ==
              if l < h then LinkOf(Ins(order, k, |next|), Succ(Ins(hs, k, h), k, l)) else NIL
  {
    if l < h {
      var q := Succ(hs, upos[l], l);
      SuccUnique(hs, k - 1, l, q);
      SuccOfInserted(hs, k, h, l);
      ShiftFacts(order, hs, k, |next|, h, q);
    }
  }

  /** Every other node keeps a link that reaches its successor in the new numbering. */
  lemma OldNodeLinks(next: seq<seq<int>>, order: seq<int>, hs: seq<int>, k: int, h: int,
                     upos: seq<int>, p: int, l: int)
    requires LinksOk(next, order, hs)
    requires 0 <= k <= |order| && 1 <= h <= MAX && 0 <= l < MAX && -1 <= p < |order|
    requires |upos| == MAX && forall l' :: 0 <= l' < h ==> IsPred(hs, upos[l'], l', k)
    ensures Spliced(next, order, upos, h, NodeAt(order, p), l) ==
              if l < HeightAt(hs, p) then LinkOf(Ins(order, k, |next|), Succ(Ins(hs, k, h), Shift(k, p), l)) else NIL
  {
    if l < h && IsPred(hs, p, l, k) {
      PredecessorLinksNew(next, order, hs, k, h, upos, p, l);
    } else {
      UntouchedLink(next, order, hs, k, h, upos, p, l);
    }
  }

  /** The predecessor of the new node at a level below its height now links to it. */
  lemma PredecessorLinksNew(next: seq<seq<int>>, order: seq<int>, hs: seq<int>, k: int, h: int,
                            upos: seq<int>, p: int, l: int)
    requires LinksOk(next, order, hs)
    requires 0 <= k <= |order| && 0 <= l < h <= MAX && -1 <= p < |order|
    requires |upos| == MAX && IsPred(hs, upos[l], l, k) && IsPred(hs, p, l, k)
    ensures Spliced(next, order, upos, h, NodeAt(order, p), l) ==
              LinkOf(Ins(order, k, |next|), Succ(Ins(hs, k, h), Shift(k, p), l))
  {
    SuccInsert(hs, k, h, p, l);
    PredUnique(hs, p, upos[l], l, k);
  }

  /** A link the splice does not touch still reaches its successor, renumbered. */
  lemma UntouchedLink(next: seq<seq<int>>, order: seq<int>, hs: seq<int>, k: int, h: int,
                      upos: seq<int>, p: int, l: int)
    requires LinksOk(next, order, hs)
    requires 0 <= k <= |order| && 1 <= h <= MAX && 0 <= l < MAX && -1 <= p < |order|
    requires |upos| == MAX && (l < h ==> IsPred(hs, upos[l], l, k))
    requires !(l < h && IsPred(hs, p, l, k))
    ensures Spliced(next, order, upos, h, NodeAt(order, p), l) ==
              if l < HeightAt(hs, p) then LinkOf(Ins(order, k, |next|), Succ(Ins(hs, k, h), Shift(k, p), l)) else NIL
  {
    SuccInsert(hs, k, h, p, l);
    if l < h {
      assert p != upos[l];
    }
    if l < HeightAt(hs, p) {
      ShiftFacts(order, hs, k, |next|, h, Succ(hs, p, l));
    }
  }

  /** The links of the arena after the node at position k has been unlinked from its
      first `h` levels. */
  ghost function Unlinked(next: seq<seq<int>>, order: seq<int>, upos: seq<int>, h: int, k: int, m: int, l: int): int
    requires Arena(next, order)
    requires 0 <= m < |next| && 0 <= l < MAX && |upos| == MAX && 0 <= k < |order|
  {
    if l < h && m == NodeAt(order, upos[l]) then next[order[k]][l] else next[m][l]
  }

  /** Unlinking the node at position k from every level below its height, by giving each
      predecessor the removed node's link, keeps every link of the remaining nodes in place. */
  lemma RemoveLinks(next: seq<seq<int>>, order: seq<int>, hs: seq<int>, k: int,
                    upos: seq<int>, next': seq<seq<int>>)
    requires LinksOk(next, order, hs)
    requires 0 <= k < |order|
    requires |upos| == MAX && forall l :: 0 <= l < hs[k] ==> IsPred(hs, upos[l], l, k)
    requires |next'| == |next| && forall m :: 0 <= m < |next'| ==> |next'[m]| == MAX
    requires forall m, l :: 0 <= m < |next'| && 0 <= l < MAX ==>
               next'[m][l] == Unlinked(next, order, upos, hs[k], k, m, l)
    ensures LinksOk(next', Del(order, k), Del(hs, k))
  {
    var order', hs' := Del(order, k), Del(hs, k);
    assert Shape(next', order', hs') by {
      forall p, q | 0 <= p < q < |order'|
        ensures order'[p] != order'[q]
      {
        assert order'[p] == order[if p < k then p else p + 1];
        assert order'[q] == order[if q < k then q else q + 1];
      }
    }
    forall p, l | -1 <= p < |order'| && 0 <= l < MAX
      ensures next'[NodeAt(order', p)][l] ==
                if l < HeightAt(hs', p) then LinkOf(order', Succ(hs', p, l)) else NIL
    {
      RemainingNodeLinks(next, order, hs, k, upos, p, l);
    }
  }

  lemma RemainingNodeLinks(next: seq<seq<int>>, order: seq<int>, hs: seq<int>, k: int,
                           upos: seq<int>, p: int, l: int)
    requires LinksOk(next, order, hs)
    requires 0 <= k < |order|
    requires |upos| == MAX && forall l' :: 0 <= l' < hs[k] ==> IsPred(hs, upos[l'], l', k)
    requires -1 <= p < |order| - 1 && 0 <= l < MAX
    ensures Unlinked(next, order, upos, hs[k], k, NodeAt(Del(order, k), p), l) ==
              if l < HeightAt(Del(hs, k), p) then LinkOf(Del(order, k), Succ(Del(hs, k), p, l)) else NIL
  {
    var order', hs' := Del(order, k), Del(hs, k);
    var h := hs[k];
    InsDel(order, k);
    InsDel(hs, k);
    ShiftFacts(order', hs', k, order[k], h, p);
    var P := Shift(k, p);
    if l < h && NodeAt(order, P) == NodeAt(order, upos[l]) {
      assert P == upos[l] && p == P;
      PredecessorRelinked(next, order, hs, k, p, l);
    } else {
      OtherLinkKept(next, order, hs, k, upos, p, l);
    }
  }

  /** After the node at k is removed, the level-l successor of its predecessor is the
      removed node's own successor. */
  lemma SuccAfterRemoval(hs: seq<int>, k: int, p: int, l: int)
    requires 0 <= k < |hs| && 0 <= l < hs[k] && IsPred(hs, p, l, k)
    ensures Succ(hs, k, l) == Succ(Del(hs, k), p, l) + 1
  {
    var hs', h := Del(hs, k), hs[k];
    InsDel(hs, k);
    assert Succ(hs, p, l) == k by {
      assert hs[k] > l;
    }
    var q' := Succ(hs', p, l);
    SuccInsert(hs', k, h, p, l);
    assert Shift(k, p) == p;
    assert q' >= k;
    SuccOfInserted(hs', k, h, l);
    SuccUnique(hs', k - 1, l, q');
  }

  /** The level-l predecessor of the removed node takes over its level-l link. */
  lemma PredecessorRelinked(next: seq<seq<int>>, order: seq<int>, hs: seq<int>, k: int, p: int, l: int)
    requires LinksOk(next, order, hs)
    requires 0 <= k < |order| && 0 <= l < hs[k] && IsPred(hs, p, l, k)
    ensures next[order[k]][l] == LinkOf(Del(order, k), Succ(Del(hs, k), p, l))
    ensures l < HeightAt(Del(hs, k), p)
  {
    var order', hs' := Del(order, k), Del(hs, k);
    assert next[NodeAt(order, k)][l] == LinkOf(order, Succ(hs, k, l));
    SuccAfterRemoval(hs, k, p, l);
    var q' := Succ(hs', p, l);
    InsDel(order, k);
    ShiftFacts(order', hs', k, order[k], hs[k], q');
    assert p < k;
  }

  /** Every other link of a remaining node is unchanged and still reaches its successor. */
  lemma OtherLinkKept(next: seq<seq<int>>, order: seq<int>, hs: seq<int>, k: int,
                      upos: seq<int>, p: int, l: int)
    requires LinksOk(next, order, hs)
    requires 0 <= k < |order|
    requires |upos| == MAX && forall l' :: 0 <= l' < hs[k] ==> IsPred(hs, upos[l'], l', k)
    requires -1 <= p < |order| - 1 && 0 <= l < MAX
    requires !(l < hs[k] && NodeAt(order, Shift(k, p)) == NodeAt(order, upos[l]))
    ensures next[NodeAt(order, Shift(k, p))][l] ==
              if l < HeightAt(Del(hs, k), p) then LinkOf(Del(order, k), Succ(Del(hs, k), p, l)) else NIL
  {
    var order', hs' := Del(order, k), Del(hs, k);
    var h := hs[k];
    InsDel(order, k);
    InsDel(hs, k);
    ShiftFacts(order', hs', k, order[k], h, p);
    var P := Shift(k, p);
    assert next[NodeAt(order, P)][l] == if l < HeightAt(hs, P) then LinkOf(order, Succ(hs, P, l)) else NIL;
    if l < HeightAt(hs', p) {
      var q' := Succ(hs', p, l);
      SuccInsert(hs', k, h, p, l);
      if p < k && h > l && q' >= k {
        assert IsPred(hs, p, l, k);
        PredUnique(hs, p, upos[l], l, k);
      }
      ShiftFacts(order', hs', k, order[k], h, q');
    }
  }
}

=== FILE: sorted_list.dfy ===
/**
 * The id-ordered singly linked list index (lista_ordenada.c), kept as the sequence of its
 * samples from the head onwards. Two routines of the original misbehave: inserting a
 * sample whose id is below the head's replaces the whole list by that sample, and the id
 * helper returns the largest id rather than one above it. Both are modelled as written,
 * next to corrected versions.
 */
module SortedList {
  import opened Records

  // ---------------------------------------------------------------------------
  // Insertion
  // ---------------------------------------------------------------------------

  /** Where the walk of `insereOrdenadoID_LO` links the new sample once the head's id is
      not above the new id: after the head, before the first later sample whose id is
      not below the new one. */
  function InsertPos(s: seq<Sample>, x: Sample): (k: nat)
    requires s != []
    ensures 1 <= k <= |s|
    ensures forall i :: 1 <= i < k ==> s[i].id < x.id
    ensures k < |s| ==> s[k].id >= x.id
  {
    1 + LowerBound(s[1..], x.id)
  }

  /** `insereOrdenadoID_LO` as written: an empty list, or a head with a larger id, is
      replaced by the lone new sample (its `prox` is set to NULL); otherwise the new sample
      is linked at `InsertPos`. The result holds the new sample and otherwise only samples
      of the old list. */
  function WalkInsert(s: seq<Sample>, x: Sample): (r: seq<Sample>)
    ensures x in r && forall e :: e in r ==> e == x || e in s
    ensures 1 <= |r| <= |s| + 1
  {
    if s == [] || s[0].id > x.id then [x] else Ins(s, InsertPos(s, x), x)
  }

  /** The corrected insertion: a new minimum becomes the head in front of the old list.
      The result is one longer, holds the new sample and every old one, and nothing else. */
  function SortedInsert(s: seq<Sample>, x: Sample): (r: seq<Sample>)
    ensures |r| == |s| + 1
    ensures forall e :: e in r <==> e == x || e in s
  {
    if s == [] || s[0].id > x.id then [x] + s else Ins(s, InsertPos(s, x), x)
  }

  /** Inserting `x` at a position between the ids not above its own and those not below
      keeps the sequence non-decreasing. */
  lemma InsertBetween(s: seq<Sample>, k: int, x: Sample)
    requires NonDecreasing(s) && 0 <= k <= |s|
    requires forall i :: 0 <= i < k ==> s[i].id <= x.id
    requires k < |s| ==> x.id <= s[k].id
    ensures NonDecreasing(Ins(s, k, x))
  {
    var r := Ins(s, k, x);
    forall i, j | 0 <= i < j < |r|
      ensures r[i].id <= r[j].id
    {
      if i == k && j > k {
        assert r[j] == s[j - 1] && s[k].id <= s[j - 1].id;
      }
    }
  }

  /** The walk's position is the one `InsertBetween` asks for. */
  lemma InsertPosBetween(s: seq<Sample>, x: Sample)
    requires NonDecreasing(s) && s != [] && s[0].id <= x.id
    ensures NonDecreasing(Ins(s, InsertPos(s, x), x))
  {
    InsertBetween(s, InsertPos(s, x), x);
  }

  /** Inserting into the empty list gives the one-sample list. */
  lemma WalkInsertEmpty(x: Sample)
    ensures WalkInsert([], x) == [x]
    ensures SortedInsert([], x) == [x]
  {
  }

  /** When the head's id is not above the new id, the walk adds exactly the new sample,
      keeps a non-decreasing list non-decreasing, and places the sample after every
      smaller id and before the first later sample whose id is not below its own. */
  lemma WalkInsertAfterHead(s: seq<Sample>, x: Sample)
    requires NonDecreasing(s) && s != [] && s[0].id <= x.id
    ensures var r := WalkInsert(s, x);
            NonDecreasing(r) && multiset(r) == multiset(s) + multiset{x} && |r| == |s| + 1
    ensures var k := InsertPos(s, x);
            WalkInsert(s, x)[k] == x && forall i :: 0 < i < k ==> s[i].id < x.id
  {
    InsertPosBetween(s, x);
    MultisetIns(s, InsertPos(s, x), x);
  }

  /** The defect: when the new id is below the head's, every sample already in the list is
      lost, so the list no longer holds its old samples plus the new one. */
  lemma NewMinimumDropsList(s: seq<Sample>, x: Sample)
    requires s != [] && s[0].id > x.id
    ensures WalkInsert(s, x) == [x]
    ensures s[0] !in WalkInsert(s, x)
    ensures multiset(WalkInsert(s, x)) != multiset(s) + multiset{x}
  {
    assert |multiset(s) + multiset{x}| == |s| + 1;
  }

  /** The corrected insertion always adds exactly the new sample. */
  lemma SortedInsertAddsOne(s: seq<Sample>, x: Sample)
    ensures multiset(SortedInsert(s, x)) == multiset(s) + multiset{x}
  {
    if s == [] || s[0].id > x.id {
      assert SortedInsert(s, x) == Ins(s, 0, x);
      MultisetIns(s, 0, x);
    } else {
      MultisetIns(s, InsertPos(s, x), x);
    }
  }

  /** The corrected insertion keeps a non-decreasing list non-decreasing. */
  lemma SortedInsertKeepsOrder(s: seq<Sample>, x: Sample)
    requires NonDecreasing(s)
    ensures NonDecreasing(SortedInsert(s, x))
  {
    if s == [] || s[0].id > x.id {
      InsertBetween(s, 0, x);
      assert Ins(s, 0, x) == [x] + s;
    } else {
      InsertPosBetween(s, x);
    }
  }

  /** The two insertions differ only on a new minimum. */
  lemma WalkInsertAgrees(s: seq<Sample>, x: Sample)
    ensures (s == [] || s[0].id <= x.id) ==> WalkInsert(s, x) == SortedInsert(s, x)
    ensures s != [] && s[0].id > x.id ==> WalkInsert(s, x) != SortedInsert(s, x)
  {
    if s != [] && s[0].id > x.id {
      assert |SortedInsert(s, x)| == |s| + 1;
    }
  }

  // ---------------------------------------------------------------------------
  // Ids
  // ---------------------------------------------------------------------------

  /** The defect of `criar_id_LO`: on a list holding a positive id, the value it returns,
      which `criar_amostra_LO` gives to the new sample, is already the id of a sample. */
  lemma LargestIdIsTaken(s: seq<Sample>)
    requires exists i :: 0 <= i < |s| && s[i].id > 0
    ensures exists i :: 0 <= i < |s| && s[i].id == MaxIdFrom0(s)
  {
    var i :| 0 <= i < |s| && s[i].id > 0;
    assert MaxIdFrom0(s) >= s[i].id;
  }

  /** A concrete instance: on the list holding only id 5, `criar_id_LO` returns 5. */
  lemma LargestIdExample(m: Measures)
    ensures var s := [Sample(5, 2020, "SP", "soja", m)];
            MaxIdFrom0(s) == 5 && s[0].id == MaxIdFrom0(s)
  {
    var s := [Sample(5, 2020, "SP", "soja", m)];
    assert s[..0] == [];
  }

  class SortedList {
    /** The chain from `cabeca` to the last node. */
    var itens: seq<Sample>

    /** An empty list: a NULL head. */
    constructor ()
      ensures itens == []
    {
      itens := [];
    }

    /** The walk of `insereOrdenadoID_LO`: starting at the head, advance while the next
        node exists and has a smaller id; the new sample goes after the node reached. */
    method WalkPosition(novo: Sample) returns (atual: int)
      requires itens != [] && itens[0].id <= novo.id
      ensures atual + 1 == InsertPos(itens, novo)
    {
      atual := 0;
      while atual + 1 < |itens| && itens[atual + 1].id < novo.id
        invariant 0 <= atual < |itens| && forall i :: 1 <= i <= atual ==> itens[i].id < novo.id
      {
        atual := atual + 1;
      }
      InsertPosUnique(itens, novo, atual + 1);
    }

    /** `insereOrdenadoID_LO` as written, defect included; duplicates are accepted and a
        sample with the head's id goes after the head. */
    method InsertAsWritten(novo: Sample)
      modifies this
      ensures itens == WalkInsert(old(itens), novo)
      ensures NonDecreasing(old(itens)) ==> NonDecreasing(itens)
    {
      if itens == [] || itens[0].id > novo.id {
        itens := [novo];
      } else {
        var atual := WalkPosition(novo);
        if NonDecreasing(itens) {
          InsertPosBetween(itens, novo);
        }
        itens := itens[..atual + 1] + [novo] + itens[atual + 1..];
      }
    }

    /** The corrected insertion: a new minimum is linked in front of the old head. */
    method Insert(novo: Sample)
      modifies this
      ensures itens == SortedInsert(old(itens), novo)
      ensures NonDecreasing(old(itens)) ==> NonDecreasing(itens)
      ensures multiset(itens) == multiset(old(itens)) + multiset{novo}
    {
      if itens == [] || itens[0].id > novo.id {
        itens := [novo] + itens;
      } else {
        var atual := WalkPosition(novo);
        itens := itens[..atual + 1] + [novo] + itens[atual + 1..];
      }
      SortedInsertAddsOne(old(itens), novo);
      if NonDecreasing(old(itens)) {
        SortedInsertKeepsOrder(old(itens), novo);
      }
    }

    /** `criar_id_LO` as written: the largest id, the running maximum starting at 0. */
    method LargestId() returns (r: int)
      ensures r == MaxIdFrom0(itens)
    {
      var ultimoId := 0;
      var j := 0;
      while j < |itens|
        invariant 0 <= j <= |itens| && ultimoId == MaxIdFrom0(itens[..j])
      {
        TakeSnoc(itens, j);
        MaxIdSnoc(itens[..j], itens[j]);
        if itens[j].id > ultimoId {
          ultimoId := itens[j].id;
        }
        j := j + 1;
      }
      assert itens[..j] == itens;
      r := ultimoId;
    }

    /** The corrected id helper: one above the largest id, so no sample carries it. */
    method NextFreeId() returns (r: int)
      ensures r == NextId(itens)
      ensures forall i :: 0 <= i < |itens| ==> itens[i].id != r
    {
      var maior := LargestId();
      r := maior + 1;
    }

    /** `buscarId_LO`: the first sample from the head carrying the id, or none. */
    method Search(id: int) returns (r: Option<Sample>)
      ensures r == FirstWithId(itens, id)
    {
      var j := 0;
      while j < |itens|
        invariant 0 <= j <= |itens| && forall i :: 0 <= i < j ==> itens[i].id != id
      {
        if itens[j].id == id {
          return Some(itens[j]);
        }
        j := j + 1;
      }
      return None;
    }

    /** `remover_LO`: the head is checked first; otherwise walk to the first node carrying
        the id and unlink it from the previous node; an absent id changes nothing. The
        original reads the head's id before looking at an empty list, hence the
        precondition. */
    method Remove(id: int)
      requires itens != []
      modifies this
      ensures itens == RemoveFirst(old(itens), id)
      ensures NonDecreasing(old(itens)) ==> NonDecreasing(itens)
      ensures FirstWithId(old(itens), id).Some? ==> multiset(itens) + multiset{FirstWithId(old(itens), id).value} == multiset(old(itens))
    {
      ghost var s := itens;
      if itens[0].id == id {
        itens := itens[1..];
      } else {
        var atual := WalkTo(id);
        if atual == |itens| {
          return;
        }
        itens := itens[..atual] + itens[atual + 1..];
      }
      RemoveFirstFacts(s, id);
    }

    /** The walk of `remover_LO`: from the head, advance while the node exists and carries
        another id. */
    method WalkTo(id: int) returns (atual: int)
      ensures atual == IndexOfId(itens, id)
    {
      atual := 0;
      while atual < |itens| && itens[atual].id != id
        invariant 0 <= atual <= |itens| && forall i :: 0 <= i < atual ==> itens[i].id != id
      {
        atual := atual + 1;
      }
    }

    /** The traversal of `imprime_LO` and `salvar_dados_LO`: the samples from the head on,
        and their number, which `imprime_LO` reports. */
    method Samples() returns (out: seq<Sample>, total: int)
      ensures out == itens && total == |itens|
    {
      out, total := [], 0;
      while total < |itens|
        invariant 0 <= total <= |itens| && out == itens[..total]
      {
        TakeSnoc(itens, total);
        out := out + [itens[total]];
        total := total + 1;
      }
      assert itens[..total] == itens;
    }

    /** `buscarFiltros_LO`: the samples the filters accept, from the head on, and their
        number; only a NULL filter is a wildcard here. */
    method SearchFiltered(q: Query) returns (shown: seq<Sample>, encontrados: int)
      ensures shown == Selected(itens, q, NullOnly) && encontrados == |shown|
    {
      shown, encontrados := [], 0;
      var j := 0;
      while j < |itens|
        invariant 0 <= j <= |itens| && encontrados == |shown|
        invariant shown == Selected(itens[..j], q, NullOnly)
      {
        TakeSnoc(itens, j);
        SelectedSnoc(itens[..j], itens[j], q, NullOnly);
        if Matches(NullOnly, q, itens[j]) {
          shown := shown + [itens[j]];
          encontrados := encontrados + 1;
        }
        j := j + 1;
      }
      assert itens[..j] == itens;
    }
  }

  /** What removing the first sample carrying a present id does to the list's contents
      and order. */
  lemma RemoveFirstFacts(s: seq<Sample>, id: int)
    requires FirstWithId(s, id).Some?
    ensures NonDecreasing(s) ==> NonDecreasing(RemoveFirst(s, id))
    ensures multiset(RemoveFirst(s, id)) + multiset{FirstWithId(s, id).value} == multiset(s)
  {
    RemoveFirstUndo(s, id);
    if NonDecreasing(s) {
      DeleteKeepsOrder(s, IndexOfId(s, id));
    }
  }

  /** `InsertPos` is the only position meeting its characterisation. */
  lemma InsertPosUnique(s: seq<Sample>, x: Sample, k: int)
    requires s != [] && 1 <= k <= |s|
    requires forall i :: 1 <= i < k ==> s[i].id < x.id
    requires k < |s| ==> s[k].id >= x.id
    ensures InsertPos(s, x) == k
  {
  }

  /** In a non-decreasing list the search finds the sample exactly when the walk's
      position for that id holds a sample carrying it. */
  lemma SearchInSortedList(s: seq<Sample>, id: int)
    requires NonDecreasing(s)
    ensures FirstWithId(s, id).Some? <==> LowerBound(s, id) < |s| && s[LowerBound(s, id)].id == id
  {
    LowerBoundIsFirstOccurrence(s, id);
  }
}

=== FILE: trie.dfy ===
/**
 * The word trie (trie.c) over a 27-letter alphabet, 'a'..'z' and the space, kept as an
 * arena: node k has the character `letra[k]`, the 27 child links `filhos[k]` (`NIL`
 * for NULL) and the end-of-word flag `ehFolha[k]`; node 0 is the root. A node is always
 * created after its parent, so every link points to a larger index.
 */
module Trie {
  import opened Records

  /** `TAM_ALFABETO`. */
  const TAM_ALFABETO: int := 27

  /** The NULL link. */
  const NIL: int := -1

  /** `indice_trie`: 'a'..'z' go to 0..25, the space to 26, every other character to -1. */
  function IndiceTrie(c: char): (r: int)
    ensures -1 <= r < TAM_ALFABETO
    ensures r == -1 <==> !('a' <= c <= 'z' || c == ' ')
    ensures 'a' <= c <= 'z' ==> r == c as int - 'a' as int
    ensures c == ' ' ==> r == 26
  {
    if c == ' ' then 26 else if 'a' <= c <= 'z' then c as int - 'a' as int else -1
  }

  /** The character whose index is i. */
  function CharOf(i: int): (c: char)
    requires 0 <= i < TAM_ALFABETO
    ensures IndiceTrie(c) == i
  {
    if i == 26 then ' ' else (i + 'a' as int) as char
  }

  /** Every character of the word has a child index. */
  predicate TrieWord(v: string)
  {
    forall i :: 0 <= i < |v| ==> IndiceTrie(v[i]) != -1
  }

  /** How one character is read by `inserir_trie` and `buscar_trie`: 'A'..'Z' lower-cased,
      then dropped when it has no index. */
  function Keep(c: char): (r: string)
    ensures TrieWord(r) && |r| <= 1
    ensures r == [] <==> IndiceTrie(ToLower(c)) == -1
  {
    var d := ToLower(c);
    if IndiceTrie(d) == -1 then [] else [d]
  }

  /** The word the trie actually stores for `w`. */
  function Normalize(w: string): (r: string)
    ensures TrieWord(r) && |r| <= |w|
  {
    if w == [] then [] else Normalize(w[..|w| - 1]) + Keep(w[|w| - 1])
  }

  lemma NormalizeSnoc(w: string, i: int)
    requires 0 <= i < |w|
    ensures var c := ToLower(w[i]);
            Normalize(w[..i + 1]) == Normalize(w[..i]) + (if IndiceTrie(c) == -1 then [] else [c])
  {
    assert w[..i + 1][..i] == w[..i];
  }

  /** A word made of trie characters is its own normal form, so normalising twice changes
      nothing. */
  lemma {:induction false} NormalizeTrieWord(v: string)
    requires TrieWord(v)
    ensures Normalize(v) == v
  {
    if v != [] {
      var init := v[..|v| - 1];
      assert TrieWord(init) by {
        forall i | 0 <= i < |init| ensures IndiceTrie(init[i]) != -1 {
          assert init[i] == v[i];
        }
      }
      NormalizeTrieWord(init);
      var c := v[|v| - 1];
      assert IndiceTrie(c) != -1;
      assert ToLower(c) == c;
      assert v == init + [c];
    }
  }

  lemma NormalizeIdempotent(w: string)
    ensures Normalize(Normalize(w)) == Normalize(w)
  {
    NormalizeTrieWord(Normalize(w));
  }

  // ---------------------------------------------------------------------------
  // The arena
  // ---------------------------------------------------------------------------

  /** Every node has 27 links, each NULL or to a later node of the arena. */
  ghost predicate WellLinked(f: seq<seq<int>>)
  {
    && (forall n :: 0 <= n < |f| ==> |f[n]| == TAM_ALFABETO)
    && (forall n, i :: 0 <= n < |f| && 0 <= i < |f[n]| ==> f[n][i] == NIL || n < f[n][i] < |f|)
  }

  /** A child's character is the one its link stands for. */
  ghost predicate Labelled(f: seq<seq<int>>, letra: seq<char>)
  {
    forall n, i :: 0 <= n < |f| && 0 <= i < |f[n]| && i < TAM_ALFABETO && 0 <= f[n][i] < |letra| ==>
      letra[f[n][i]] == CharOf(i)
  }

  /** `g` keeps every link of `f`, and a link it adds to a node of `f` leads to a node
      that `f` does not have: links are only ever added, towards new nodes. */
  ghost predicate Extends(f: seq<seq<int>>, g: seq<seq<int>>)
  {
    && |f| <= |g|
    && forall n, i :: 0 <= n < |f| && 0 <= i < |f[n]| && i < |g[n]| ==>
         g[n][i] == f[n][i] || (f[n][i] == NIL && g[n][i] >= |f|)
  }

  /** `pai[k]` is the node whose link leads to k: every node has at most one parent, so
      the arena is a tree below the root. */
  ghost predicate Parented(f: seq<seq<int>>, pai: seq<int>)
  {
    && |pai| == |f|
    && forall n, i :: 0 <= n < |f| && 0 <= i < |f[n]| && 0 <= f[n][i] < |f| ==> pai[f[n][i]] == n
  }

  lemma ExtendsTrans(f: seq<seq<int>>, g: seq<seq<int>>, h: seq<seq<int>>)
    requires WellLinked(f) && WellLinked(g) && Extends(f, g) && Extends(g, h)
    ensures Extends(f, h)
  {
    forall n, i | 0 <= n < |f| && 0 <= i < |f[n]| && i < |h[n]|
      ensures h[n][i] == f[n][i] || (f[n][i] == NIL && h[n][i] >= |f|)
    {
      assert n < |g| && i < |g[n]|;
      var x := g[n][i];
      assert x == f[n][i] || (f[n][i] == NIL && x >= |f|);
    }
  }

  /** The node reached from n by following the characters of v, or NIL when a link is
      missing. */
  ghost function Reach(f: seq<seq<int>>, n: int, v: string): (r: int)
    requires WellLinked(f) && 0 <= n < |f| && TrieWord(v)
    ensures r == NIL || n <= r < |f|
    decreases |v|
  {
    if v == [] then n
    else
      var c := f[n][IndiceTrie(v[0])];
      if c == NIL then NIL else Reach(f, c, v[1..])
  }

  /** The word v is stored below node n: its path exists and ends on a word end. */
  ghost predicate StoredAt(f: seq<seq<int>>, folha: seq<bool>, n: int, v: string)
  {
    && WellLinked(f) && |folha| == |f| && 0 <= n < |f| && TrieWord(v)
    && Reach(f, n, v) != NIL && folha[Reach(f, n, v)]
  }

  /** Following u then v is following u + v. */
  lemma {:induction false} ReachAppend(f: seq<seq<int>>, n: int, u: string, v: string)
    requires WellLinked(f) && 0 <= n < |f| && TrieWord(u) && TrieWord(v)
    ensures TrieWord(u + v)
    ensures Reach(f, n, u + v) == (var m := Reach(f, n, u); if m == NIL then NIL else Reach(f, m, v))
    decreases |u|
  {
    assert TrieWord(u + v) by {
      forall i | 0 <= i < |u + v| ensures IndiceTrie((u + v)[i]) != -1 {
        if i < |u| { assert (u + v)[i] == u[i]; } else { assert (u + v)[i] == v[i - |u|]; }
      }
    }
    if u == [] {
      assert u + v == v;
    } else {
      assert (u + v)[0] == u[0] && (u + v)[1..] == u[1..] + v;
      var c := f[n][IndiceTrie(u[0])];
      if c != NIL {
        ReachAppend(f, c, u[1..], v);
      }
    }
  }

  /** A path that exists keeps its end node when links are only added. */
  lemma {:induction false} ReachExtends(f: seq<seq<int>>, g: seq<seq<int>>, n: int, v: string)
    requires WellLinked(f) && WellLinked(g) && Extends(f, g)
    requires 0 <= n < |f| && TrieWord(v) && Reach(f, n, v) != NIL
    ensures Reach(g, n, v) == Reach(f, n, v)
    decreases |v|
  {
    if v != [] {
      var c := f[n][IndiceTrie(v[0])];
      ReachExtends(f, g, c, v[1..]);
    }
  }

  /** A path that ends on a node of `f` after links were added to `f` is a path of `f`:
      the added links lead only to new nodes, and links never lead back. */
  lemma {:induction false} ReachBack(f: seq<seq<int>>, g: seq<seq<int>>, n: int, v: string)
    requires WellLinked(f) && WellLinked(g) && Extends(f, g)
    requires 0 <= n < |f| && TrieWord(v) && Reach(g, n, v) != NIL && Reach(g, n, v) < |f|
    ensures Reach(f, n, v) == Reach(g, n, v)
    decreases |v|
  {
    if v != [] {
      var c := g[n][IndiceTrie(v[0])];
      assert c != NIL && c <= Reach(g, c, v[1..]);
      ReachBack(f, g, c, v[1..]);
    }
  }

  /** A non-empty word leads from the root to a node other than the root. */
  lemma ReachNonEmpty(f: seq<seq<int>>, w: string)
    requires WellLinked(f) && |f| >= 1 && TrieWord(w) && w != [] && Reach(f, 0, w) != NIL
    ensures Reach(f, 0, w) > 0
  {
    var c := f[0][IndiceTrie(w[0])];
    assert c != NIL && 0 < c <= Reach(f, c, w[1..]);
  }

  /** The end of the path of a non-empty word is the last link out of the end of the path
      of the word without its last character. */
  lemma ReachLast(f: seq<seq<int>>, w: string)
    requires WellLinked(f) && |f| >= 1 && TrieWord(w) && w != []
    ensures TrieWord(w[..|w| - 1])
    ensures var p := Reach(f, 0, w[..|w| - 1]);
            Reach(f, 0, w) == if p == NIL then NIL else f[p][IndiceTrie(w[|w| - 1])]
  {
    var w', a := w[..|w| - 1], w[|w| - 1];
    assert w == w' + [a];
    assert TrieWord(w') && TrieWord([a]) by { assert forall i :: 0 <= i < |w'| ==> w'[i] == w[i]; }
    ReachAppend(f, 0, w', [a]);
    var p := Reach(f, 0, w');
    if p != NIL {
      ReachOne(f, p, a);
    }
  }

  /** In a tree two words that lead to the same node are the same word. */
  lemma {:induction false} ReachInjective(f: seq<seq<int>>, letra: seq<char>, pai: seq<int>, u: string, v: string)
    requires WellLinked(f) && |f| >= 1 && Labelled(f, letra) && |letra| == |f| && Parented(f, pai)
    requires TrieWord(u) && TrieWord(v) && Reach(f, 0, u) != NIL && Reach(f, 0, u) == Reach(f, 0, v)
    ensures u == v
    decreases |u|
  {
    if u == [] && v != [] {
      ReachNonEmpty(f, v);
    } else if u != [] && v == [] {
      ReachNonEmpty(f, u);
    } else if u != [] {
      ReachLast(f, u);
      ReachLast(f, v);
      var a, b := u[|u| - 1], v[|v| - 1];
      var p, q := Reach(f, 0, u[..|u| - 1]), Reach(f, 0, v[..|v| - 1]);
      var k := Reach(f, 0, u);
      assert pai[k] == p == q;
      assert CharOf(IndiceTrie(a)) == letra[k] == CharOf(IndiceTrie(b));
      ReachInjective(f, letra, pai, u[..|u| - 1], v[..|v| - 1]);
      assert u == u[..|u| - 1] + [a] && v == v[..|v| - 1] + [b];
    }
  }

  /** Following one character is following its link. */
  lemma ReachOne(f: seq<seq<int>>, n: int, c: char)
    requires WellLinked(f) && 0 <= n < |f| && IndiceTrie(c) != -1
    ensures TrieWord([c]) && Reach(f, n, [c]) == f[n][IndiceTrie(c)]
  {
    assert [c][1..] == [];
  }

  /** A word stored before links were added and word ends set stays stored. */
  lemma StoredMonotone(f: seq<seq<int>>, folha: seq<bool>, g: seq<seq<int>>, folha': seq<bool>, v: string)
    requires StoredAt(f, folha, 0, v) && WellLinked(g) && Extends(f, g) && |folha'| == |g|
    requires forall n :: 0 <= n < |folha| && folha[n] ==> folha'[n]
    ensures StoredAt(g, folha', 0, v)
  {
    ReachExtends(f, g, 0, v);
  }

  /** Appending a node with no children and character c, and linking it as child c of
      `atual`, keeps the arena well linked, labelled and a tree, and only adds a link. */
  lemma AddChild(f: seq<seq<int>>, letra: seq<char>, pai: seq<int>, atual: int, c: char, row: seq<int>)
    requires WellLinked(f) && Labelled(f, letra) && |letra| == |f| && Parented(f, pai) && 0 <= atual < |f|
    requires IndiceTrie(c) != -1 && f[atual][IndiceTrie(c)] == NIL
    requires |row| == TAM_ALFABETO && forall i :: 0 <= i < TAM_ALFABETO ==> row[i] == NIL
    ensures var g := (f + [row])[atual := f[atual][IndiceTrie(c) := |f|]];
            WellLinked(g) && Labelled(g, letra + [c]) && Parented(g, pai + [atual]) && Extends(f, g)
  {
    var g := (f + [row])[atual := f[atual][IndiceTrie(c) := |f|]];
    assert forall n :: 0 <= n < |f| && n != atual ==> g[n] == f[n];
    assert g[|f|] == row;
  }

  /** Marking the end of the path of v, after adding links and unmarked nodes, stores v,
      keeps every word stored before, and sets no other word end. */
  lemma MarkWordEnd(f0: seq<seq<int>>, folha0: seq<bool>, f: seq<seq<int>>, folha: seq<bool>, v: string)
    requires WellLinked(f0) && |folha0| == |f0| && WellLinked(f) && Extends(f0, f) && |f| >= 1
    requires folha == folha0 + seq(|f| - |f0|, _ => false)
    requires TrieWord(v) && Reach(f, 0, v) != NIL
    ensures var folha' := folha[Reach(f, 0, v) := true];
            && StoredAt(f, folha', 0, v)
            && (forall w :: StoredAt(f0, folha0, 0, w) ==> StoredAt(f, folha', 0, w))
            && (forall n :: 0 <= n < |folha'| ==> folha'[n] == ((n < |folha0| && folha0[n]) || n == Reach(f, 0, v)))
  {
    var folha' := folha[Reach(f, 0, v) := true];
    forall w | StoredAt(f0, folha0, 0, w)
      ensures StoredAt(f, folha', 0, w)
    {
      StoredMonotone(f0, folha0, f, folha', w);
    }
  }

  /** Conversely, after marking the end of the path of v in a tree grown from `f0`, a
      stored word is v or was stored before. */
  lemma NothingElseStored(f0: seq<seq<int>>, folha0: seq<bool>, f: seq<seq<int>>, letra: seq<char>, pai: seq<int>,
                          folha: seq<bool>, v: string)
    requires WellLinked(f0) && |folha0| == |f0| && WellLinked(f) && Extends(f0, f) && |f| >= 1
    requires Labelled(f, letra) && |letra| == |f| && Parented(f, pai)
    requires folha == folha0 + seq(|f| - |f0|, _ => false)
    requires TrieWord(v) && Reach(f, 0, v) != NIL
    ensures var folha' := folha[Reach(f, 0, v) := true];
            forall w :: StoredAt(f, folha', 0, w) ==> StoredAt(f0, folha0, 0, w) || w == v
  {
    var folha' := folha[Reach(f, 0, v) := true];
    forall w | StoredAt(f, folha', 0, w)
      ensures StoredAt(f0, folha0, 0, w) || w == v
    {
      var r := Reach(f, 0, w);
      if r == Reach(f, 0, v) {
        ReachInjective(f, letra, pai, w, v);
      } else {
        assert r < |f0| && folha0[r];
        ReachBack(f0, f, 0, w);
      }
    }
  }

  /** Unmarked nodes appended in two rounds are unmarked nodes appended in one. */
  lemma FalseTail(a: seq<bool>, m: nat, n: nat)
    ensures (a + seq(m, _ => false)) + seq(n, _ => false) == a + seq(m + n, _ => false)
  {
  }

  /** Node k is the end of the path of a prefix of w no longer than m. */
  ghost predicate OnPath(f: seq<seq<int>>, w: string, m: int, k: int)
    requires WellLinked(f) && |f| >= 1
  {
    exists j :: 0 <= j <= m && j <= |w| && TrieWord(w[..j]) && Reach(f, 0, w[..j]) == k
  }

  /** A node on the path stays on it when links are added and the prefix may grow. */
  lemma OnPathKept(f: seq<seq<int>>, g: seq<seq<int>>, w: string, m: int, m': int, k: int)
    requires WellLinked(f) && WellLinked(g) && |f| >= 1 && Extends(f, g) && m <= m' && k != NIL
    requires OnPath(f, w, m, k)
    ensures OnPath(g, w, m', k)
  {
    var j :| 0 <= j <= m && j <= |w| && TrieWord(w[..j]) && Reach(f, 0, w[..j]) == k;
    ReachExtends(f, g, 0, w[..j]);
  }

  /** Growing the arena by at most one node, the end of the path of a longer prefix of w,
      keeps every node added since `lo` on the path. */
  lemma OnPathGrow(lo: int, f: seq<seq<int>>, g: seq<seq<int>>, w: string, m: int, m': int)
    requires WellLinked(f) && WellLinked(g) && |f| >= 1 && Extends(f, g) && 0 <= m <= m' <= |w| && lo >= 0
    requires forall k :: lo <= k < |f| ==> OnPath(f, w, m, k)
    requires TrieWord(w[..m']) && |g| <= |f| + 1 && (|g| == |f| + 1 ==> Reach(g, 0, w[..m']) == |f|)
    ensures forall k :: lo <= k < |g| ==> OnPath(g, w, m', k)
  {
    forall k | lo <= k < |g|
      ensures OnPath(g, w, m', k)
    {
      if k < |f| {
        OnPathKept(f, g, w, m, m', k);
      } else {
        assert 0 <= m' <= m' && m' <= |w| && TrieWord(w[..m']) && Reach(g, 0, w[..m']) == k;
      }
    }
  }

  // ---------------------------------------------------------------------------
  // Collecting the words
  // ---------------------------------------------------------------------------

  /** What `coletar_palavras_trie` appends for node n reached with the text `prefixo`:
      `prefixo` itself when n ends a word, then the words of the children in index order,
      each child extending the prefix by its character. */
  ghost function Words(f: seq<seq<int>>, letra: seq<char>, folha: seq<bool>, n: int, prefixo: string): seq<string>
    requires WellLinked(f) && |letra| == |f| && |folha| == |f| && 0 <= n < |f|
    decreases |f| - n, TAM_ALFABETO + 1
  {
    (if folha[n] then [prefixo] else []) + ChildWords(f, letra, folha, n, prefixo, 0)
  }

  /** The words below the children i, i + 1, ..., 26 of node n. */
  ghost function ChildWords(f: seq<seq<int>>, letra: seq<char>, folha: seq<bool>, n: int, prefixo: string, i: int): seq<string>
    requires WellLinked(f) && |letra| == |f| && |folha| == |f| && 0 <= n < |f| && 0 <= i <= TAM_ALFABETO
    decreases |f| - n, TAM_ALFABETO - i
  {
    if i == TAM_ALFABETO then []
    else
      var c := f[n][i];
      (if c == NIL then [] else Words(f, letra, folha, c, prefixo + [letra[c]]))
      + ChildWords(f, letra, folha, n, prefixo, i + 1)
  }

  /** The collected words are exactly `prefixo` followed by a word stored below n. */
  lemma {:induction false} WordsExact(f: seq<seq<int>>, letra: seq<char>, folha: seq<bool>, n: int, prefixo: string, w: string)
    requires WellLinked(f) && |letra| == |f| && |folha| == |f| && Labelled(f, letra) && 0 <= n < |f|
    ensures w in Words(f, letra, folha, n, prefixo) <==>
              |prefixo| <= |w| && w[..|prefixo|] == prefixo && StoredAt(f, folha, n, w[|prefixo|..])
    decreases |f| - n, TAM_ALFABETO + 1
  {
    ChildWordsExact(f, letra, folha, n, prefixo, 0, w);
    if |prefixo| <= |w| && w[..|prefixo|] == prefixo && |w| == |prefixo| {
      assert w == prefixo;
      assert w[|prefixo|..] == [];
    }
  }

  /** The words of children i.. are `prefixo`, a character of index at least i, and a word
      stored below that character's child. */
  lemma {:induction false} ChildWordsExact(f: seq<seq<int>>, letra: seq<char>, folha: seq<bool>, n: int, prefixo: string, i: int, w: string)
    requires WellLinked(f) && |letra| == |f| && |folha| == |f| && Labelled(f, letra) && 0 <= n < |f|
    requires 0 <= i <= TAM_ALFABETO
    ensures w in ChildWords(f, letra, folha, n, prefixo, i) <==>
              |prefixo| < |w| && w[..|prefixo|] == prefixo && IndiceTrie(w[|prefixo|]) >= i &&
              StoredAt(f, folha, n, w[|prefixo|..])
    decreases |f| - n, TAM_ALFABETO - i
  {
    if i < TAM_ALFABETO {
      ChildWordsExact(f, letra, folha, n, prefixo, i + 1, w);
      var c := f[n][i];
      if c != NIL {
        var p' := prefixo + [letra[c]];
        WordsExact(f, letra, folha, c, p', w);
        ChildStep(f, letra, folha, n, prefixo, i, w);
      } else {
        NoChildStep(f, folha, n, prefixo, i, w);
      }
    }
  }

  /** One step below n through the existing child i. */
  lemma ChildStep(f: seq<seq<int>>, letra: seq<char>, folha: seq<bool>, n: int, prefixo: string, i: int, w: string)
    requires WellLinked(f) && |letra| == |f| && |folha| == |f| && Labelled(f, letra) && 0 <= n < |f|
    requires 0 <= i < TAM_ALFABETO && f[n][i] != NIL
    ensures var c := f[n][i];
            var p' := prefixo + [letra[c]];
            (|p'| <= |w| && w[..|p'|] == p' && StoredAt(f, folha, c, w[|p'|..])) <==>
            (|prefixo| < |w| && w[..|prefixo|] == prefixo && IndiceTrie(w[|prefixo|]) == i &&
             StoredAt(f, folha, n, w[|prefixo|..]))
  {
    var c := f[n][i];
    var p' := prefixo + [letra[c]];
    assert letra[c] == CharOf(i);
    if |prefixo| < |w| && w[..|prefixo|] == prefixo {
      var v := w[|prefixo|..];
      assert v[1..] == w[|p'|..];
      if IndiceTrie(w[|prefixo|]) == i {
        assert w[|prefixo|] == CharOf(i);
        assert w[..|p'|] == p';
      }
      if w[..|p'|] == p' {
        assert w[|prefixo|] == CharOf(i);
      }
    }
  }

  /** No word is stored through a missing child. */
  lemma NoChildStep(f: seq<seq<int>>, folha: seq<bool>, n: int, prefixo: string, i: int, w: string)
    requires WellLinked(f) && |folha| == |f| && 0 <= n < |f| && 0 <= i < TAM_ALFABETO && f[n][i] == NIL
    ensures !(|prefixo| < |w| && IndiceTrie(w[|prefixo|]) == i && StoredAt(f, folha, n, w[|prefixo|..]))
  {
    if |prefixo| < |w| && IndiceTrie(w[|prefixo|]) == i && TrieWord(w[|prefixo|..]) {
      assert w[|prefixo|..][0] == w[|prefixo|];
    }
  }

  /** No word occurs twice in the list. */
  predicate NoDuplicates(s: seq<string>)
  {
    forall i, j :: 0 <= i < j < |s| ==> s[i] != s[j]
  }

  lemma DistinctAppend(a: seq<string>, b: seq<string>)
    requires NoDuplicates(a) && NoDuplicates(b) && forall x :: x in a ==> x !in b
    ensures NoDuplicates(a + b)
  {
    forall i, j | 0 <= i < j < |a + b|
      ensures (a + b)[i] != (a + b)[j]
    {
      if i < |a| && j >= |a| {
        assert (a + b)[i] in a && (a + b)[j] == b[j - |a|];
      }
    }
  }

  /** The words collected below node n are pairwise different: child i contributes only
      words whose character after the prefix has index i. */
  lemma {:induction false} WordsDistinct(f: seq<seq<int>>, letra: seq<char>, folha: seq<bool>, n: int, prefixo: string)
    requires WellLinked(f) && |letra| == |f| && |folha| == |f| && Labelled(f, letra) && 0 <= n < |f|
    ensures NoDuplicates(Words(f, letra, folha, n, prefixo))
    decreases |f| - n, TAM_ALFABETO + 1
  {
    var head: seq<string> := if folha[n] then [prefixo] else [];
    ChildWordsDistinct(f, letra, folha, n, prefixo, 0);
    forall x | x in head
      ensures x !in ChildWords(f, letra, folha, n, prefixo, 0)
    {
      ChildWordsExact(f, letra, folha, n, prefixo, 0, x);
    }
    DistinctAppend(head, ChildWords(f, letra, folha, n, prefixo, 0));
  }

  lemma {:induction false} ChildWordsDistinct(f: seq<seq<int>>, letra: seq<char>, folha: seq<bool>, n: int, prefixo: string, i: int)
    requires WellLinked(f) && |letra| == |f| && |folha| == |f| && Labelled(f, letra) && 0 <= n < |f|
    requires 0 <= i <= TAM_ALFABETO
    ensures NoDuplicates(ChildWords(f, letra, folha, n, prefixo, i))
    decreases |f| - n, TAM_ALFABETO - i
  {
    if i < TAM_ALFABETO {
      var c := f[n][i];
      var rest := ChildWords(f, letra, folha, n, prefixo, i + 1);
      ChildWordsDistinct(f, letra, folha, n, prefixo, i + 1);
      if c != NIL {
        var p' := prefixo + [letra[c]];
        var here := Words(f, letra, folha, c, p');
        WordsDistinct(f, letra, folha, c, p');
        forall x | x in here
          ensures x !in rest
        {
          WordsExact(f, letra, folha, c, p', x);
          ChildWordsExact(f, letra, folha, n, prefixo, i + 1, x);
          assert x[|prefixo|] == p'[|prefixo|] == CharOf(i);
        }
        DistinctAppend(here, rest);
      } else {
        assert ChildWords(f, letra, folha, n, prefixo, i) == [] + rest;
      }
    }
  }

  /** The words of node n start with `prefixo` when n ends a word (regrouped after an
      accumulator `acc`). */
  lemma WordsUnfold(f: seq<seq<int>>, letra: seq<char>, folha: seq<bool>, n: int, prefixo: string, acc: seq<string>)
    requires WellLinked(f) && |letra| == |f| && |folha| == |f| && 0 <= n < |f|
    ensures (if folha[n] then acc + [prefixo] else acc) + ChildWords(f, letra, folha, n, prefixo, 0)
            == acc + Words(f, letra, folha, n, prefixo)
  {
    var cw := ChildWords(f, letra, folha, n, prefixo, 0);
    if folha[n] {
      assert acc + ([prefixo] + cw) == (acc + [prefixo]) + cw;
    } else {
      assert [] + cw == cw;
    }
  }

  /** The words of children i.. are those of child i followed by those of children i + 1..
      (regrouped after an accumulator `acc`). */
  lemma ChildWordsUnfold(f: seq<seq<int>>, letra: seq<char>, folha: seq<bool>, n: int, prefixo: string, i: int, acc: seq<string>)
    requires WellLinked(f) && |letra| == |f| && |folha| == |f| && 0 <= n < |f| && 0 <= i < TAM_ALFABETO
    ensures var c := f[n][i];
            var here := if c == NIL then [] else Words(f, letra, folha, c, prefixo + [letra[c]]);
            acc + ChildWords(f, letra, folha, n, prefixo, i) == (acc + here) + ChildWords(f, letra, folha, n, prefixo, i + 1)
  {
    var c := f[n][i];
    var here := if c == NIL then [] else Words(f, letra, folha, c, prefixo + [letra[c]]);
    var rest := ChildWords(f, letra, folha, n, prefixo, i + 1);
    assert ChildWords(f, letra, folha, n, prefixo, i) == here + rest;
    Assoc(acc, here, rest);
  }

  /** The 27 NULL links of a new node, set one by one as `criar_no_trie` does. */
  method NullChildren() returns (filhosNo: seq<int>)
    ensures |filhosNo| == TAM_ALFABETO && forall i :: 0 <= i < TAM_ALFABETO ==> filhosNo[i] == NIL
  {
    filhosNo := [];
    for i := 0 to TAM_ALFABETO
      invariant |filhosNo| == i && forall j :: 0 <= j < i ==> filhosNo[j] == NIL
    {
      filhosNo := filhosNo + [NIL];
    }
  }

  class Trie {
    var letra: seq<char>
    var filhos: seq<seq<int>>
    var ehFolha: seq<bool>
    /** The parent of every node (the root's entry is unused). */
    ghost var pai: seq<int>

    ghost predicate Valid()
      reads this
    {
      && |filhos| >= 1 && |letra| == |filhos| && |ehFolha| == |filhos|
      && WellLinked(filhos) && Labelled(filhos, letra) && Parented(filhos, pai)
    }

    /** The normalised word v is stored. */
    ghost predicate Found(v: string)
      reads this
    {
      StoredAt(filhos, ehFolha, 0, v)
    }

    /** `criar_trie`: a root with character '\0', no children and no word. */
    constructor ()
      ensures Valid()
      ensures letra == ['\0'] && ehFolha == [false] && forall i :: 0 <= i < TAM_ALFABETO ==> filhos[0][i] == NIL
      ensures forall v :: TrieWord(v) && v != [] ==> !Found(v)
    {
      var raiz := NullChildren();
      letra, filhos, ehFolha, pai := ['\0'], [raiz], [false], [NIL];
      new;
      forall v | TrieWord(v) && v != []
        ensures !Found(v)
      {
        assert filhos[0][IndiceTrie(v[0])] == NIL;
      }
    }

    /** `criar_no_trie`: a new node with the given character, 27 NULL links and no word end. */
    method NewNode(c: char) returns (k: int)
      modifies this
      ensures k == old(|filhos|) && letra == old(letra) + [c] && ehFolha == old(ehFolha) + [false]
      ensures |filhos| == k + 1 && filhos[..k] == old(filhos)
      ensures |filhos[k]| == TAM_ALFABETO && forall i :: 0 <= i < TAM_ALFABETO ==> filhos[k][i] == NIL
      ensures pai == old(pai)
    {
      var filhosNo := NullChildren();
      k := |filhos|;
      letra, filhos, ehFolha := letra + [c], filhos + [filhosNo], ehFolha + [false];
    }

    /** One step of `inserir_trie`: create the child `idx` of `atual` when it is NULL, with
        character c, and move to it; `atual` is the end of the path of `path`, and the
        child is the end of the path of `path + [c]`. An existing child leaves the trie as
        it was; otherwise the only change is the new node and its link from `atual`. */
    method Child(atual: int, c: char, idx: int, ghost path: string) returns (prox: int)
      requires Valid() && 0 <= atual < |filhos| && 0 <= idx < TAM_ALFABETO && IndiceTrie(c) == idx
      requires TrieWord(path) && atual == Reach(filhos, 0, path)
      modifies this
      ensures Valid() && Extends(old(filhos), filhos)
      ensures ehFolha == old(ehFolha) + seq(|filhos| - old(|filhos|), _ => false)
      ensures old(filhos)[atual][idx] != NIL ==>
                prox == old(filhos)[atual][idx] && filhos == old(filhos) && letra == old(letra)
      ensures old(filhos)[atual][idx] == NIL ==>
                && prox == old(|filhos|) && letra == old(letra) + [c]
                && filhos == old(filhos)[atual := old(filhos)[atual][idx := prox]] + [seq(TAM_ALFABETO, _ => NIL)]
      ensures TrieWord(path + [c]) && prox == Reach(filhos, 0, path + [c]) && prox != NIL
    {
      if filhos[atual][idx] == NIL {
        var novo := NewNode(c);
        assert filhos[novo] == seq(TAM_ALFABETO, _ => NIL);
        assert filhos == old(filhos) + [filhos[novo]];
        AddChild(old(filhos), old(letra), old(pai), atual, c, filhos[novo]);
        filhos := filhos[atual := filhos[atual][idx := novo]];
        pai := pai + [atual];
      }
      prox := filhos[atual][idx];
      ReachExtends(old(filhos), filhos, 0, path);
      ReachAppend(filhos, 0, path, [c]);
      ReachOne(filhos, atual, c);
    }

    /** `inserir_trie`: follow the normalised word from the root, creating the missing
        children, and mark the last node as a word end. Afterwards the stored words are
        exactly those stored before and the normalised word; the only new word end is the
        word's node. */
    method Insert(palavra: CString)
      requires Valid()
      modifies this
      ensures Valid() && Extends(old(filhos), filhos)
      ensures forall v :: Found(v) <==> old(Found(v)) || v == Normalize(palavra)
      ensures forall k :: old(|filhos|) <= k < |filhos| ==> OnPath(filhos, Normalize(palavra), |Normalize(palavra)|, k)
      ensures forall n :: 0 <= n < |ehFolha| ==>
                ehFolha[n] == ((n < old(|ehFolha|) && old(ehFolha)[n]) || n == Reach(filhos, 0, Normalize(palavra)))
    {
      var atual := InsertPath(palavra);
      MarkWordEnd(old(filhos), old(ehFolha), filhos, ehFolha, Normalize(palavra));
      NothingElseStored(old(filhos), old(ehFolha), filhos, letra, pai, ehFolha, Normalize(palavra));
      ehFolha := ehFolha[atual := true];
    }

    /** The loop of `inserir_trie`: from the root, follow each letter of the word, creating
        the missing children, and return the node reached, the end of the path of the
        normalised word. Only links and unmarked nodes are added. */
    method InsertPath(palavra: CString) returns (atual: int)
      requires Valid()
      modifies this
      ensures Valid() && Extends(old(filhos), filhos)
      ensures ehFolha == old(ehFolha) + seq(|filhos| - old(|filhos|), _ => false)
      ensures TrieWord(Normalize(palavra)) && 0 <= atual < |filhos| && atual == Reach(filhos, 0, Normalize(palavra))
      ensures forall k :: old(|filhos|) <= k < |filhos| ==> OnPath(filhos, Normalize(palavra), |Normalize(palavra)|, k)
    {
      atual := 0;
      for i := 0 to |palavra|
        invariant Valid() && Extends(old(filhos), filhos) && 0 <= atual < |filhos|
        invariant ehFolha == old(ehFolha) + seq(|filhos| - old(|filhos|), _ => false)
        invariant atual == Reach(filhos, 0, Normalize(palavra[..i]))
        invariant forall k :: old(|filhos|) <= k < |filhos| ==> OnPath(filhos, Normalize(palavra), |Normalize(palavra[..i])|, k)
      {
        atual := Advance(palavra, i, atual, old(filhos), old(ehFolha));
      }
      assert palavra[..|palavra|] == palavra;
    }

    /** One turn of the loop of `inserir_trie`, for the character at i: skipped when it
        has no index, otherwise the child is created if missing and becomes the current
        node. The trie grown so far from `f0` stays grown from `f0` along the word's path. */
    method Advance(palavra: CString, i: int, atual: int, ghost f0: seq<seq<int>>, ghost folha0: seq<bool>) returns (prox: int)
      requires Valid() && 0 <= i < |palavra| && WellLinked(f0) && |f0| >= 1 && Extends(f0, filhos)
      requires ehFolha == folha0 + seq(|filhos| - |f0|, _ => false)
      requires 0 <= atual < |filhos| && atual == Reach(filhos, 0, Normalize(palavra[..i]))
      requires forall k :: |f0| <= k < |filhos| ==> OnPath(filhos, Normalize(palavra), |Normalize(palavra[..i])|, k)
      modifies this
      ensures Valid() && Extends(f0, filhos)
      ensures ehFolha == folha0 + seq(|filhos| - |f0|, _ => false)
      ensures 0 <= prox < |filhos| && prox == Reach(filhos, 0, Normalize(palavra[..i + 1]))
      ensures var m := |Normalize(palavra[..i + 1])|;
              forall k :: |f0| <= k < |filhos| ==> OnPath(filhos, Normalize(palavra), m, k)
    {
      var c := ToLower(palavra[i]);
      var idx := IndiceTrie(c);
      NormalizeSnoc(palavra, i);
      if idx == -1 {
        assert Normalize(palavra[..i + 1]) == Normalize(palavra[..i]);
        return atual;
      }
      ghost var p := Normalize(palavra[..i]);
      prox := Child(atual, c, idx, p);
      ExtendsTrans(f0, old(filhos), filhos);
      FalseTail(folha0, old(|filhos|) - |f0|, |filhos| - old(|filhos|));
      NormalizePrefix(palavra, i + 1);
      OnPathGrow(|f0|, old(filhos), filhos, Normalize(palavra), |p|, |p| + 1);
    }

    /** `buscar_trie`: follow the normalised word from the root; 0 as soon as a link is
        NULL, otherwise whether the node reached ends a word. */
    method Search(palavra: CString) returns (resultado: int)
      requires Valid()
      ensures resultado == if Found(Normalize(palavra)) then 1 else 0
    {
      var atual := 0;
      for i := 0 to |palavra|
        invariant atual == Reach(filhos, 0, Normalize(palavra[..i])) && atual != NIL
      {
        var c := ToLower(palavra[i]);
        var idx := IndiceTrie(c);
        NormalizeSnoc(palavra, i);
        if idx == -1 {
          assert Normalize(palavra[..i + 1]) == Normalize(palavra[..i]);
          continue;
        }
        ReachAppend(filhos, 0, Normalize(palavra[..i]), [c]);
        ReachOne(filhos, atual, c);
        if filhos[atual][idx] == NIL {
          DeadEnd(palavra, i + 1);
          return 0;
        }
        atual := filhos[atual][idx];
      }
      assert palavra[..|palavra|] == palavra;
      resultado := if ehFolha[atual] then 1 else 0;
    }

    /** Once the path of a prefix of the word is missing, so is the word's. */
    lemma {:induction false} DeadEnd(palavra: string, i: int)
      requires Valid() && 0 <= i <= |palavra| && Reach(filhos, 0, Normalize(palavra[..i])) == NIL
      ensures !Found(Normalize(palavra))
    {
      NormalizeAppend(palavra[..i], palavra[i..]);
      assert palavra[..i] + palavra[i..] == palavra;
      ReachAppend(filhos, 0, Normalize(palavra[..i]), Normalize(palavra[i..]));
    }

    /** `coletar_palavras_trie`: append to `lista` every word below `no` (NULL appends
        nothing), each written as `prefixo` followed by the characters along its path, and
        raise `total` by their number. */
    method Collect(no: int, prefixo: string, lista: seq<string>, total: int) returns (lista': seq<string>, total': int)
      requires Valid() && (no == NIL || 0 <= no < |filhos|) && total == |lista|
      ensures no == NIL ==> lista' == lista
      ensures no != NIL ==> lista' == lista + Words(filhos, letra, ehFolha, no, prefixo)
      ensures total' == |lista'|
      decreases |filhos| - no, 1
    {
      if no == NIL {
        return lista, total;
      }
      lista', total' := lista, total;
      if ehFolha[no] {
        lista', total' := lista' + [prefixo], total' + 1;
      }
      WordsUnfold(filhos, letra, ehFolha, no, prefixo, lista);
      lista', total' := CollectChildren(no, prefixo, lista', total');
    }

    /** The loop of `coletar_palavras_trie` over the 27 links of `no`, in index order. */
    method CollectChildren(no: int, prefixo: string, lista: seq<string>, total: int) returns (lista': seq<string>, total': int)
      requires Valid() && 0 <= no < |filhos| && total == |lista|
      ensures lista' == lista + ChildWords(filhos, letra, ehFolha, no, prefixo, 0)
      ensures total' == |lista'|
      decreases |filhos| - no, 0
    {
      lista', total' := lista, total;
      for i := 0 to TAM_ALFABETO
        invariant total' == |lista'|
        invariant lista' + ChildWords(filhos, letra, ehFolha, no, prefixo, i) == lista + ChildWords(filhos, letra, ehFolha, no, prefixo, 0)
      {
        var filho := filhos[no][i];
        ghost var before := lista';
        ChildWordsUnfold(filhos, letra, ehFolha, no, prefixo, i, before);
        if filho != NIL {
          lista', total' := Collect(filho, prefixo + [letra[filho]], lista', total');
        }
      }
      assert lista' + [] == lista';
    }

    /** Collecting from the root with an empty prefix lists exactly the stored words, each
        once. */
    lemma CollectRootExact(w: string)
      requires Valid()
      ensures w in Words(filhos, letra, ehFolha, 0, []) <==> Found(w)
      ensures NoDuplicates(Words(filhos, letra, ehFolha, 0, []))
    {
      WordsDistinct(filhos, letra, ehFolha, 0, []);
      WordsExact(filhos, letra, ehFolha, 0, [], w);
      assert w[..0] == [] && w[0..] == w;
    }
  }

  /** The normal form of a prefix of the word is a prefix of the word's normal form. */
  lemma NormalizePrefix(palavra: string, i: int)
    requires 0 <= i <= |palavra|
    ensures var p := Normalize(palavra[..i]);
            |p| <= |Normalize(palavra)| && Normalize(palavra)[..|p|] == p
  {
    NormalizeAppend(palavra[..i], palavra[i..]);
    assert palavra[..i] + palavra[i..] == palavra;
  }

  /** Normalisation reads the word character by character. */
  lemma {:induction false} NormalizeAppend(u: string, v: string)
    ensures Normalize(u + v) == Normalize(u) + Normalize(v)
    decreases |v|
  {
    if v == [] {
      assert u + v == u;
    } else {
      var init := v[..|v| - 1];
      assert (u + v)[..|u + v| - 1] == u + init;
      NormalizeAppend(u, init);
    }
  }
}
